=== FILE: README.md ===
# Marco Polo marketplace core, modelled in Dafny

Marco Polo matches travellers who have spare luggage capacity with senders
who need an item carried. This project models the deterministic core of the
application as pure Dafny functions over immutable data, and proves what its
handlers and client components promise. The core covers:

- the marketplace API:
  - traveller and sender posts: create, validate, filter and list;
  - requests: create with role assignment, the duplicate check and an
    automatic conversation, and list;
  - messages: the participant gate, append, and chronological reads;
  - conversation listing;
  - the pagination arithmetic that every list handler repeats;
- the email-verification token flow: resend a code, and verify a code;
- city lookup:
  - the static catalogue search and lookup by name;
  - the city-search endpoint, with its cache, source combination, static
    fallback and scoring;
  - the API-backed city library, with its cache, merge and lookup maps;
- client logic:
  - the city autocomplete's highlighted-index state machine;
  - the request dialog's payload construction;
  - the six-box verification code entry.

The database becomes an immutable `Marketplace.Store` of tables held as
sequences in insertion order. Row ids, the clock (`now`, in milliseconds)
and `Math.random` (a `real` in [0, 1)) are parameters. The session becomes
an optional caller id. A JSON body field becomes `Http.Field`: absent, a
value of the schema's type, or malformed. A query-string parameter becomes
an `Option<string>`, where an empty string counts as absent, as it does in
JavaScript. Responses are `Http.Result` values, whose `Failure` names the
HTTP status.

Where the source has a defect (see "## Findings"), the handlers keep the
behaviour as written. The evidently intended behaviour is a separate member,
and the properties the source's comments promise are proved about that
member.

Modules: `Base`, `Http`, `Text` (ASCII case folding, the JavaScript `trim`
whitespace set, decimal strings), `Seqs` (filter, stable sort, first match,
de-duplication, top-k), `Paging`, `Marketplace` (the records), `Posts`,
`Requests`, `Messages`, `Conversations`, `Verification`, `CodeEntry`,
`Cities`, `CityData`, `CitySearch`, `ApiCities`, `LookupTables` (how the
endpoint's and the library's lookup tables relate), `Autocomplete`,
`RequestModal`.

## Model

| member | source | states |
|---|---|---|
| Paging.Paginate | src/app/api/requests/route.ts:294-303 | totalPages is the least page count that covers totalCount at `limit` per page; hasNextPage holds exactly when `page * limit < totalCount`; hasPrevPage holds exactly when `page > 1` |
| Paging.Paginated | src/app/api/messages/route.ts:177-178 | a page holds at most `limit` rows: the rows from `(page-1)*limit` on, in order; hasNextPage holds exactly when rows remain after the page |
| Paging.PagesAreContiguous | src/app/api/messages/route.ts:137 | when a next page exists, its `skip` is the current page's `skip` plus the number of rows on the current page, so consecutive pages neither overlap nor leave a gap |
| Paging.RowPosition | src/app/api/requests/route.ts:205 | every selected row has a page: row `i` of the selection is entry `i % limit` of the listing's page `i / limit + 1`, a valid page whose `skip` plus that entry is `i` |
| Paging.EveryRowOnItsPage | src/app/api/conversations/route.ts:103-107 | entry `j` of a page is the selected row at `skip + j`, whenever the selection has that row |
| Paging.Selection | src/app/api/conversations/route.ts:27-105 | the rows a `where` object keeps, ordered by the `orderBy` key (highest first): a sub-multiset of the stored rows holding each kept row as often as it is stored, and no row the filter rejects |
| Paging.Query | src/app/api/conversations/route.ts:24-117 | a listing's items are exactly page `page` of the selection, and its pagination block counts the whole selection; so every item is a stored row that passes the filter, items are in non-increasing key order, and on page 1 with totalCount <= limit every passing row is listed |
| Paging.FirstPageIsEverything | src/app/api/messages/route.ts:177-178 | when the result fits one page, page 1 is the whole sorted result |
| Posts.CreateTravellerPost | src/app/api/posts/traveller/route.ts:25-101 | 401 without a caller, then 400 for an invalid body, then 400 when departure is not before arrival, then 400 when departure is before the request clock; every other body succeeds, appending one ACTIVE post owned by the caller, holding the validated trip and stamped with the database clock; an error leaves the store unchanged |
| Posts.DepartureAtNowAccepted | src/app/api/posts/traveller/route.ts:74-79 | a departure at exactly `now` (and before arrival) is accepted |
| Posts.CreateTravellerPostKeepsWellFormed | src/app/api/posts/traveller/route.ts:66-101 | every stored traveller post has non-empty countries, positive weight and price, and departure before arrival; a create keeps this true |
| Posts.TravellerListed | src/app/api/posts/traveller/route.ts:149-197 | a listed post is ACTIVE and, with `excludeUser`, not that user's; with no query parameters, exactly the ACTIVE posts departing at or after `now` are listed |
| Posts.ListTravellerPosts | src/app/api/posts/traveller/route.ts:133-237 | the items are exactly page `page` of the posts passing the filter, newest first, and the pagination block counts all of them |
| Posts.PublicListingIsUpcoming | src/app/api/posts/traveller/route.ts:153-158 | without `userId` and `dateFrom`, only trips departing at or after `now` are listed |
| Posts.OwnerListingIncludesPastTrips | src/app/api/posts/traveller/route.ts:153-162 | with `userId`, every ACTIVE post of that owner is listed, past trips included |
| Posts.ExcludeUserOverridesUserId | src/app/api/posts/traveller/route.ts:160-168 | `excludeUser` replaces the owner filter with "not this user", while `userId` still switches the date bound off |
| Posts.CreateSenderPost | src/app/api/posts/sender/route.ts:23-80 | 401 without a caller; 400 exactly when the body is invalid; otherwise one ACTIVE post, with no photos, owned by the caller and holding the validated shipment, is appended |
| Posts.SenderListed | src/app/api/posts/sender/route.ts:130-177 | a listed post is ACTIVE, and has a maximum price whenever a price bound is given; with no query parameters, exactly the ACTIVE posts are listed |
| Posts.ListSenderPosts | src/app/api/posts/sender/route.ts:112-218 | the items are exactly page `page` of the posts passing the filter, newest first, and the pagination block counts all of them |
| Posts.UnfilteredSenderListingShowsEveryActivePost | src/app/api/posts/sender/route.ts:130-136 | with no filter, every ACTIVE sender post qualifies, whatever its dates |
| Posts.SenderBoundsInclusive | src/app/api/posts/sender/route.ts:159-177 | the weight and price bounds are inclusive at both ends |
| Requests.AssignRoles | src/app/api/requests/route.ts:60-74 | roles are assigned exactly when the caller owns one of the posts, and then the sender is the sender-post owner and the receiver the traveller-post owner |
| Requests.CreateRequest | src/app/api/requests/route.ts:15-168 | 401, then 400 for an invalid body, then 404 when either post is missing or inactive, then 403 exactly when the caller owns neither post; past those checks, 409 exactly when a request with the same four columns exists, and success exactly when none does; on success exactly one PENDING request and one conversation with participants [sender, receiver] are appended; an error leaves the store unchanged |
| Requests.SelfRequest | src/app/api/requests/route.ts:62-65 | a caller who owns both posts is accepted as both sender and receiver |
| Requests.CreateRequestKeepsRolesMatchingOwners | src/app/api/requests/route.ts:60-70 | the invariant "the sender owns the request's sender post and the receiver owns its traveller post" survives every create |
| Requests.CreateRequestKeepsRequestsUnique | src/app/api/requests/route.ts:78-92 | the invariant "no two requests share the four duplicate-check columns" survives every create |
| Requests.CreateRequestKeepsConversationPerRequest | src/app/api/requests/route.ts:158-168 | the invariant "every request has a conversation whose participants are its sender and receiver" survives every create |
| Requests.ParseStatus | src/app/api/requests/route.ts:224-228 | a status parameter is accepted only when it is the exact name of a status |
| Requests.ParseStatusName | src/app/api/requests/route.ts:224-228 | every status name parses back to its status |
| Requests.Involves | src/app/api/requests/route.ts:210-223 | `type=sent` keeps exactly the requests the user sent, `type=received` exactly those the user received, and any other type those the user sent or received |
| Requests.ListRequests | src/app/api/requests/route.ts:187-303 | 401 exactly without a caller; an unknown status is a server error, and every other call succeeds; the items are exactly page `page` of the requests that involve the caller and have the requested status, newest first, and the pagination block counts all of them |
| Messages.ParseMessageType | src/app/api/messages/route.ts:7-11 | an omitted type defaults to TEXT; a given type is accepted exactly when it is TEXT, SYSTEM or STATUS_UPDATE |
| Messages.Touch | src/app/api/messages/route.ts:90-94 | no conversation is added, removed or moved, and none changes its id, request, participants or creation time; the conversation with the id is marked updated at `now`, and every other one is unchanged |
| Messages.PostMessage | src/app/api/messages/route.ts:13-101 | 401, then 400, then 404 exactly when no conversation with that id lists the caller, and success exactly when one does; on success exactly one message, authored by the caller with the given content and type, is appended, only that conversation's `updatedAt` changes, and posts and requests are untouched; an error leaves the store unchanged |
| Messages.ParticipantMayPostAnyType | src/app/api/messages/route.ts:10 | any participant may post a SYSTEM or STATUS_UPDATE message |
| Messages.PostMessageKeepsAuthorsParticipants | src/app/api/messages/route.ts:39-77 | the invariant "every message's author is a participant of its conversation" survives every post |
| Messages.PostMessageKeepsConversationPerRequest | src/app/api/messages/route.ts:71-94 | posting a message keeps every request's conversation and its participants |
| Messages.ListMessages | src/app/api/messages/route.ts:113-196 | 401; 400 without a conversation id; 404 exactly when the caller is not a participant, and success exactly when the caller is; the items are exactly page `page` of that conversation's messages, oldest first, and totalCount counts all of them |
| Conversations.OtherParticipant | src/app/api/conversations/route.ts:122 | the first participant other than the caller, or none exactly when every participant is the caller |
| Conversations.SelfConversationHasNoOther | src/app/api/conversations/route.ts:122-127 | a self-request conversation shows no other participant |
| Conversations.TwoPartiesSeeEachOther | src/app/api/conversations/route.ts:122 | in a two-party conversation, each party sees the other |
| Conversations.Newest | src/app/api/conversations/route.ts:89-94 | a message with the greatest createdAt, or none exactly for no messages |
| Conversations.NewestMessageOf | src/app/api/conversations/route.ts:89-94 | a conversation's newest message is one of its stored messages and no message of it is newer; there is none exactly when it has no messages |
| Conversations.ViewOf | src/app/api/conversations/route.ts:89-129 | a view carries its conversation; the other participant is never the caller, and is null exactly when every participant is the caller; the latest message is the conversation's newest, null exactly when it has none; unreadCount is always 0 |
| Conversations.ListConversations | src/app/api/conversations/route.ts:6-143 | 401 exactly without a caller, and success otherwise; the items are the views of exactly page `page` of the conversations listing the caller, most recently updated first, and totalCount counts all of them |
| Verification.MarkVerified | src/app/api/auth/verify-email/route.ts:43-48 | every user with the email is marked verified at `now`; every other user is unchanged, and no user is added or removed |
| Verification.VerifyEmail | src/app/api/auth/verify-email/route.ts:10-60 | 400 for an invalid body; 400 exactly when no token for that email and code is unexpired (expiry inclusive); success exactly when a usable token exists and the user exists, and then the user is marked verified and only tokens with that code are removed; an error leaves the store unchanged |
| Verification.TokenExpiringNowIsAccepted | src/app/api/auth/verify-email/route.ts:29-31 | a token that expires exactly at `now` is still accepted |
| Verification.CodeIsSingleUse | src/app/api/auth/verify-email/route.ts:51-55 | after a successful verify, the same code is rejected |
| Verification.CodeNumber | src/app/api/auth/resend-verification/route.ts:48 | `floor(100000 + random * 900000)` lies in [100000, 999999] |
| Verification.NewCode | src/app/api/auth/resend-verification/route.ts:48 | the new code is six decimal digits whose value is the drawn number |
| Verification.UserOf | src/app/api/auth/resend-verification/route.ts:24-33 | the first user with the email, or none exactly when no user has it |
| Verification.ResendVerification | src/app/api/auth/resend-verification/route.ts:9-64 | 400 for an invalid email; 404 for an unknown user and 400 for a verified one, both leaving the store unchanged; for an unverified user, success exactly when the new code is not already another email's token, and otherwise a server error; on success every earlier token of the email is gone and exactly one new token, expiring at now + 600000, remains for it |
| Verification.VerifyKeepsTokensUnique | src/app/api/auth/verify-email/route.ts:51-55 | the invariant "no two tokens share a code" survives a verify |
| Verification.ResendKeepsTokensUnique | src/app/api/auth/resend-verification/route.ts:43-58 | the invariant "no two tokens share a code" survives a resend |
| Verification.ResendThenVerify | src/app/api/auth/resend-verification/route.ts:48-55 | a freshly sent code verifies exactly up to ten minutes later, and then marks the user verified |
| Verification.VerifiedUserCannotResend | src/app/api/auth/resend-verification/route.ts:35-40 | once verified, a resend is refused and changes nothing |
| CodeEntry.InitialWellFormed | src/app/auth/verify-email/page.tsx:11 | the form starts as six cells of at most one digit each |
| CodeEntry.HandleCodeChange | src/app/auth/verify-email/page.tsx:25-29 | an input of at most one digit replaces just the cell at the index; any other input changes nothing |
| CodeEntry.HandleCodeChangeKeepsWellFormed | src/app/auth/verify-email/page.tsx:25-29 | the invariant "six cells of at most one digit each" survives every change |
| CodeEntry.ClearingUndoesTyping | src/app/auth/verify-email/page.tsx:26-29 | typing a digit into an empty cell and then clearing it restores the cells |
| CodeEntry.Join | src/app/auth/verify-email/page.tsx:51 | the boxes' contents in box order: with one character per box, the code has one character per box and position `i` holds box `i`'s character; cells of digits join to digits |
| CodeEntry.JoinLength | src/app/auth/verify-email/page.tsx:51 | the joined code is at most as long as the cell count, and exactly as long precisely when no cell is empty |
| CodeEntry.Submit | src/app/auth/verify-email/page.tsx:51-56 | a code is submitted exactly when the joined cells have length 6 |
| CodeEntry.SubmitIffComplete | src/app/auth/verify-email/page.tsx:51-56 | submission happens exactly when all six cells are filled, and the code sent is six digits long, character `i` being box `i`'s digit |
| CodeEntry.InitialCannotSubmit | src/app/auth/verify-email/page.tsx:11-56 | the empty form cannot be submitted |
| Cities.SearchIn | src/lib/cities.ts:107-119 | a query shorter than 2 gives nothing; otherwise the first min(10, n) catalogue entries whose name, country or an airport contains the trimmed, lower-cased query, in catalogue order |
| Cities.SearchCities | src/lib/cities.ts:107-119 | at most 10 results, all drawn from the catalogue |
| Cities.SearchIsComplete | src/lib/cities.ts:112-118 | when at most 10 entries match, every matching entry is returned |
| Cities.NormalizedQueriesAgree | src/lib/cities.ts:110 | queries of length at least 2 that differ only in case or surrounding whitespace give the same result |
| Cities.SearchIgnoresCase | src/lib/cities.ts:110-116 | an upper-cased query gives the same result |
| Cities.BlankQueryListsCatalogueHead | src/lib/cities.ts:108-118 | a whitespace-only query of length at least 2 returns the first 10 catalogue entries |
| Cities.CityByNameIn | src/lib/cities.ts:121-125 | the first entry whose name equals the input ignoring case, or none exactly when there is no such entry |
| Cities.GetCityByName | src/lib/cities.ts:121-125 | a city found by name is a catalogue entry whose name equals the input ignoring case |
| Cities.FindsOwnName | src/lib/cities.ts:121-125 | every entry is found by its own name, in any case |
| Seqs.DedupeBy | src/app/api/cities/search/route.ts:155-163 | keeps only the first element of each key, ordered as the keys first occur in the input: the output keys are pairwise distinct, and every input key survives |
| Seqs.DedupeAgree | src/app/api/cities/search/route.ts:155-163 | two keys that tell the same elements apart give the same de-duplication |
| Seqs.TopBy | src/app/api/cities/search/route.ts:231-253 | filter, sort by a key (highest first) and cut: exactly min(limit, matches) matching elements, each match at most as often as it occurs (a sub-multiset of the matches), in non-increasing key order, and no omitted match has a higher key than a kept one |
| Seqs.CutFacts | src/app/api/cities/search/route.ts:82-85 | the first `limit` of a ranked list are drawn from it, stay in order, number min(limit, length), and outrank every element left out |
| CityData.RemoveDuplicatesAsWritten | src/app/api/cities/search/route.ts:155-163 | keeps the first city per text key `lower(name)-code`, ordered as those keys first occur in the input: the kept cities' text keys are pairwise distinct, and every input text key survives |
| CityData.RemoveDuplicates | src/app/api/cities/search/route.ts:155-163 | as intended: keeps only the first city per (lower-cased name, country code) pair, ordered as those pairs first occur in the input; the output pairs are pairwise distinct, and every input pair survives |
| CityData.TextKeyMergesDistinctCities | src/app/api/cities/search/route.ts:158 | two cities with different (name, code) pairs share a text key, so the text-key filter drops one of them and the pair-key filter keeps both |
| CityData.TextKeyInjectiveWithoutHyphen | src/app/api/cities/search/route.ts:158 | when neither country code contains '-', equal text keys imply equal (name, code) pairs |
| CityData.AsWrittenAgreesWithoutHyphenatedCodes | src/app/api/cities/search/route.ts:155-163 | when no country code contains '-', the text-key and pair-key de-duplications give the same list |
| CityData.CountryCodeWith | src/app/api/cities/search/route.ts:257-264 | the mapped code, or else the first two characters upper-cased |
| CityData.MainAirportOf | src/lib/api-cities.ts:303-306 | the first listed airport, or none exactly for an empty list |
| CitySearch.Tier | src/app/api/cities/search/route.ts:239-245 | an exact name match scores 1100 (exact plus prefix); any other city scores at most 100 |
| CitySearch.StaticPopulationsBounded | src/app/api/cities/search/route.ts:187-229 | every static city's population is below 10^9 |
| CitySearch.RankIn | src/app/api/cities/search/route.ts:231-253 | exactly min(limit, matches) matching cities, a sub-multiset of the matches, in non-increasing score order; no omitted match scores above a kept one; every match appears when `limit` covers them all |
| CitySearch.ResultsAsWrittenIn | src/app/api/cities/search/route.ts:231-253 | the source's ranking: exactly min(limit, matches) matching cities, none repeated beyond its occurrences, by non-increasing (1000·exact + 100·prefix + population), none outscored by an omitted match |
| CitySearch.ResultsIn | src/app/api/cities/search/route.ts:231-253 | the intended tiered ranking: exactly min(limit, matches) matching cities, none repeated beyond its occurrences, by non-increasing tier, then population, none outscored by an omitted match, complete when `limit` covers every match |
| CitySearch.ExactMatchesComeFirst | src/app/api/cities/search/route.ts:239-245 | under the tiered ranking, exact matches precede all others, and prefix matches precede non-prefix matches |
| CitySearch.HigherScoreComesFirst | src/app/api/cities/search/route.ts:238-252 | in a ranking ordered by non-increasing score, a city with a strictly higher score sits strictly earlier |
| CitySearch.KermanScores | src/app/api/cities/search/route.ts:238-252 | for "kerman" (populations at lines 205 and 213), Kerman is an exact match, yet scores 516100 against Kermanshah's 946100 as written; the tiered score reverses the order |
| CitySearch.KermanRanksBelowKermanshah | src/app/api/cities/search/route.ts:238-252 | as written, whenever both are listed for "kerman", Kermanshah comes before Kerman |
| CitySearch.KermanRanksFirstWhenTiered | src/app/api/cities/search/route.ts:238-252 | under the tiered ranking, Kerman comes before Kermanshah |
| CitySearch.SearchFromApisWith | src/app/api/cities/search/route.ts:63-91 | as written: with a failed first source, the static results in the source's ranking; otherwise exactly min(limit, n) cities of the n text-key-distinct gathered ones, each the first of its text key, in rank order, none outranked by an omitted one; the second source is consulted only when the first gave fewer than `limit` |
| CitySearch.SearchFromApisIntended | src/app/api/cities/search/route.ts:63-91 | as intended: the same pipeline with the tiered static ranking and the pair-key de-duplication, so distinct (name, code) pairs are never merged |
| CitySearch.LiveResultsAgreeWithoutHyphenatedCodes | src/app/api/cities/search/route.ts:80-85 | when no gathered country code contains '-', the live results as written and as intended coincide |
| CitySearch.SecondSourceOnlyWhenShort | src/app/api/cities/search/route.ts:71-79 | when the first source yields at least `limit` cities, the second source's answer makes no difference |
| CitySearch.CacheKey | src/app/api/cities/search/route.ts:38 | the key is the lower-cased query, a '-', then the decimal limit |
| CitySearch.CacheKeyIgnoresCase | src/app/api/cities/search/route.ts:38 | queries that differ only in letter case share a key |
| CitySearch.CacheKeySeparatesLimits | src/app/api/cities/search/route.ts:38 | the same query with two different limits uses two different keys |
| CitySearch.Fresh | src/app/api/cities/search/route.ts:43 | an entry is fresh exactly while less than 30 minutes have passed since it was stored |
| CitySearch.Search | src/app/api/cities/search/route.ts:23-53 | 400 exactly for a missing or short query or an unparsable limit, with the cache unchanged; a fresh entry under `lower(query)-limit` is returned as is; a miss computes the answer as written and stores it with timestamp `now`; other cache keys are untouched |
| CitySearch.RepeatWithinWindowIsCached | src/app/api/cities/search/route.ts:38-51 | repeating a query in any letter case within 30 minutes returns the first answer, whatever the sources say then |
| CitySearch.GetCountryCode | src/app/api/cities/search/route.ts:257-264 | the code from the 13-country map, or else the first two characters upper-cased |
| CitySearch.GetAirports | src/app/api/cities/search/route.ts:276-284 | the mapped airport list for a listed city, and an empty list exactly for an unlisted one; every code has three letters |
| CitySearch.GetMainAirport | src/app/api/cities/search/route.ts:286-289 | the first of the city's airports, or none exactly when it has none |
| ApiCities.Settled | src/lib/api-cities.ts:36-51 | failed sources are dropped; a fulfilled countries lookup gives the leading cities and a fulfilled GeoNames lookup the trailing ones, and the length is the sum of the fulfilled lists |
| ApiCities.Ranked | src/lib/api-cities.ts:53-55 | as written: de-duplicated by text key `lower(name)-code`, the first city of each key surviving, in rank order, drawn from the input, and every input text key survives |
| ApiCities.RankedIntended | src/lib/api-cities.ts:53-55 | as intended: de-duplicated by the (name, code) pair, the first city of each pair surviving, in rank order, drawn from the input, and every input pair survives |
| ApiCities.RankedDropsClashingCity | src/lib/api-cities.ts:141-149 | the cities ("x-1", "") and ("x", "1-") collapse to one as written but stay two as intended |
| ApiCities.SearchCitiesApi | src/lib/api-cities.ts:23-61 | a short query gives nothing and touches no cache; a fresh entry under `lower(query)` yields its first `limit` cities; a miss stores the ranking of the settled lookups (`Ranked`), expiring at now + 1800000, and returns its first `limit` cities; other keys are untouched |
| ApiCities.LimitsShareOneRanking | src/lib/api-cities.ts:26-31 | within the cache window, a repeated query in any case and with any limit is answered from the stored list, so a smaller limit gives a prefix of a larger one |
| ApiCities.GetCountryCode | src/lib/api-cities.ts:176-222 | the code from the 41-entry map, or else the first two characters upper-cased |
| ApiCities.EmiratesSpellingsAgree | src/lib/api-cities.ts:202 | "UAE" and "United Arab Emirates" both map to AE |
| ApiCities.GetAirportsForCity | src/lib/api-cities.ts:271-301 | the mapped airport list for a listed city, and an empty list exactly for an unlisted one; every code has three letters |
| ApiCities.GetMainAirport | src/lib/api-cities.ts:303-306 | the first of the city's airports, or none exactly when it has none |
| LookupTables.CountryTablesAgree | src/lib/api-cities.ts:176-222 | every country the search endpoint's table lists, the library's table lists too, and a country the library does not list gets the same fallback code from both lookups |
| LookupTables.AirportTablesAgree | src/lib/api-cities.ts:271-301 | where the library lists a city, the search endpoint's airport list for it is a prefix of the library's |
| LookupTables.MainAirportsAgree | src/lib/api-cities.ts:303-306 | where both tables list a city, the endpoint and the library name the same main airport |
| Autocomplete.Refresh | src/components/ui/city-autocomplete.tsx:36-46 | a value change clears the highlight; an empty value gives no suggestions and a closed list; otherwise the suggestions are the catalogue search of the value, and the list is open exactly when there are some |
| Autocomplete.HandleKey | src/components/ui/city-autocomplete.tsx:75-100 | keys do nothing on a closed or empty list; ArrowDown moves the highlight down but not past the last entry; ArrowUp moves it up but not below 0, and leaves -1 alone; Enter selects the highlighted entry only when one is highlighted, then closes the list and clears the highlight; Escape closes the list and clears the highlight; other keys do nothing |
| Autocomplete.Click | src/components/ui/city-autocomplete.tsx:69-73 | clicking a suggestion reports it, closes the list and clears the highlight |
| Autocomplete.HandleFocus | src/components/ui/city-autocomplete.tsx:102-106 | focus opens the list exactly when the value and the suggestions are both non-empty, and changes nothing else |
| Autocomplete.HandleMouseDown | src/components/ui/city-autocomplete.tsx:48-62 | a press outside both the input and the rendered dropdown closes the list and clears the highlight, leaving value and suggestions alone; any other press changes nothing |
| Autocomplete.Step | src/components/ui/city-autocomplete.tsx:36-98 | every event keeps the highlighted index at least -1 and below the number of suggestions, and keeps an open list non-empty |
| Autocomplete.Run | src/components/ui/city-autocomplete.tsx:36-98 | the bounds invariant holds after any sequence of events |
| Autocomplete.Mount | src/components/ui/city-autocomplete.tsx:30-46 | the initial state satisfies the bounds invariant, with nothing highlighted |
| Autocomplete.StepKeepsConsistent | src/components/ui/city-autocomplete.tsx:36-46 | after any event, the suggestions are still those of the current value |
| Autocomplete.ArrowDownWalksTheList | src/components/ui/city-autocomplete.tsx:79-84 | n ArrowDown presses from no highlight reach entry min(n, length) - 1 |
| Autocomplete.DownThenEnterPicksFirst | src/components/ui/city-autocomplete.tsx:79-94 | ArrowDown then Enter on a freshly opened list selects its first suggestion |
| RequestModal.OppositeKind | src/components/requests/request-modal.tsx:80-82 | the kind of post offered is never the target's kind |
| RequestModal.OppositeIsInvolution | src/components/requests/request-modal.tsx:172 | the opposite of the opposite kind is the kind itself |
| RequestModal.PostsFetched | src/components/requests/request-modal.tsx:85-97 | the fetched posts replace the offer; a single post is auto-selected; otherwise the selection stays |
| RequestModal.MessageField | src/components/requests/request-modal.tsx:123 | the trimmed message, omitted exactly when it is empty after trimming |
| RequestModal.PriceField | src/components/requests/request-modal.tsx:124 | omitted exactly for an empty input; otherwise the parsed number, or a value the schema rejects when parsing fails |
| RequestModal.Payload | src/components/requests/request-modal.tsx:120-125 | the target id sits in the slot of its own kind and the selected id in the other slot |
| RequestModal.Submit | src/components/requests/request-modal.tsx:115-125 | a body is sent exactly when there is a selection, a target and a session |
| RequestModal.FreshDialogCannotSubmit | src/components/requests/request-modal.tsx:106-116 | opening the dialog clears the selection, so submitting right after opening sends nothing |
| RequestModal.SinglePostIsSubmittable | src/components/requests/request-modal.tsx:95-125 | with exactly one post on offer, the dialog can submit at once, pairing that post with the target |
| RequestModal.DialogRequestRoles | src/components/requests/request-modal.tsx:120-125 | a body built by the dialog is never refused as forbidden or not found; answering a traveller post makes the caller the sender, and answering a sender post makes the caller the receiver |
| RequestModal.OwnerGetsRole | src/app/api/requests/route.ts:60-74 | with both posts active, a caller owning either one is neither refused as forbidden nor told a post is missing; owning the sender post makes the caller the sender, otherwise the caller is the receiver |

## Left out

- Request status transitions after creation (accept, reject, complete, cancel, and any system messages they would send). No handler for them is part of this model.
- Rendering, navigation and display helpers: dates, flags, location strings, status colours, pages and layouts.
- The client post forms. They repeat the server checks using floating-point parsing.
- Database I/O. Creating a request and creating its conversation are two writes with no transaction. The model performs them as one step, but does not claim that the two happen atomically, nor that storage enforces uniqueness; uniqueness holds only through the handler's own check (`Requests.NoDuplicateRequests`).
- The database's order among rows with equal sort keys is unspecified. The model breaks such ties by keeping stored order (a stable sort), so its listings fix one of the orders the database may return.
- Concurrency. Races between the duplicate check and the insert, or between two message posts, are not modelled.
- Two clocks in CreateTravellerPost only. Its departure check reads the handler's `new Date()` (`now`), while the post's creation time is the database default (`createdAt`). These are separate parameters, and no relation between them is assumed.
- One clock elsewhere. Every other handler takes a single `now` for all the times it touches, although the source reads the clock more than once:
  - PostMessage stamps the message's database-default creation time and the conversation's `updatedAt` (src/app/api/messages/route.ts:93) with the same `now`;
  - VerifyEmail checks the token's expiry (src/app/api/auth/verify-email/route.ts:30) and sets `emailVerified` (:46) with the same `now`;
  - CreateRequest stamps the request and its conversation with the same `now`.
- The external HTTP fetches (countriesnow, GeoNames) become `CityData.Fetch` inputs: a city list, or failure. The city-list parsing and `getRegionFromCountry`/`getRegion`/`getPopulation`, which only fill in fetched records, are left out. The subregion and coordinates of fetched cities are left out for the same reason.
- The `Math.log10` relevance sort of fetched cities becomes a `rank` parameter. The model proves only that the result is ordered by that rank, de-duplicated, and drawn from the input.
- Authentication (NextAuth, bcrypt) becomes an optional caller id. Seed data is not modelled.
- Case folding and trimming are ASCII-only for letters. Unicode case mapping is not modelled.
- A body that is not valid JSON, and any database exception other than the token-value clash, would produce a 500 response. These are not modelled, except that `Requests.ListRequests` reports an unknown status filter as a server error.
- `ApiCities.SearchCitiesApi`: the `catch` branch of `searchCitiesAPI` cannot be reached once the fetches are settled, and it is not modelled.
- Tokens are assumed to be looked up by value alone, as the `token` column of the NextAuth schema is unique. That schema is not part of this model.
- Keys such as `"__proto__"` or `"constructor"` would hit the JavaScript prototype in the lookup maps. The maps are modelled as plain Dafny maps.
- Floating-point numbers (weights, prices, the random draw) are modelled as exact reals.
- Paging.Paginate: requires `page >= 1` and `limit >= 1`. A `parseInt` result that is NaN, zero or negative is not modelled.
- Paging.Query: requires `page >= 1` and `limit >= 1`, for the same reason.
- Posts.ListTravellerPosts: requires `page >= 1` and `limit >= 1`; invalid `dateFrom`/`dateTo` strings (an invalid `Date`) are not modelled.
- Posts.ListSenderPosts: requires `page >= 1` and `limit >= 1`; bounds that `parseFloat` turns into NaN are not modelled.
- Requests.ListRequests: requires `page >= 1` and `limit >= 1`.
- Messages.ListMessages: requires `page >= 1` and `limit >= 1`.
- Conversations.ListConversations: requires `page >= 1` and `limit >= 1`.
- Verification.VerifyEmail: the email check is a simplified stand-in for the schema's email format (one `@` with text on both sides, and no whitespace).
- Verification.ResendVerification: uses the same simplified email check.
- CitySearch.Search: a `limit` that `parseInt` cannot read is passed as `None`. The cache key is built exactly as in the source, so it shares the source's key clash between different queries and limits: query "ab-" with limit 1 and query "ab" with limit -1 both use the key "ab--1". `CitySearch.CacheKeySeparatesLimits` holds only for one query at a time.
- Cities.SearchCities: states only the bounds of the fixed catalogue's search. The full result is stated by `Cities.SearchIn`, which takes the catalogue as a parameter.
- Cities.GetCityByName: states only that a found city matches. The "none exactly when no entry matches" direction is stated by `Cities.CityByNameIn`, which takes the catalogue as a parameter; restating it over the fixed catalogue literal is too costly for the verifier.
- LookupTables.CountryTablesAgree: does not state that the 13 countries both tables list map to the same codes; comparing that many string literals is too costly for the verifier. `ApiCities.EmiratesSpellingsAgree` states one such code.
- Autocomplete.HandleMouseDown: the dropdown's DOM node is modelled as present exactly while the list is open and non-empty. Focus movement between inputs is left out.
- CodeEntry.HandleCodeChange: moving the focus to the next or previous box is left out.

## Findings

| source | as written | input that shows it | evidently intended | confidence | as-written member | corrected member |
|---|---|---|---|---|---|---|
| src/app/api/cities/search/route.ts:238-252 | static results are sorted by 1000·exact + 100·prefix + population, so the population term outweighs both match bonuses | query "kerman": Kermanshah (946000 + 100) is ranked before the exact match Kerman (515000 + 1000 + 100) | the comparator's comments order exact matches first, prefix matches second and population third; the tiered score `Tier * 10^9 + population` does that | high for the ordering, medium that it is unintended; not executed | CitySearch.KermanRanksBelowKermanshah | CitySearch.ExactMatchesComeFirst |
| src/app/api/cities/search/route.ts:155-163 | fetched cities are de-duplicated by the string `${name.toLowerCase()}-${countryCode}`, which two different (name, code) pairs can share | name "x-1" with code "" and name "x" with code "1-" both give the key "x-1-", so the second city is dropped | de-duplicate by the (lower-cased name, country code) pair | low: real country codes are two letters, so the clash needs unusual data; not executed | CityData.TextKeyMergesDistinctCities | CitySearch.SearchFromApisIntended |
| src/lib/api-cities.ts:141-149 | `removeDuplicateCities` builds the same text key, so the library's ranked list merges the same pairs | the cities ("x-1", "") and ("x", "1-") leave one city instead of two | de-duplicate by the (lower-cased name, country code) pair | low: real country codes are two letters, so the clash needs unusual data; not executed | ApiCities.RankedDropsClashingCity | ApiCities.RankedIntended |

=== FILE: api_cities.dfy ===
/** `searchCitiesAPI` of the shared city library: the length guard, a
    30-minute cache keyed by the lower-cased query alone (the limit is
    applied when reading), and the merge of both sources' settled results;
    plus that library's country-code and airport lookups. */
module ApiCities {
  import opened Base
  import Seqs
  import opened Text
  import opened CityData

  /** The two caches of the library (`cityCache` and `cacheExpiry`), which
      are always written together, as one map. */
  datatype CacheEntry = CacheEntry(data: seq<GeoCity>, expiry: Time)
  type Cache = map<string, CacheEntry>

  /** The default of the `limit` parameter. */
  const DefaultLimit := 10

  /** The cities of the lookups that settled successfully, the countries
      lookup first. */
  function Settled(rest: Fetch, geo: Fetch): (cities: seq<GeoCity>)
    ensures forall k :: 0 <= k < |cities| ==>
              (rest.Fetched? && cities[k] in rest.cities) || (geo.Fetched? && cities[k] in geo.cities)
    ensures rest.Fetched? ==> rest.cities <= cities
    ensures rest.Failed? && geo.Failed? ==> cities == []
    ensures geo.Fetched? ==> |geo.cities| <= |cities| && cities[|cities| - |geo.cities|..] == geo.cities
    ensures |cities| == (if rest.Fetched? then |rest.cities| else 0) + (if geo.Fetched? then |geo.cities| else 0)
  {
    (if rest.Fetched? then rest.cities else []) + (if geo.Fetched? then geo.cities else [])
  }

  /** `sortCitiesByRelevance(removeDuplicateCities(cities))` as written:
      one city per glued key, highest rank first, nothing invented. */
  function Ranked(cities: seq<GeoCity>, rank: GeoCity -> real): (r: seq<GeoCity>)
    ensures Seqs.DistinctBy(r, TextKey)
    ensures Seqs.NonIncreasing(r, rank)
    ensures forall k :: 0 <= k < |r| ==> r[k] in cities && Seqs.FirstOfKey(cities, TextKey, r[k])
    ensures forall i :: 0 <= i < |cities| ==> Seqs.HasKey(r, TextKey, TextKey(cities[i]))
  {
    var unique := RemoveDuplicatesAsWritten(cities);
    var sorted := Seqs.SortDesc(unique, rank);
    ReorderKeepsFacts(cities, unique, sorted, TextKey);
    sorted
  }

  /** The same with the intended de-duplication: one city per (name,
      country code) pair. */
  function RankedIntended(cities: seq<GeoCity>, rank: GeoCity -> real): (r: seq<GeoCity>)
    ensures Seqs.DistinctBy(r, PairKey)
    ensures Seqs.NonIncreasing(r, rank)
    ensures forall k :: 0 <= k < |r| ==> r[k] in cities && Seqs.FirstOfKey(cities, PairKey, r[k])
    ensures forall i :: 0 <= i < |cities| ==> Seqs.HasKey(r, PairKey, PairKey(cities[i]))
  {
    var unique := RemoveDuplicates(cities);
    var sorted := Seqs.SortDesc(unique, rank);
    ReorderKeepsFacts(cities, unique, sorted, PairKey);
    sorted
  }

  /** The ranking as written loses one of two cities whose pairs differ but
      whose glued keys clash; the intended one keeps both. */
  lemma RankedDropsClashingCity(rank: GeoCity -> real)
    ensures var a := GeoCity("x-1", "", "", "", None, [], None);
            var b := GeoCity("x", "", "1-", "", None, [], None);
            |Ranked([a, b], rank)| == 1 && |RankedIntended([a, b], rank)| == 2
  {
    TextKeyMergesDistinctCities();
  }

  /** Re-ordering a de-duplicated selection keeps it de-duplicated, drawn
      from the input, and covering every input key. */
  lemma ReorderKeepsFacts<K>(cities: seq<GeoCity>, unique: seq<GeoCity>, sorted: seq<GeoCity>, key: GeoCity -> K)
    requires Seqs.DistinctBy(unique, key)
    requires forall k :: 0 <= k < |unique| ==> unique[k] in cities && Seqs.FirstOfKey(cities, key, unique[k])
    requires forall i :: 0 <= i < |cities| ==> Seqs.HasKey(unique, key, key(cities[i]))
    requires multiset(sorted) == multiset(unique)
    ensures Seqs.DistinctBy(sorted, key)
    ensures forall k :: 0 <= k < |sorted| ==> sorted[k] in cities && Seqs.FirstOfKey(cities, key, sorted[k])
    ensures forall i :: 0 <= i < |cities| ==> Seqs.HasKey(sorted, key, key(cities[i]))
  {
    Seqs.PermutationKeepsDistinct(unique, sorted, key);
    forall k | 0 <= k < |sorted| ensures sorted[k] in cities && Seqs.FirstOfKey(cities, key, sorted[k]) {
      assert sorted[k] in multiset(unique);
      var j :| 0 <= j < |unique| && unique[j] == sorted[k];
    }
    forall i | 0 <= i < |cities| ensures Seqs.HasKey(sorted, key, key(cities[i])) {
      Seqs.PermutationKeepsKeys(unique, sorted, key, key(cities[i]));
    }
  }

  /** `searchCitiesAPI(query, limit)` at time `now`: the answer and the
      cache afterwards. `rank` is the relevance score of
      `sortCitiesByRelevance`. */
  function SearchCitiesApi(cache: Cache, query: string, limit: int, now: Time,
                           rest: Fetch, geo: Fetch, rank: GeoCity -> real): (r: (seq<GeoCity>, Cache))
    ensures |query| < 2 ==> r == ([], cache)
    ensures |query| >= 2 && ToLower(query) in cache && cache[ToLower(query)].expiry > now ==>
              r == (Seqs.SliceTo(cache[ToLower(query)].data, limit), cache)
    ensures limit >= 0 ==> |r.0| <= limit
    ensures |query| >= 2 ==>
              && ToLower(query) in r.1
              && r.1[ToLower(query)].expiry > now
              && r.0 == Seqs.SliceTo(r.1[ToLower(query)].data, limit)
              && forall k :: k in cache && k != ToLower(query) ==> k in r.1 && r.1[k] == cache[k]
    ensures |query| >= 2 && !(ToLower(query) in cache && cache[ToLower(query)].expiry > now) ==>
              && r.1[ToLower(query)].expiry == now + CacheDuration
              && Seqs.DistinctBy(r.1[ToLower(query)].data, TextKey)
              && Seqs.NonIncreasing(r.1[ToLower(query)].data, rank)
              && forall k :: 0 <= k < |r.1[ToLower(query)].data| ==>
                   r.1[ToLower(query)].data[k] in Settled(rest, geo)
    ensures |query| >= 2 && !(ToLower(query) in cache && cache[ToLower(query)].expiry > now) ==>
              r.1[ToLower(query)].data == Ranked(Settled(rest, geo), rank)
  {
    if |query| < 2 then ([], cache)
    else
      var key := ToLower(query);
      if key in cache && cache[key].expiry > now then (Seqs.SliceTo(cache[key].data, limit), cache)
      else
        var sorted := Ranked(Settled(rest, geo), rank);
        (Seqs.SliceTo(sorted, limit), cache[key := CacheEntry(sorted, now + CacheDuration)])
  }

  /** Within thirty minutes of a miss, the same query in any letter case is
      answered from the cached list, cut to whatever limit the second call
      asks for: the two answers are prefixes of one ranking. */
  lemma LimitsShareOneRanking(cache: Cache, query: string, limit: int, limit2: int, now: Time, later: Time,
                              rest: Fetch, geo: Fetch, rank: GeoCity -> real,
                              rest2: Fetch, geo2: Fetch, rank2: GeoCity -> real)
    requires |query| >= 2
    requires now <= later < now + CacheDuration
    requires !(ToLower(query) in cache && cache[ToLower(query)].expiry > now)
    ensures var first := SearchCitiesApi(cache, query, limit, now, rest, geo, rank);
            var second := SearchCitiesApi(first.1, ToUpper(query), limit2, later, rest2, geo2, rank2);
            && second.0 == Seqs.SliceTo(first.1[ToLower(query)].data, limit2)
            && (0 <= limit <= limit2 ==> first.0 <= second.0)
  {
    LowerUpper(query);
    var key := ToLower(query);
    var first := SearchCitiesApi(cache, query, limit, now, rest, geo, rank);
    assert key in first.1 && first.1[key].expiry == now + CacheDuration;
    var data := first.1[key].data;
    assert first.0 == Seqs.SliceTo(data, limit);
    assert ToLower(ToUpper(query)) == key && |ToUpper(query)| >= 2;
    assert first.1[key].expiry > later;
    var second := SearchCitiesApi(first.1, ToUpper(query), limit2, later, rest2, geo2, rank2);
    assert second.0 == Seqs.SliceTo(data, limit2);
    if 0 <= limit <= limit2 {
      assert first.0 == data[..Min(limit, |data|)];
      assert second.0 == data[..Min(limit2, |data|)];
    }
  }


  // ---------------------------------------------------------------------
  // Lookup helpers
  // ---------------------------------------------------------------------

  const CountryCodes: map<string, string> :=
    map["United States" := "US", "United Kingdom" := "GB", "France" := "FR", "Germany" := "DE",
        "Italy" := "IT", "Spain" := "ES", "Canada" := "CA", "Australia" := "AU", "Japan" := "JP",
        "China" := "CN", "India" := "IN", "Brazil" := "BR", "Russia" := "RU", "South Korea" := "KR",
        "Mexico" := "MX", "Netherlands" := "NL", "Switzerland" := "CH", "Sweden" := "SE",
        "Norway" := "NO", "Denmark" := "DK", "Finland" := "FI", "Belgium" := "BE", "Austria" := "AT",
        "Iran" := "IR", "UAE" := "AE", "United Arab Emirates" := "AE", "Saudi Arabia" := "SA",
        "Turkey" := "TR", "Singapore" := "SG", "Malaysia" := "MY", "Thailand" := "TH",
        "Indonesia" := "ID", "Philippines" := "PH", "Vietnam" := "VN", "South Africa" := "ZA",
        "Egypt" := "EG", "Morocco" := "MA", "Argentina" := "AR", "Chile" := "CL", "Colombia" := "CO",
        "Peru" := "PE"]

  /** `getCountryCode` of the library: the listed code, or else the first
      two characters of the name upper-cased. */
  function GetCountryCode(country: string): (code: string)
    ensures country in CountryCodes ==> code == CountryCodes[country]
    ensures country !in CountryCodes ==> code == ToUpper(country[..Min(2, |country|)])
    ensures |code| == if country in CountryCodes then 2 else Min(2, |country|)
  {
    CountryCodeWith(CountryCodes, country)
  }

  /** Both spellings of the Emirates map to one code. */
  lemma EmiratesSpellingsAgree()
    ensures GetCountryCode("UAE") == GetCountryCode("United Arab Emirates") == "AE"
  {
  }

  const Airports: map<string, seq<string>> :=
    map["New York" := ["JFK", "LGA", "EWR"], "London" := ["LHR", "LGW", "STN", "LTN", "LCY"],
        "Paris" := ["CDG", "ORY", "BVA"], "Tokyo" := ["NRT", "HND"], "Los Angeles" := ["LAX", "BUR", "LGB"],
        "Chicago" := ["ORD", "MDW"], "Dubai" := ["DXB", "DWC"], "Singapore" := ["SIN"],
        "Hong Kong" := ["HKG"], "Frankfurt" := ["FRA"], "Amsterdam" := ["AMS"], "Madrid" := ["MAD"],
        "Barcelona" := ["BCN"], "Rome" := ["FCO", "CIA"], "Milan" := ["MXP", "LIN", "BGY"],
        "Munich" := ["MUC"], "Berlin" := ["BER"], "Sydney" := ["SYD"], "Melbourne" := ["MEL"],
        "Toronto" := ["YYZ", "YTZ"], "Vancouver" := ["YVR"], "Tehran" := ["IKA", "THR"],
        "Istanbul" := ["IST", "SAW"]]

  /** `getAirportsForCity`: the listed airports, or none; the country
      argument is ignored. Every listed city has at least one airport, and
      every airport code has three letters. */
  function GetAirportsForCity(city: string, country: string): (airports: seq<string>)
    ensures city in Airports ==> airports == Airports[city]
    ensures airports != [] <==> city in Airports
    ensures forall k :: 0 <= k < |airports| ==> |airports[k]| == 3
  {
    if city in Airports then Airports[city] else []
  }

  /** `getMainAirport` of the library. */
  function GetMainAirport(city: string, country: string): (main: Option<string>)
    ensures main.None? <==> GetAirportsForCity(city, country) == []
    ensures main.Some? ==> main.value == GetAirportsForCity(city, country)[0]
  {
    MainAirportOf(GetAirportsForCity(city, country))
  }
}

=== FILE: autocomplete.dfy ===
/** The city autocomplete input as a state machine: the suggestion list
    follows the controlled value, and the keyboard moves a highlighted
    index that always stays inside the list (or at -1, nothing
    highlighted). */
module Autocomplete {
  import opened Base
  import Cities

  datatype State = State(
    value: string,
    suggestions: seq<Cities.City>,
    isOpen: bool,
    highlighted: int)

  /** Where a mouse press lands. */
  datatype Target = InInput | InDropdown | Elsewhere

  datatype Event =
    | ValueChanged(newValue: string)
    | KeyDown(key: string)
    | SuggestionClick(city: Cities.City)
    | Focus
    | MouseDown(target: Target)

  /** `-1 <= highlightedIndex < suggestions.length`, and an open list is
      never empty. */
  ghost predicate Valid(s: State) {
    && -1 <= s.highlighted < |s.suggestions|
    && (s.isOpen ==> |s.suggestions| > 0)
  }

  /** The suggestions shown are those of the current value. */
  ghost predicate Consistent(s: State) {
    s.suggestions == Suggest(s.value)
  }

  /** `value ? searchCities(value) : []` */
  function Suggest(value: string): (r: seq<Cities.City>)
    ensures value == "" ==> r == []
    ensures |r| <= Cities.MaxResults
  {
    if value == "" then [] else Cities.SearchCities(value)
  }

  /** The effect on `[value]`: recompute the suggestions, open the list
      when there are any, and clear the highlight. */
  function Refresh(value: string): (s: State)
    ensures Valid(s) && Consistent(s)
    ensures s.value == value && s.highlighted == -1
    ensures s.isOpen <==> |Suggest(value)| > 0
    ensures value == "" ==> s.suggestions == [] && !s.isOpen
  {
    var results := Suggest(value);
    State(value, results, |results| > 0, -1)
  }

  /** The component on mount: the effect runs once for the initial value. */
  function Mount(value: string): (s: State)
    ensures Valid(s) && Consistent(s) && s.highlighted == -1
  {
    Refresh(value)
  }

  /** `handleKeyDown`. */
  function HandleKey(s: State, key: string): (r: (State, Option<Cities.City>))
    requires Valid(s)
    ensures Valid(r.0) && r.0.value == s.value && r.0.suggestions == s.suggestions
    ensures !s.isOpen || |s.suggestions| == 0 ==> r == (s, None)
    ensures s.isOpen && key == "ArrowDown" ==>
              r == (s.(highlighted := Min(s.highlighted + 1, |s.suggestions| - 1)), None)
    ensures s.isOpen && key == "ArrowUp" ==>
              r == (s.(highlighted := if s.highlighted > 0 then s.highlighted - 1 else s.highlighted), None)
    ensures s.isOpen && key == "Enter" ==>
              (r.1.Some? <==> 0 <= s.highlighted)
              && (r.1.Some? ==> r.1.value == s.suggestions[s.highlighted] && !r.0.isOpen && r.0.highlighted == -1)
              && (r.1.None? ==> r.0 == s)
    ensures key == "Escape" && s.isOpen ==> !r.0.isOpen && r.0.highlighted == -1 && r.1.None?
    ensures key !in {"ArrowDown", "ArrowUp", "Enter", "Escape"} ==> r == (s, None)
  {
    if !s.isOpen || |s.suggestions| == 0 then (s, None)
    else if key == "ArrowDown" then
      (s.(highlighted := if s.highlighted < |s.suggestions| - 1 then s.highlighted + 1 else s.highlighted), None)
    else if key == "ArrowUp" then
      (s.(highlighted := if s.highlighted > 0 then s.highlighted - 1 else s.highlighted), None)
    else if key == "Enter" then
      if 0 <= s.highlighted < |s.suggestions| then Click(s, s.suggestions[s.highlighted])
      else (s, None)
    else if key == "Escape" then (s.(isOpen := false, highlighted := -1), None)
    else (s, None)
  }

  /** `handleSuggestionClick`: report the city, close, clear the highlight. */
  function Click(s: State, city: Cities.City): (r: (State, Option<Cities.City>))
    requires Valid(s)
    ensures Valid(r.0) && r.0.value == s.value && r.0.suggestions == s.suggestions
    ensures r.1 == Some(city) && !r.0.isOpen && r.0.highlighted == -1
  {
    (s.(isOpen := false, highlighted := -1), Some(city))
  }

  /** `handleFocus`: reopen a non-empty list for a non-empty value. */
  function HandleFocus(s: State): (r: State)
    requires Valid(s)
    ensures Valid(r)
    ensures r.isOpen <==> s.isOpen || (s.value != "" && |s.suggestions| > 0)
    ensures r.(isOpen := s.isOpen) == s
  {
    if s.value != "" && |s.suggestions| > 0 then s.(isOpen := true) else s
  }

  /** The document `mousedown` listener: a press outside both the rendered
      dropdown and the input closes the list. The dropdown is rendered only
      while the list is open and non-empty. */
  function HandleMouseDown(s: State, target: Target): (r: State)
    requires Valid(s)
    ensures Valid(r)
    ensures target != Elsewhere ==> r == s
    ensures target == Elsewhere && s.isOpen ==> !r.isOpen && r.highlighted == -1
    ensures !s.isOpen ==> r == s
    ensures r == s.(isOpen := r.isOpen, highlighted := r.highlighted)
  {
    if s.isOpen && |s.suggestions| > 0 && target == Elsewhere then s.(isOpen := false, highlighted := -1)
    else s
  }

  /** One event; the effect re-runs only when the value actually changes. */
  function Step(s: State, e: Event): (r: (State, Option<Cities.City>))
    requires Valid(s)
    ensures Valid(r.0)
    ensures e.ValueChanged? && e.newValue != s.value ==> r.0.highlighted == -1
  {
    match e
    case ValueChanged(v) => if v == s.value then (s, None) else (Refresh(v), None)
    case KeyDown(k) => HandleKey(s, k)
    case SuggestionClick(c) => Click(s, c)
    case Focus => (HandleFocus(s), None)
    case MouseDown(t) => (HandleMouseDown(s, t), None)
  }

  /** The bounds invariant holds after any sequence of events. */
  function Run(s: State, events: seq<Event>): (r: State)
    requires Valid(s)
    ensures Valid(r)
    ensures -1 <= r.highlighted < |r.suggestions|
    decreases |events|
  {
    if |events| == 0 then s else Run(Step(s, events[0]).0, events[1..])
  }

  /** Pressing ArrowDown n times on a fresh open list highlights entry
      n - 1, or the last entry once the list runs out. */
  lemma {:induction false} ArrowDownWalksTheList(s: State, n: nat)
    requires Valid(s) && s.isOpen && s.highlighted == -1
    ensures Run(s, seq(n, _ => KeyDown("ArrowDown"))).highlighted == Min(n, |s.suggestions|) - 1
    ensures Run(s, seq(n, _ => KeyDown("ArrowDown"))).isOpen
  {
    if n > 0 {
      var events := seq(n, _ => KeyDown("ArrowDown"));
      var s' := Step(s, events[0]).0;
      assert s'.highlighted == 0 && s'.isOpen;
      assert events[1..] == seq(n - 1, _ => KeyDown("ArrowDown"));
      ArrowDownFrom(s', n - 1);
    }
  }

  lemma {:induction false} ArrowDownFrom(s: State, n: nat)
    requires Valid(s) && s.isOpen && s.highlighted >= 0
    ensures Run(s, seq(n, _ => KeyDown("ArrowDown"))).highlighted == Min(s.highlighted + n, |s.suggestions| - 1)
    ensures Run(s, seq(n, _ => KeyDown("ArrowDown"))).isOpen
    decreases n
  {
    if n > 0 {
      var events := seq(n, _ => KeyDown("ArrowDown"));
      var s' := Step(s, events[0]).0;
      assert events[1..] == seq(n - 1, _ => KeyDown("ArrowDown"));
      ArrowDownFrom(s', n - 1);
    }
  }

  /** Every event keeps the suggestions in step with the value: only a
      value change touches them, and it recomputes them. */
  lemma StepKeepsConsistent(s: State, e: Event)
    requires Valid(s) && Consistent(s)
    ensures Consistent(Step(s, e).0)
  {
  }

  /** ArrowDown then Enter on an open list picks its first suggestion. */
  lemma DownThenEnterPicksFirst(s: State)
    requires Valid(s) && s.isOpen && s.highlighted == -1
    ensures var s1 := HandleKey(s, "ArrowDown").0;
            HandleKey(s1, "Enter").1 == Some(s.suggestions[0])
  {
  }
}

=== FILE: base.dfy ===
/** Optional values, used for nullable database columns, absent query
    parameters and JavaScript `undefined`. */
module Base {

  datatype Option<+T> = None | Some(value: T) {

    /** The value, or `default` when there is none (JavaScript `x ?? default`). */
    function GetOr(default: T): T {
      match this
      case Some(v) => v
      case None => default
    }
  }

  /** Milliseconds since the epoch, as `Date.now()` returns them. */
  type Time = int

  function Min(a: int, b: int): int {
    if a <= b then a else b
  }

  function Max(a: int, b: int): int {
    if a >= b then a else b
  }
}

=== FILE: cities.dfy ===
/** The static city catalogue used by the autocomplete and its search:
    `searchCities` (case-folded substring search over name, country and
    airport codes, at most ten hits) and `getCityByName`. */
module Cities {
  import opened Base
  import Seqs
  import opened Text

  datatype City = City(
    name: string,
    country: string,
    countryCode: string,
    airports: seq<string>,
    mainAirport: Option<string>)

  /** The catalogue, in its declared order. */
  const Catalogue: seq<City> :=
    [
      City("New York", "United States", "US", ["JFK", "LGA", "EWR"], Some("JFK")),
      City("Los Angeles", "United States", "US", ["LAX", "BUR", "LGB"], Some("LAX")),
      City("Chicago", "United States", "US", ["ORD", "MDW"], Some("ORD")),
      City("Miami", "United States", "US", ["MIA", "FLL"], Some("MIA")),
      City("San Francisco", "United States", "US", ["SFO", "OAK", "SJC"], Some("SFO")),
      City("Boston", "United States", "US", ["BOS"], Some("BOS")),
      City("Washington", "United States", "US", ["DCA", "IAD", "BWI"], Some("DCA")),
      City("Atlanta", "United States", "US", ["ATL"], Some("ATL")),
      City("Dallas", "United States", "US", ["DFW", "DAL"], Some("DFW")),
      City("Seattle", "United States", "US", ["SEA"], Some("SEA")),
      City("London", "United Kingdom", "GB", ["LHR", "LGW", "STN", "LTN", "LCY"], Some("LHR")),
      City("Manchester", "United Kingdom", "GB", ["MAN"], Some("MAN")),
      City("Birmingham", "United Kingdom", "GB", ["BHX"], Some("BHX")),
      City("Edinburgh", "United Kingdom", "GB", ["EDI"], Some("EDI")),
      City("Glasgow", "United Kingdom", "GB", ["GLA"], Some("GLA")),
      City("Paris", "France", "FR", ["CDG", "ORY", "BVA"], Some("CDG")),
      City("Nice", "France", "FR", ["NCE"], Some("NCE")),
      City("Lyon", "France", "FR", ["LYS"], Some("LYS")),
      City("Marseille", "France", "FR", ["MRS"], Some("MRS")),
      City("Berlin", "Germany", "DE", ["BER"], Some("BER")),
      City("Munich", "Germany", "DE", ["MUC"], Some("MUC")),
      City("Frankfurt", "Germany", "DE", ["FRA"], Some("FRA")),
      City("Hamburg", "Germany", "DE", ["HAM"], Some("HAM")),
      City("Cologne", "Germany", "DE", ["CGN"], Some("CGN")),
      City("Madrid", "Spain", "ES", ["MAD"], Some("MAD")),
      City("Barcelona", "Spain", "ES", ["BCN"], Some("BCN")),
      City("Valencia", "Spain", "ES", ["VLC"], Some("VLC")),
      City("Seville", "Spain", "ES", ["SVQ"], Some("SVQ")),
      City("Rome", "Italy", "IT", ["FCO", "CIA"], Some("FCO")),
      City("Milan", "Italy", "IT", ["MXP", "LIN", "BGY"], Some("MXP")),
      City("Venice", "Italy", "IT", ["VCE"], Some("VCE")),
      City("Florence", "Italy", "IT", ["FLR"], Some("FLR")),
      City("Toronto", "Canada", "CA", ["YYZ", "YTZ"], Some("YYZ")),
      City("Vancouver", "Canada", "CA", ["YVR"], Some("YVR")),
      City("Montreal", "Canada", "CA", ["YUL"], Some("YUL")),
      City("Calgary", "Canada", "CA", ["YYC"], Some("YYC")),
      City("Tokyo", "Japan", "JP", ["NRT", "HND"], Some("NRT")),
      City("Osaka", "Japan", "JP", ["KIX", "ITM"], Some("KIX")),
      City("Kyoto", "Japan", "JP", ["KIX"], Some("KIX")),
      City("Sydney", "Australia", "AU", ["SYD"], Some("SYD")),
      City("Melbourne", "Australia", "AU", ["MEL"], Some("MEL")),
      City("Brisbane", "Australia", "AU", ["BNE"], Some("BNE")),
      City("Perth", "Australia", "AU", ["PER"], Some("PER")),
      City("Dubai", "United Arab Emirates", "AE", ["DXB", "DWC"], Some("DXB")),
      City("Abu Dhabi", "United Arab Emirates", "AE", ["AUH"], Some("AUH")),
      City("Doha", "Qatar", "QA", ["DOH"], Some("DOH")),
      City("Kuwait City", "Kuwait", "KW", ["KWI"], Some("KWI")),
      City("Singapore", "Singapore", "SG", ["SIN"], Some("SIN")),
      City("Hong Kong", "Hong Kong", "HK", ["HKG"], Some("HKG")),
      City("Bangkok", "Thailand", "TH", ["BKK", "DMK"], Some("BKK")),
      City("Kuala Lumpur", "Malaysia", "MY", ["KUL"], Some("KUL")),
      City("Tehran", "Iran", "IR", ["IKA", "THR"], Some("IKA")),
      City("Isfahan", "Iran", "IR", ["IFN"], Some("IFN")),
      City("Shiraz", "Iran", "IR", ["SYZ"], Some("SYZ")),
      City("Mashhad", "Iran", "IR", ["MHD"], Some("MHD")),
      City("Mumbai", "India", "IN", ["BOM"], Some("BOM")),
      City("Delhi", "India", "IN", ["DEL"], Some("DEL")),
      City("Bangalore", "India", "IN", ["BLR"], Some("BLR")),
      City("Chennai", "India", "IN", ["MAA"], Some("MAA")),
      City("Amsterdam", "Netherlands", "NL", ["AMS"], Some("AMS")),
      City("Brussels", "Belgium", "BE", ["BRU"], Some("BRU")),
      City("Vienna", "Austria", "AT", ["VIE"], Some("VIE")),
      City("Zurich", "Switzerland", "CH", ["ZUR"], Some("ZUR")),
      City("Stockholm", "Sweden", "SE", ["ARN"], Some("ARN")),
      City("Oslo", "Norway", "NO", ["OSL"], Some("OSL")),
      City("Copenhagen", "Denmark", "DK", ["CPH"], Some("CPH")),
      City("Helsinki", "Finland", "FI", ["HEL"], Some("HEL"))
    ]

  /** Result cap of `searchCities`. */
  const MaxResults := 10

  /** `query.toLowerCase().trim()` */
  function Normalize(query: string): string {
    Trim(ToLower(query))
  }

  /** The filter callback: the normalised query occurs in the lower-cased
      name, country or one of the airport codes. */
  predicate Matches(c: City, q: string) {
    || Contains(ToLower(c.name), q)
    || Contains(ToLower(c.country), q)
    || exists i :: 0 <= i < |c.airports| && Contains(ToLower(c.airports[i]), q)
  }

  /** `searchCities` over a given catalogue. The length guard looks at the
      raw query, before trimming. */
  function SearchIn(cat: seq<City>, query: string): (r: seq<City>)
    ensures |query| < 2 ==> r == []
    ensures |r| <= MaxResults
    ensures forall k :: 0 <= k < |r| ==> r[k] in cat && Matches(r[k], Normalize(query))
    ensures |query| >= 2 ==> r <= Seqs.Filter(cat, (c: City) => Matches(c, Normalize(query)))
    ensures |query| >= 2 ==> |r| == Min(MaxResults, |Seqs.Filter(cat, (c: City) => Matches(c, Normalize(query)))|)
  {
    if |query| < 2 then []
    else
      var q := Normalize(query);
      Seqs.SliceTo(Seqs.Filter(cat, (c: City) => Matches(c, q)), MaxResults)
  }

  function SearchCities(query: string): (r: seq<City>)
    ensures |r| <= MaxResults
    ensures forall k :: 0 <= k < |r| ==> r[k] in Catalogue
  {
    SearchIn(Catalogue, query)
  }

  /** With fewer than ten matching entries, every one of them is returned. */
  lemma SearchIsComplete(cat: seq<City>, query: string, c: City)
    requires |query| >= 2 && c in cat && Matches(c, Normalize(query))
    requires |Seqs.Filter(cat, (x: City) => Matches(x, Normalize(query)))| <= MaxResults
    ensures c in SearchIn(cat, query)
  {
    var matching := Seqs.Filter(cat, (x: City) => Matches(x, Normalize(query)));
    var i :| 0 <= i < |cat| && cat[i] == c;
    assert c in matching;
    assert SearchIn(cat, query) == matching;
  }

  /** Once past the length guard, only the normalised query matters:
      queries that differ in letter case or surrounding white space give
      the same result. */
  lemma NormalizedQueriesAgree(cat: seq<City>, q1: string, q2: string)
    requires |q1| >= 2 && |q2| >= 2 && Normalize(q1) == Normalize(q2)
    ensures SearchIn(cat, q1) == SearchIn(cat, q2)
  {
  }

  /** Upper-casing a query does not change what it finds. */
  lemma SearchIgnoresCase(cat: seq<City>, query: string)
    ensures SearchIn(cat, ToUpper(query)) == SearchIn(cat, query)
  {
    LowerUpper(query);
  }

  /** A white-space-only query of two or more characters normalises to the
      empty string, which every entry contains, so the result is the first
      ten catalogue entries. */
  lemma BlankQueryListsCatalogueHead(cat: seq<City>, query: string)
    requires |query| >= 2 && AllSpace(query)
    ensures SearchIn(cat, query) == cat[..Min(MaxResults, |cat|)]
  {
    assert AllSpace(ToLower(query));
    TrimAllSpace(ToLower(query));
    forall c: City ensures Matches(c, "") {
      ContainsEmpty(ToLower(c.name));
    }
    assert Seqs.Filter(cat, (c: City) => Matches(c, Normalize(query))) == cat;
  }

  /** `getCityByName`: the first entry whose name equals the input up to
      letter case. */
  function CityByNameIn(cat: seq<City>, name: string): (r: Option<City>)
    ensures r.None? <==> forall i :: 0 <= i < |cat| ==> ToLower(cat[i].name) != ToLower(name)
    ensures r.Some? ==> exists i :: 0 <= i < |cat| && cat[i] == r.value && ToLower(cat[i].name) == ToLower(name)
                                    && forall j :: 0 <= j < i ==> ToLower(cat[j].name) != ToLower(name)
  {
    Seqs.FindFirst(cat, (c: City) => ToLower(c.name) == ToLower(name))
  }

  /** `getCityByName` over the fixed catalogue. */
  function GetCityByName(name: string): (r: Option<City>)
    ensures r.Some? ==> r.value in Catalogue && ToLower(r.value.name) == ToLower(name)
  {
    CityByNameIn(Catalogue, name)
  }

  /** Looking a city up by its own name, in any letter case, finds an entry
      of that name. */
  lemma FindsOwnName(cat: seq<City>, i: nat)
    requires i < |cat|
    ensures CityByNameIn(cat, ToUpper(cat[i].name)).Some?
    ensures ToLower(CityByNameIn(cat, ToUpper(cat[i].name)).value.name) == ToLower(cat[i].name)
  {
    LowerUpper(cat[i].name);
  }
}

=== FILE: city_data.dfy ===
/** The city record both live searches build from their sources, the
    outcome of one external lookup, and the de-duplication both apply
    before ranking (`removeDuplicates` in the search route,
    `removeDuplicateCities` in the shared library). */
module CityData {
  import opened Base
  import Seqs
  import opened Text


  datatype GeoCity = GeoCity(
    name: string,
    country: string,
    countryCode: string,
    region: string,
    population: Option<nat>,
    airports: seq<string>,
    mainAirport: Option<string>)

  /** One external lookup: what it returned, or a failure (a non-OK
      response, a network error, or a body that does not parse). */
  datatype Fetch = Failed | Fetched(cities: seq<GeoCity>)

  /** `30 * 60 * 1000` milliseconds */
  const CacheDuration := 1_800_000

  /** The identity of a city as the de-duplication intends it: its
      lower-cased name together with its country code. */
  function PairKey(c: GeoCity): (string, string) {
    (ToLower(c.name), c.countryCode)
  }

  /** The identity as written: both parts glued into one string with a
      hyphen. */
  function TextKey(c: GeoCity): string {
    ToLower(c.name) + "-" + c.countryCode
  }

  /** The de-duplication as written, keyed by `TextKey`: the first city of
      every glued key survives, in input order, and no glued key is lost
      or repeated. */
  function RemoveDuplicatesAsWritten(cities: seq<GeoCity>): (r: seq<GeoCity>)
    ensures |r| <= |cities|
    ensures forall k :: 0 <= k < |r| ==> r[k] in cities && Seqs.FirstOfKey(cities, TextKey, r[k])
    ensures Seqs.DistinctBy(r, TextKey)
    ensures forall i :: 0 <= i < |cities| ==> Seqs.HasKey(r, TextKey, TextKey(cities[i]))
    ensures Seqs.InFirstOrder(cities, TextKey, r)
  {
    Seqs.DedupeBy(cities, TextKey)
  }

  /** The de-duplication as intended, keyed by the pair: the first city of every
      (name, country code) pair survives, in input order, and no pair is
      lost or repeated. */
  function RemoveDuplicates(cities: seq<GeoCity>): (r: seq<GeoCity>)
    ensures |r| <= |cities|
    ensures forall k :: 0 <= k < |r| ==> r[k] in cities && Seqs.FirstOfKey(cities, PairKey, r[k])
    ensures Seqs.DistinctBy(r, PairKey)
    ensures forall i :: 0 <= i < |cities| ==> Seqs.HasKey(r, PairKey, PairKey(cities[i]))
    ensures Seqs.InFirstOrder(cities, PairKey, r)
  {
    Seqs.DedupeBy(cities, PairKey)
  }

  /** The glued key is not injective: a name ending in "-1" with an empty
      code and the same name without the suffix under code "1-" glue to
      the same string, so the version as written drops a city whose pair
      differs from every other. */
  lemma TextKeyMergesDistinctCities()
    ensures var a := GeoCity("x-1", "", "", "", None, [], None);
            var b := GeoCity("x", "", "1-", "", None, [], None);
            && PairKey(a) != PairKey(b)
            && TextKey(a) == TextKey(b)
            && RemoveDuplicatesAsWritten([a, b]) == [a]
            && RemoveDuplicates([a, b]) == [a, b]
  {
    var a := GeoCity("x-1", "", "", "", None, [], None);
    var b := GeoCity("x", "", "1-", "", None, [], None);
    assert ToLower("x-1") == "x-1";
    assert ToLower("x") == "x";
    assert TextKey(a) == TextKey(b);
    assert PairKey(a) != PairKey(b);
    assert [a, b][1..] == [b];
    assert [b][1..] == [];
  }

  /** In `l + "-" + c` with no hyphen in `c`, the hyphen at `|l|` is the
      last one. */
  lemma LastHyphen(l: string, c: string)
    requires '-' !in c
    ensures (l + "-" + c)[|l|] == '-'
    ensures forall i :: |l| < i < |l + "-" + c| ==> (l + "-" + c)[i] != '-'
  {
    forall i | |l| < i < |l + "-" + c| ensures (l + "-" + c)[i] != '-' {
      assert (l + "-" + c)[i] == c[i - |l| - 1];
    }
  }

  /** Country codes without a hyphen make the glued key as discriminating
      as the pair. */
  lemma TextKeyInjectiveWithoutHyphen(a: GeoCity, b: GeoCity)
    requires '-' !in a.countryCode && '-' !in b.countryCode
    requires TextKey(a) == TextKey(b)
    ensures PairKey(a) == PairKey(b)
  {
    var la, lb := ToLower(a.name), ToLower(b.name);
    var s := TextKey(a);
    LastHyphen(la, a.countryCode);
    LastHyphen(lb, b.countryCode);
    assert |la| <= |lb| by {
      assert s[|lb|] == '-';
    }
    assert |lb| <= |la| by {
      assert s[|la|] == '-';
    }
    assert la == s[..|la|] && lb == s[..|lb|];
    assert a.countryCode == s[|la| + 1..] && b.countryCode == s[|lb| + 1..];
  }

  /** Without a hyphen in any country code, the de-duplication as written
      keeps exactly the cities the intended one keeps. */
  lemma AsWrittenAgreesWithoutHyphenatedCodes(cities: seq<GeoCity>)
    requires forall i :: 0 <= i < |cities| ==> '-' !in cities[i].countryCode
    ensures RemoveDuplicatesAsWritten(cities) == RemoveDuplicates(cities)
  {
    forall i, j | 0 <= i < |cities| && 0 <= j < |cities|
      ensures TextKey(cities[i]) == TextKey(cities[j]) <==> PairKey(cities[i]) == PairKey(cities[j])
    {
      if TextKey(cities[i]) == TextKey(cities[j]) {
        TextKeyInjectiveWithoutHyphen(cities[i], cities[j]);
      }
    }
    Seqs.DedupeAgree(cities, TextKey, PairKey);
  }

  /** The code a table lists for `country`; for a country the table does
      not list, the first two characters of its name in upper case. Every
      code in the table is two characters long. */
  function CountryCodeWith(codes: map<string, string>, country: string): (code: string)
    requires forall c :: c in codes ==> |codes[c]| == 2
    ensures country in codes ==> code == codes[country]
    ensures country !in codes ==> code == ToUpper(country[..Min(2, |country|)])
    ensures |code| == if country in codes then 2 else Min(2, |country|)
  {
    if country in codes then codes[country] else ToUpper(country[..Min(2, |country|)])
  }

  /** The first airport of the list, if the list has one. */
  function MainAirportOf(airports: seq<string>): (main: Option<string>)
    ensures main.None? <==> airports == []
    ensures main.Some? ==> main.value == airports[0] && main.value in airports
  {
    if |airports| > 0 then Some(airports[0]) else None
  }
}

=== FILE: city_search.dfy ===
/** `GET /api/cities/search`: query validation, the 30-minute result
    cache keyed by query and limit, the combination of the two live
    sources with the static fallback, and that fallback's own filter and
    ranking. */
module CitySearch {
  import opened Base
  import opened Http
  import Seqs
  import opened Text
  import opened CityData

  /** `z.number().optional().default(10)` after `parseInt(... || '10')` */
  const DefaultLimit := 10

  datatype CacheEntry = CacheEntry(data: seq<GeoCity>, timestamp: Time)
  type Cache = map<string, CacheEntry>

  // ---------------------------------------------------------------------
  // Static fallback
  // ---------------------------------------------------------------------

  /** The fallback list, in its declared order. */
  const StaticCities: seq<GeoCity> :=
    [
      GeoCity("New York", "United States", "US", "North America", Some(8_336_817), ["JFK", "LGA", "EWR"], Some("JFK")),
      GeoCity("London", "United Kingdom", "GB", "Europe", Some(9_648_110), ["LHR", "LGW", "STN"], Some("LHR")),
      GeoCity("Paris", "France", "FR", "Europe", Some(2_161_000), ["CDG", "ORY"], Some("CDG")),
      GeoCity("Tokyo", "Japan", "JP", "Asia", Some(13_960_000), ["NRT", "HND"], Some("NRT")),
      GeoCity("Dubai", "United Arab Emirates", "AE", "Middle East", Some(3_331_000), ["DXB"], Some("DXB")),
      GeoCity("Singapore", "Singapore", "SG", "Asia", Some(5_896_000), ["SIN"], Some("SIN")),
      GeoCity("Tehran", "Iran", "IR", "Middle East", Some(9_134_000), ["IKA", "THR"], Some("IKA")),
      GeoCity("Isfahan", "Iran", "IR", "Middle East", Some(2_220_000), ["IFN"], Some("IFN")),
      GeoCity("Mashhad", "Iran", "IR", "Middle East", Some(3_312_000), ["MHD"], Some("MHD")),
      GeoCity("Shiraz", "Iran", "IR", "Middle East", Some(1_869_000), ["SYZ"], Some("SYZ")),
      GeoCity("Tabriz", "Iran", "IR", "Middle East", Some(1_733_000), ["TBZ"], Some("TBZ")),
      GeoCity("Karaj", "Iran", "IR", "Middle East", Some(1_973_000), [], None),
      GeoCity("Ahvaz", "Iran", "IR", "Middle East", Some(1_300_000), ["AWZ"], Some("AWZ")),
      GeoCity("Qom", "Iran", "IR", "Middle East", Some(1_200_000), [], None),
      GeoCity("Kermanshah", "Iran", "IR", "Middle East", Some(946_000), ["KSH"], Some("KSH")),
      GeoCity("Urmia", "Iran", "IR", "Middle East", Some(736_000), ["OMH"], Some("OMH")),
      GeoCity("Rasht", "Iran", "IR", "Middle East", Some(695_000), ["RAS"], Some("RAS")),
      GeoCity("Zahedan", "Iran", "IR", "Middle East", Some(650_000), ["ZAH"], Some("ZAH")),
      GeoCity("Hamadan", "Iran", "IR", "Middle East", Some(554_000), ["HDM"], Some("HDM")),
      GeoCity("Yazd", "Iran", "IR", "Middle East", Some(529_000), ["AZD"], Some("AZD")),
      GeoCity("Ardabil", "Iran", "IR", "Middle East", Some(529_000), ["ADU"], Some("ADU")),
      GeoCity("Bandar Abbas", "Iran", "IR", "Middle East", Some(526_000), ["BND"], Some("BND")),
      GeoCity("Kerman", "Iran", "IR", "Middle East", Some(515_000), ["KER"], Some("KER")),
      GeoCity("Qazvin", "Iran", "IR", "Middle East", Some(402_000), [], None),
      GeoCity("Sari", "Iran", "IR", "Mazandaran", Some(309_820), ["SRY"], Some("SRY")),
      GeoCity("Babol", "Iran", "IR", "Mazandaran", Some(250_217), [], None),
      GeoCity("Amol", "Iran", "IR", "Mazandaran", Some(237_528), [], None),
      GeoCity("Qaem Shahr", "Iran", "IR", "Mazandaran", Some(204_953), [], None),
      GeoCity("Gonbad-e Kavus", "Iran", "IR", "Mazandaran", Some(171_405), [], None),
      GeoCity("Behshahr", "Iran", "IR", "Mazandaran", Some(91_635), [], None),
      GeoCity("Neka", "Iran", "IR", "Mazandaran", Some(52_601), [], None),
      GeoCity("Nowshahr", "Iran", "IR", "Mazandaran", Some(51_862), [], None),
      GeoCity("Tonekabon", "Iran", "IR", "Mazandaran", Some(50_853), [], None),
      GeoCity("Chalus", "Iran", "IR", "Mazandaran", Some(50_532), [], None),
      GeoCity("Babolsar", "Iran", "IR", "Mazandaran", Some(48_029), [], None),
      GeoCity("Ramsar", "Iran", "IR", "Mazandaran", Some(32_647), [], None)
    ]

  /** `city.population || 0` */
  function Population(c: GeoCity): nat {
    c.population.GetOr(0)
  }

  /** The fallback filter: the lower-cased query occurs in the lower-cased
      name, country or region. The query is not trimmed here. */
  predicate MatchesStatic(c: GeoCity, queryLower: string) {
    || Contains(ToLower(c.name), queryLower)
    || Contains(ToLower(c.country), queryLower)
    || Contains(ToLower(c.region), queryLower)
  }

  predicate ExactName(c: GeoCity, queryLower: string) {
    ToLower(c.name) == queryLower
  }

  /** 1000 for an exact name, plus 100 for a name that starts with the query. */
  function Tier(c: GeoCity, queryLower: string): (t: nat)
    ensures ExactName(c, queryLower) ==> t == 1100
    ensures !ExactName(c, queryLower) ==> t <= 100
  {
    (if ExactName(c, queryLower) then 1000 else 0)
    + (if StartsWith(ToLower(c.name), queryLower) then 100 else 0)
  }

  /** The comparator's score as written: tier plus raw population. */
  function ScoreAsWritten(c: GeoCity, queryLower: string): int {
    Tier(c, queryLower) + Population(c)
  }

  /** Populations stay below this bound, so one tier step outweighs any
      population difference in `Score`. */
  const PopulationCeiling := 1_000_000_000

  /** The score the comments describe: exact match first, prefix match
      second, population third. */
  function Score(c: GeoCity, queryLower: string): int {
    Tier(c, queryLower) * PopulationCeiling + Population(c)
  }

  lemma StaticPopulationsBounded()
    ensures forall i :: 0 <= i < |StaticCities| ==> Population(StaticCities[i]) < PopulationCeiling
  {
  }

  /** The two rankings of the fallback list: the comparator as written and
      the tiered order its comments describe. */
  datatype Ranking = AsWritten | Tiered

  function ScoreBy(ranking: Ranking, c: GeoCity, queryLower: string): int {
    match ranking
    case AsWritten => ScoreAsWritten(c, queryLower)
    case Tiered => Score(c, queryLower)
  }

  /** The fallback pipeline over a list: filter, sort highest score first,
      `slice(0, limit)`. The answer holds the `limit` best matches (all of
      them when there are fewer), best first, and no match left out scores
      above one kept. */
  function RankIn(cities: seq<GeoCity>, queryLower: string, limit: int, ranking: Ranking): (r: seq<GeoCity>)
    ensures limit >= 0 ==> |r| == Min(limit, |Seqs.Filter(cities, (c: GeoCity) => MatchesStatic(c, queryLower))|)
    ensures forall k :: 0 <= k < |r| ==> r[k] in cities && MatchesStatic(r[k], queryLower)
    ensures forall i, j :: 0 <= i < j < |r| ==> ScoreBy(ranking, r[i], queryLower) >= ScoreBy(ranking, r[j], queryLower)
    ensures forall x, k :: x in cities && MatchesStatic(x, queryLower) && x !in r && 0 <= k < |r| ==>
              ScoreBy(ranking, x, queryLower) <= ScoreBy(ranking, r[k], queryLower)
    ensures limit >= |Seqs.Filter(cities, (c: GeoCity) => MatchesStatic(c, queryLower))| ==>
              forall i :: 0 <= i < |cities| && MatchesStatic(cities[i], queryLower) ==> cities[i] in r
    ensures multiset(r) <= multiset(Seqs.Filter(cities, (c: GeoCity) => MatchesStatic(c, queryLower)))
  {
    var r := Seqs.TopBy(cities, (c: GeoCity) => MatchesStatic(c, queryLower),
                        (c: GeoCity) => ScoreBy(ranking, c, queryLower) as real, limit);
    RankFacts(cities, queryLower, limit, ranking, r);
    r
  }

  /** `TopBy`'s promises about its key, read as scores. */
  lemma RankFacts(cities: seq<GeoCity>, queryLower: string, limit: int, ranking: Ranking, r: seq<GeoCity>)
    requires r == Seqs.TopBy(cities, (c: GeoCity) => MatchesStatic(c, queryLower),
                             (c: GeoCity) => ScoreBy(ranking, c, queryLower) as real, limit)
    ensures forall i, j :: 0 <= i < j < |r| ==> ScoreBy(ranking, r[i], queryLower) >= ScoreBy(ranking, r[j], queryLower)
    ensures forall x, k :: x in cities && MatchesStatic(x, queryLower) && x !in r && 0 <= k < |r| ==>
              ScoreBy(ranking, x, queryLower) <= ScoreBy(ranking, r[k], queryLower)
  {
    var p := (c: GeoCity) => MatchesStatic(c, queryLower);
    var score := (c: GeoCity) => ScoreBy(ranking, c, queryLower) as real;
    forall i, j | 0 <= i < j < |r| ensures ScoreBy(ranking, r[i], queryLower) >= ScoreBy(ranking, r[j], queryLower) {
      assert score(r[i]) >= score(r[j]);
    }
    forall x, k | x in cities && MatchesStatic(x, queryLower) && x !in r && 0 <= k < |r|
      ensures ScoreBy(ranking, x, queryLower) <= ScoreBy(ranking, r[k], queryLower)
    {
      assert p(x);
      assert score(x) <= score(r[k]);
    }
  }

  /** `getStaticCityResults` over a list, ranked as written: by tier plus
      raw population. */
  function ResultsAsWrittenIn(cities: seq<GeoCity>, query: string, limit: int): (r: seq<GeoCity>)
    ensures limit >= 0 ==> |r| == Min(limit, |Seqs.Filter(cities, (c: GeoCity) => MatchesStatic(c, ToLower(query)))|)
    ensures forall k :: 0 <= k < |r| ==> r[k] in cities && MatchesStatic(r[k], ToLower(query))
    ensures forall i, j :: 0 <= i < j < |r| ==>
              ScoreAsWritten(r[i], ToLower(query)) >= ScoreAsWritten(r[j], ToLower(query))
    ensures forall x, k :: x in cities && MatchesStatic(x, ToLower(query)) && x !in r && 0 <= k < |r| ==>
              ScoreAsWritten(x, ToLower(query)) <= ScoreAsWritten(r[k], ToLower(query))
    ensures limit >= |Seqs.Filter(cities, (c: GeoCity) => MatchesStatic(c, ToLower(query)))| ==>
              forall i :: 0 <= i < |cities| && MatchesStatic(cities[i], ToLower(query)) ==> cities[i] in r
    ensures multiset(r) <= multiset(Seqs.Filter(cities, (c: GeoCity) => MatchesStatic(c, ToLower(query))))
  {
    var r := RankIn(cities, ToLower(query), limit, AsWritten);
    assert forall c :: ScoreBy(AsWritten, c, ToLower(query)) == ScoreAsWritten(c, ToLower(query));
    r
  }

  /** `getStaticCityResults` over a list, ranked as the comments intend: by
      tier first and population second. */
  function ResultsIn(cities: seq<GeoCity>, query: string, limit: int): (r: seq<GeoCity>)
    ensures limit >= 0 ==> |r| == Min(limit, |Seqs.Filter(cities, (c: GeoCity) => MatchesStatic(c, ToLower(query)))|)
    ensures forall k :: 0 <= k < |r| ==> r[k] in cities && MatchesStatic(r[k], ToLower(query))
    ensures forall i, j :: 0 <= i < j < |r| ==> Score(r[i], ToLower(query)) >= Score(r[j], ToLower(query))
    ensures forall x, k :: x in cities && MatchesStatic(x, ToLower(query)) && x !in r && 0 <= k < |r| ==>
              Score(x, ToLower(query)) <= Score(r[k], ToLower(query))
    ensures limit >= |Seqs.Filter(cities, (c: GeoCity) => MatchesStatic(c, ToLower(query)))| ==>
              forall i :: 0 <= i < |cities| && MatchesStatic(cities[i], ToLower(query)) ==> cities[i] in r
    ensures multiset(r) <= multiset(Seqs.Filter(cities, (c: GeoCity) => MatchesStatic(c, ToLower(query))))
  {
    var r := RankIn(cities, ToLower(query), limit, Tiered);
    assert forall c :: ScoreBy(Tiered, c, ToLower(query)) == Score(c, ToLower(query));
    r
  }

  function StaticCityResultsAsWritten(query: string, limit: int): seq<GeoCity> {
    ResultsAsWrittenIn(StaticCities, query, limit)
  }

  function StaticCityResults(query: string, limit: int): seq<GeoCity> {
    ResultsIn(StaticCities, query, limit)
  }

  /** In the tiered ranking an exact name match is never preceded by an
      inexact one, and a prefix match is never preceded by a city whose
      name does not start with the query, provided populations stay under
      the ceiling, as they do in the static list. */
  lemma ExactMatchesComeFirst(cities: seq<GeoCity>, query: string, limit: int)
    requires forall i :: 0 <= i < |cities| ==> Population(cities[i]) < PopulationCeiling
    ensures var r := ResultsIn(cities, query, limit);
            forall i, j :: 0 <= i < j < |r| && ExactName(r[j], ToLower(query)) ==> ExactName(r[i], ToLower(query))
    ensures var r := ResultsIn(cities, query, limit);
            forall i, j :: 0 <= i < j < |r| && StartsWith(ToLower(r[j].name), ToLower(query)) ==>
              StartsWith(ToLower(r[i].name), ToLower(query))
  {
    var q := ToLower(query);
    var r := ResultsIn(cities, query, limit);
    forall i, j | 0 <= i < j < |r| ensures Tier(r[i], q) >= Tier(r[j], q) {
      assert Score(r[i], q) >= Score(r[j], q);
      assert r[i] in cities && r[j] in cities;
      TierDominates(r[i], r[j], q);
    }
  }

  /** With populations below the ceiling, a higher score never has a lower tier. */
  lemma TierDominates(a: GeoCity, b: GeoCity, q: string)
    requires Population(a) < PopulationCeiling && Population(b) < PopulationCeiling
    requires Score(a, q) >= Score(b, q)
    ensures Tier(a, q) >= Tier(b, q)
  {
  }

  const Kermanshah := GeoCity("Kermanshah", "Iran", "IR", "Middle East", Some(946_000), ["KSH"], Some("KSH"))
  const Kerman := GeoCity("Kerman", "Iran", "IR", "Middle East", Some(515_000), ["KER"], Some("KER"))

  lemma KermanCitiesAreStatic()
    ensures StaticCities[14] == Kermanshah && StaticCities[22] == Kerman
  {
  }

  /** The query "kerman" matches both cities and names Kerman exactly; the
      score as written still puts Kermanshah (946000 + 100) above Kerman
      (515000 + 1100). */
  lemma KermanScores()
    ensures MatchesStatic(Kerman, "kerman") && MatchesStatic(Kermanshah, "kerman")
    ensures ExactName(Kerman, "kerman") && !ExactName(Kermanshah, "kerman")
    ensures ScoreAsWritten(Kermanshah, "kerman") > ScoreAsWritten(Kerman, "kerman")
    ensures Score(Kerman, "kerman") > Score(Kermanshah, "kerman")
  {
    assert ToLower("Kerman") == "kerman";
    assert ToLower("Kermanshah") == "kermanshah";
    assert "kerman" <= "kermanshah"[0..];
    assert "kerman" <= "kerman"[0..];
  }

  /** So the ranking as written lists the exact match after the longer
      name ... */
  lemma KermanRanksBelowKermanshah(cities: seq<GeoCity>, limit: int)
    ensures var r := ResultsAsWrittenIn(cities, "kerman", limit);
            forall i, j :: 0 <= i < |r| && 0 <= j < |r| && r[i] == Kermanshah && r[j] == Kerman ==> i < j
  {
    KermanScores();
    var q := "kerman";
    assert ToLower(q) == q;
    var r := ResultsAsWrittenIn(cities, q, limit);
    forall i, j | 0 <= i < j < |r| ensures ScoreBy(AsWritten, r[i], q) >= ScoreBy(AsWritten, r[j], q) {
      assert ScoreAsWritten(r[i], ToLower(q)) >= ScoreAsWritten(r[j], ToLower(q));
    }
    HigherScoreComesFirst(r, q, AsWritten, Kermanshah, Kerman);
  }

  /** ... and the tiered ranking lists it first. */
  lemma KermanRanksFirstWhenTiered(cities: seq<GeoCity>, limit: int)
    ensures var r := ResultsIn(cities, "kerman", limit);
            forall i, j :: 0 <= i < |r| && 0 <= j < |r| && r[i] == Kerman && r[j] == Kermanshah ==> i < j
  {
    KermanScores();
    var q := "kerman";
    assert ToLower(q) == q;
    var r := ResultsIn(cities, q, limit);
    forall i, j | 0 <= i < j < |r| ensures ScoreBy(Tiered, r[i], q) >= ScoreBy(Tiered, r[j], q) {
      assert Score(r[i], ToLower(q)) >= Score(r[j], ToLower(q));
    }
    HigherScoreComesFirst(r, q, Tiered, Kerman, Kermanshah);
  }

  /** In a list ordered by a score, `a` scoring above `b` sits before it. */
  lemma HigherScoreComesFirst(r: seq<GeoCity>, queryLower: string, ranking: Ranking, a: GeoCity, b: GeoCity)
    requires ScoreBy(ranking, a, queryLower) > ScoreBy(ranking, b, queryLower)
    requires forall i, j :: 0 <= i < j < |r| ==> ScoreBy(ranking, r[i], queryLower) >= ScoreBy(ranking, r[j], queryLower)
    ensures forall i, j :: 0 <= i < |r| && 0 <= j < |r| && r[i] == a && r[j] == b ==> i < j
  {
  }

  // ---------------------------------------------------------------------
  // Live sources
  // ---------------------------------------------------------------------

  /** The cities the live sources yield: the countries lookup's, followed
      by GeoNames' when the first fell short of `limit` and the second
      answered. */
  function Gathered(rest: Fetch, geo: Fetch, limit: int): (cities: seq<GeoCity>)
    requires rest.Fetched?
    ensures rest.cities <= cities
    ensures forall k :: 0 <= k < |cities| ==>
              cities[k] in rest.cities || (|rest.cities| < limit && geo.Fetched? && cities[k] in geo.cities)
    ensures |rest.cities| >= limit || geo.Failed? ==> cities == rest.cities
  {
    if |rest.cities| < limit && geo.Fetched? then rest.cities + geo.cities else rest.cities
  }

  /** `searchCitiesFromAPIs(query, limit)` as written, with the fallback list
      as a parameter: `rest` is the countries lookup, `geo` the GeoNames
      lookup (consulted only when the first falls short), `rank` the
      relevance score `sortByRelevance` computes. A failed first lookup
      falls back to the static ranking as written; otherwise the answer is
      the `limit` best of the gathered cities after de-duplication by the
      glued key. */
  function SearchFromApisWith(statics: seq<GeoCity>, query: string, limit: int, rest: Fetch, geo: Fetch,
                              rank: GeoCity -> real): (r: seq<GeoCity>)
    ensures rest.Failed? ==> r == ResultsAsWrittenIn(statics, query, limit)
    ensures limit >= 0 ==> |r| <= limit
    ensures rest.Fetched? ==>
              && Seqs.DistinctBy(r, TextKey)
              && Seqs.NonIncreasing(r, rank)
              && (forall k :: 0 <= k < |r| ==>
                    && r[k] in Gathered(rest, geo, limit)
                    && Seqs.FirstOfKey(Gathered(rest, geo, limit), TextKey, r[k]))
              && (limit >= 0 ==> |r| == Min(limit, |RemoveDuplicatesAsWritten(Gathered(rest, geo, limit))|))
              && (forall x, k ::
                    x in RemoveDuplicatesAsWritten(Gathered(rest, geo, limit)) && x !in r && 0 <= k < |r| ==>
                      rank(x) <= rank(r[k]))
              && (limit >= |RemoveDuplicatesAsWritten(Gathered(rest, geo, limit))| ==>
                    forall i :: 0 <= i < |Gathered(rest, geo, limit)| ==>
                      Seqs.HasKey(r, TextKey, TextKey(Gathered(rest, geo, limit)[i])))
  {
    if rest.Failed? then ResultsAsWrittenIn(statics, query, limit)
    else
      var cities := Gathered(rest, geo, limit);
      var unique := RemoveDuplicatesAsWritten(cities);
      var sorted := Seqs.SortDesc(unique, rank);
      var r := Seqs.SliceTo(sorted, limit);
      Seqs.CutFacts(unique, sorted, rank, limit, r);
      Seqs.CutOfDedupe(cities, unique, sorted, TextKey, limit, r);
      r
  }

  /** The same pipeline as intended: the tiered static ranking, and
      de-duplication by the (name, country code) pair. */
  function SearchFromApisIntended(statics: seq<GeoCity>, query: string, limit: int, rest: Fetch, geo: Fetch,
                                  rank: GeoCity -> real): (r: seq<GeoCity>)
    ensures rest.Failed? ==> r == ResultsIn(statics, query, limit)
    ensures limit >= 0 ==> |r| <= limit
    ensures rest.Fetched? ==>
              && Seqs.DistinctBy(r, PairKey)
              && Seqs.NonIncreasing(r, rank)
              && (forall k :: 0 <= k < |r| ==>
                    && r[k] in Gathered(rest, geo, limit)
                    && Seqs.FirstOfKey(Gathered(rest, geo, limit), PairKey, r[k]))
              && (limit >= 0 ==> |r| == Min(limit, |RemoveDuplicates(Gathered(rest, geo, limit))|))
              && (forall x, k ::
                    x in RemoveDuplicates(Gathered(rest, geo, limit)) && x !in r && 0 <= k < |r| ==>
                      rank(x) <= rank(r[k]))
              && (limit >= |RemoveDuplicates(Gathered(rest, geo, limit))| ==>
                    forall i :: 0 <= i < |Gathered(rest, geo, limit)| ==>
                      Seqs.HasKey(r, PairKey, PairKey(Gathered(rest, geo, limit)[i])))
  {
    if rest.Failed? then ResultsIn(statics, query, limit)
    else
      var cities := Gathered(rest, geo, limit);
      var unique := RemoveDuplicates(cities);
      var sorted := Seqs.SortDesc(unique, rank);
      var r := Seqs.SliceTo(sorted, limit);
      Seqs.CutFacts(unique, sorted, rank, limit, r);
      Seqs.CutOfDedupe(cities, unique, sorted, PairKey, limit, r);
      r
  }

  /** When no gathered city has a hyphen in its country code, the live
      pipeline as written answers as the intended one does. */
  lemma LiveResultsAgreeWithoutHyphenatedCodes(statics: seq<GeoCity>, query: string, limit: int,
                                               rest: Fetch, geo: Fetch, rank: GeoCity -> real)
    requires rest.Fetched?
    requires forall i :: 0 <= i < |Gathered(rest, geo, limit)| ==> '-' !in Gathered(rest, geo, limit)[i].countryCode
    ensures SearchFromApisWith(statics, query, limit, rest, geo, rank)
            == SearchFromApisIntended(statics, query, limit, rest, geo, rank)
  {
    AsWrittenAgreesWithoutHyphenatedCodes(Gathered(rest, geo, limit));
  }

  function SearchFromApis(query: string, limit: int, rest: Fetch, geo: Fetch, rank: GeoCity -> real)
    : seq<GeoCity>
  {
    SearchFromApisWith(StaticCities, query, limit, rest, geo, rank)
  }

  /** Once the first source alone fills the limit, the second cannot
      change the answer. */
  lemma SecondSourceOnlyWhenShort(query: string, limit: int, rest: Fetch, geo1: Fetch, geo2: Fetch,
                                  rank: GeoCity -> real)
    requires rest.Fetched? && |rest.cities| >= limit
    ensures forall statics :: SearchFromApisWith(statics, query, limit, rest, geo1, rank)
                              == SearchFromApisWith(statics, query, limit, rest, geo2, rank)
  {
  }

  // ---------------------------------------------------------------------
  // Handler
  // ---------------------------------------------------------------------

  /** The cache key: the query in lower case, a hyphen, then the limit. */
  function CacheKey(query: string, limit: int): (key: string)
    ensures |key| > |query|
    ensures key[..|query|] == ToLower(query) && key[|query|] == '-'
    ensures key[|query| + 1..] == IntString(limit)
  {
    ToLower(query) + "-" + IntString(limit)
  }

  /** Queries that differ only in letter case share a cache entry. */
  lemma CacheKeyIgnoresCase(query: string, limit: int)
    ensures CacheKey(ToUpper(query), limit) == CacheKey(query, limit)
  {
    LowerUpper(query);
  }

  /** Different limits never share a cache entry. */
  lemma CacheKeySeparatesLimits(query: string, limit1: int, limit2: int)
    requires limit1 != limit2
    ensures CacheKey(query, limit1) != CacheKey(query, limit2)
  {
    IntStringInjective(limit1, limit2);
    assert CacheKey(query, limit1)[|query| + 1..] != CacheKey(query, limit2)[|query| + 1..];
  }

  /** An entry written at `timestamp` is served for the thirty minutes that
      follow, and not from the moment they end. */
  predicate Fresh(e: CacheEntry, now: Time)
    ensures Fresh(e, now) <==> now - e.timestamp < CacheDuration
  {
    e.timestamp + CacheDuration > now
  }

  /** `GET /api/cities/search` at time `now`, with `fallback` the static
      list (`StaticCities`). `query` is the raw parameter; `limit` is
      `parseInt` of the limit parameter (or of "10" when it is absent),
      `None` when that is NaN. */
  function Search(fallback: seq<GeoCity>, cache: Cache, query: Option<string>, limit: Option<int>, now: Time,
                  rest: Fetch, geo: Fetch, rank: GeoCity -> real): (r: (Result<seq<GeoCity>>, Cache))
    ensures (query.None? || |query.value| < 2 || limit.None?) <==> r.0 == Err(BadRequest(InvalidInput))
    ensures r.0.Err? ==> r.1 == cache
    ensures r.0.Ok? && CacheKey(query.value, limit.value) in cache
            && Fresh(cache[CacheKey(query.value, limit.value)], now) ==>
              r == (Ok(cache[CacheKey(query.value, limit.value)].data), cache)
    ensures r.0.Ok? ==>
              && CacheKey(query.value, limit.value) in r.1
              && r.1[CacheKey(query.value, limit.value)].data == r.0.value
              && forall k :: k in cache && k != CacheKey(query.value, limit.value) ==> k in r.1 && r.1[k] == cache[k]
    ensures r.0.Ok? && !(CacheKey(query.value, limit.value) in cache
                         && Fresh(cache[CacheKey(query.value, limit.value)], now)) ==>
              r.0.value == SearchFromApisWith(fallback, query.value, limit.value, rest, geo, rank)
              && r.1 == cache[CacheKey(query.value, limit.value) := CacheEntry(r.0.value, now)]
  {
    if query.None? || |query.value| < 2 || limit.None? then (Err(BadRequest(InvalidInput)), cache)
    else
      var key := CacheKey(query.value, limit.value);
      if key in cache && Fresh(cache[key], now) then (Ok(cache[key].data), cache)
      else
        var cities := SearchFromApisWith(fallback, query.value, limit.value, rest, geo, rank);
        (Ok(cities), cache[key := CacheEntry(cities, now)])
  }

  /** A search that missed the cache is answered from the cache for the
      next thirty minutes, whatever the sources would say by then; the
      same holds for a query that differs only in letter case. */
  lemma RepeatWithinWindowIsCached(fallback: seq<GeoCity>, cache: Cache, query: string, limit: int,
                                   now: Time, later: Time,
                                   rest: Fetch, geo: Fetch, rank: GeoCity -> real,
                                   rest2: Fetch, geo2: Fetch, rank2: GeoCity -> real)
    requires |query| >= 2
    requires !(CacheKey(query, limit) in cache && Fresh(cache[CacheKey(query, limit)], now))
    requires now <= later < now + CacheDuration
    ensures var first := Search(fallback, cache, Some(query), Some(limit), now, rest, geo, rank);
            var second := Search(fallback, first.1, Some(ToUpper(query)), Some(limit), later, rest2, geo2, rank2);
            second.0 == first.0
  {
    CacheKeyIgnoresCase(query, limit);
  }

  // ---------------------------------------------------------------------
  // Lookup helpers
  // ---------------------------------------------------------------------

  const CountryCodes: map<string, string> :=
    map["United States" := "US", "United Kingdom" := "GB", "France" := "FR", "Germany" := "DE",
        "Italy" := "IT", "Spain" := "ES", "Japan" := "JP", "China" := "CN", "India" := "IN",
        "Iran" := "IR", "United Arab Emirates" := "AE", "Singapore" := "SG", "Canada" := "CA"]

  /** `getCountryCode`: the listed code, or else the first two characters
      of the name upper-cased. */
  function GetCountryCode(country: string): (code: string)
    ensures country in CountryCodes ==> code == CountryCodes[country]
    ensures country !in CountryCodes ==> code == ToUpper(country[..Min(2, |country|)])
    ensures |code| == if country in CountryCodes then 2 else Min(2, |country|)
  {
    CountryCodeWith(CountryCodes, country)
  }

  const Airports: map<string, seq<string>> :=
    map["New York" := ["JFK", "LGA", "EWR"], "London" := ["LHR", "LGW", "STN"],
        "Paris" := ["CDG", "ORY"], "Tokyo" := ["NRT", "HND"], "Tehran" := ["IKA", "THR"],
        "Dubai" := ["DXB"], "Singapore" := ["SIN"], "Isfahan" := ["IFN"], "Mashhad" := ["MHD"],
        "Shiraz" := ["SYZ"], "Sari" := ["SRY"]]

  /** `getAirports`: the listed airports, or none. Every listed city has at
      least one airport, and every airport code has three letters. */
  function GetAirports(city: string): (airports: seq<string>)
    ensures city in Airports ==> airports == Airports[city]
    ensures airports != [] <==> city in Airports
    ensures forall k :: 0 <= k < |airports| ==> |airports[k]| == 3
  {
    if city in Airports then Airports[city] else []
  }

  /** `getMainAirport`: the first of `getAirports`, when there is one. */
  function GetMainAirport(city: string): (main: Option<string>)
    ensures main.None? <==> GetAirports(city) == []
    ensures main.Some? ==> main.value == GetAirports(city)[0] && main.value in GetAirports(city)
  {
    MainAirportOf(GetAirports(city))
  }
}

=== FILE: code_entry.dfy ===
/** The six-box code entry of the e-mail verification page: each box takes
    at most one digit, and the form submits only a complete code. */
module CodeEntry {
  import opened Base
  import Text
  import Verification

  type Cells = seq<string>

  const Boxes := 6

  /** `Array(6).fill("")` */
  function Initial(): (cells: Cells)
    ensures |cells| == Boxes
    ensures forall i :: 0 <= i < |cells| ==> cells[i] == ""
  {
    seq(Boxes, _ => "")
  }

  /** The guard of `handleCodeChange`: length at most one, `/^\d*$/`. */
  predicate Accepts(value: string) {
    |value| <= 1 && Text.AllDigits(value)
  }

  /** `handleCodeChange(index, value)`; the page renders exactly the boxes
      `0 .. 5`, so `index` is always one of them. */
  function HandleCodeChange(cells: Cells, index: nat, value: string): (r: Cells)
    requires index < |cells|
    ensures |r| == |cells|
    ensures Accepts(value) ==> r[index] == value
    ensures Accepts(value) ==> forall i :: 0 <= i < |cells| && i != index ==> r[i] == cells[i]
    ensures !Accepts(value) ==> r == cells
  {
    if Accepts(value) then cells[index := value] else cells
  }

  /** Every box holds at most one digit. */
  ghost predicate WellFormed(cells: Cells) {
    |cells| == Boxes && forall i :: 0 <= i < |cells| ==> |cells[i]| <= 1 && Text.AllDigits(cells[i])
  }

  lemma InitialWellFormed()
    ensures WellFormed(Initial())
  {
  }

  lemma HandleCodeChangeKeepsWellFormed(cells: Cells, index: nat, value: string)
    requires WellFormed(cells) && index < |cells|
    ensures WellFormed(HandleCodeChange(cells, index, value))
  {
  }

  /** Typing a digit and then clearing the box gives back the cleared
      state: the empty string is an accepted input. */
  lemma ClearingUndoesTyping(cells: Cells, index: nat, d: char)
    requires index < |cells| && cells[index] == "" && Text.IsDigit(d)
    ensures HandleCodeChange(HandleCodeChange(cells, index, [d]), index, "") == cells
  {
  }

  /** `verificationCode.join("")`: the boxes' contents in box order, so
      one character per box gives that character at the box's position. */
  function Join(cells: Cells): (code: string)
    ensures (forall i :: 0 <= i < |cells| ==> Text.AllDigits(cells[i])) ==> Text.AllDigits(code)
    ensures (forall i :: 0 <= i < |cells| ==> |cells[i]| == 1) ==>
              |code| == |cells| && forall i :: 0 <= i < |cells| ==> code[i] == cells[i][0]
  {
    if |cells| == 0 then ""
    else
      var rest := Join(cells[1..]);
      assert forall i :: 1 <= i < |cells| ==> cells[i] == cells[1..][i - 1];
      cells[0] + rest
  }

  /** With at most one character per box, the joined code has one
      character per box exactly when no box is empty. */
  lemma {:induction false} JoinLength(cells: Cells)
    requires forall i :: 0 <= i < |cells| ==> |cells[i]| <= 1
    ensures |Join(cells)| <= |cells|
    ensures |Join(cells)| == |cells| <==> forall i :: 0 <= i < |cells| ==> cells[i] != ""
  {
    if |cells| > 0 {
      JoinLength(cells[1..]);
      assert forall i :: 1 <= i < |cells| ==> cells[i] == cells[1..][i - 1];
    }
  }

  /** `handleSubmit`: the code sent, or `None` when the length check stops
      the submission. */
  function Submit(cells: Cells): (code: Option<string>)
    ensures code.Some? <==> |Join(cells)| == Boxes
    ensures code.Some? ==> code.value == Join(cells)
  {
    var code := Join(cells);
    if |code| != Boxes then None else Some(code)
  }

  /** The form submits exactly when all six boxes are filled, and what it
      submits passes the server's `length(6)` check and is all digits. */
  lemma SubmitIffComplete(cells: Cells)
    requires WellFormed(cells)
    ensures Submit(cells).Some? <==> forall i :: 0 <= i < |cells| ==> cells[i] != ""
    ensures Submit(cells).Some? ==>
              |Submit(cells).value| == Verification.CodeLength && Text.AllDigits(Submit(cells).value)
    ensures Submit(cells).Some? ==>
              forall i :: 0 <= i < Boxes ==> |cells[i]| == 1 && Submit(cells).value[i] == cells[i][0]
  {
    JoinLength(cells);
  }

  /** The untouched form cannot be submitted. */
  lemma InitialCannotSubmit()
    ensures Submit(Initial()).None?
  {
    SubmitIffComplete(Initial());
    assert Initial()[0] == "";
  }
}

=== FILE: conversations.dfy ===
/** `GET /api/conversations`: the caller's conversations, most recently
    active first, each decorated with the other participant and the newest
    message. */
module Conversations {
  import opened Base
  import opened Http
  import Seqs
  import opened Paging
  import opened Marketplace

  datatype ConversationView = ConversationView(
    conversation: Conversation,
    otherParticipant: Option<UserId>,
    latestMessage: Option<Message>,
    unreadCount: int)

  /** The first participant who is not `me`. */
  function OtherParticipant(participants: seq<UserId>, me: UserId): (r: Option<UserId>)
    ensures r.None? <==> forall i :: 0 <= i < |participants| ==> participants[i] == me
    ensures r.Some? ==> r.value != me && r.value in participants
    ensures r.Some? ==> exists i :: 0 <= i < |participants| && participants[i] == r.value
                                    && forall j :: 0 <= j < i ==> participants[j] == me
  {
    Seqs.FindFirst(participants, (u: UserId) => u != me)
  }

  /** In a self-request (one user on both sides) nobody is "the other". */
  lemma SelfConversationHasNoOther(user: UserId)
    ensures OtherParticipant([user, user], user).None?
  {
  }

  /** In a two-party conversation each side sees the other. */
  lemma TwoPartiesSeeEachOther(a: UserId, b: UserId)
    requires a != b
    ensures OtherParticipant([a, b], a) == Some(b)
    ensures OtherParticipant([a, b], b) == Some(a)
  {
    assert [a, b][0] == a && [a, b][1] == b;
  }

  /** The most recently created message of a conversation, if it has any;
      among equally old messages the earliest stored wins. */
  function Newest(ms: seq<Message>): (r: Option<Message>)
    ensures r.None? <==> |ms| == 0
    ensures r.Some? ==> r.value in ms
    ensures r.Some? ==> forall i :: 0 <= i < |ms| ==> ms[i].createdAt <= r.value.createdAt
  {
    if |ms| == 0 then None
    else
      var rest := Newest(ms[1..]);
      if rest.None? || ms[0].createdAt >= rest.value.createdAt then Some(ms[0])
      else rest
  }

  function MessagesOf(store: Store, conversationId: Id): seq<Message> {
    Seqs.Filter(store.messages, (m: Message) => m.conversationId == conversationId)
  }

  /** The newest message of conversation `id` is one of its messages and no
      message of it is newer; there is none exactly when the conversation
      has no messages. */
  lemma NewestMessageOf(store: Store, id: Id)
    ensures Newest(MessagesOf(store, id)).None? <==>
              forall i :: 0 <= i < |store.messages| ==> store.messages[i].conversationId != id
    ensures Newest(MessagesOf(store, id)).Some? ==>
              && Newest(MessagesOf(store, id)).value in store.messages
              && Newest(MessagesOf(store, id)).value.conversationId == id
              && forall i :: 0 <= i < |store.messages| && store.messages[i].conversationId == id ==>
                   store.messages[i].createdAt <= Newest(MessagesOf(store, id)).value.createdAt
  {
    var ms := MessagesOf(store, id);
    var n := Newest(ms);
    if n.Some? {
      assert |ms| > 0;
      assert ms[0] in store.messages && ms[0].conversationId == id;
      assert n.value in ms;
      forall i | 0 <= i < |store.messages| && store.messages[i].conversationId == id
        ensures store.messages[i].createdAt <= n.value.createdAt
      {
        assert store.messages[i] in ms;
      }
    }
  }

  /** One entry of the listing: the conversation as the caller sees it. The
      other participant is never the caller, the latest message is the
      conversation's newest, and unread messages are not counted. */
  function ViewOf(store: Store, c: Conversation, caller: UserId): (v: ConversationView)
    ensures v.conversation == c
    ensures v.otherParticipant != Some(caller)
    ensures v.otherParticipant.None? <==> forall i :: 0 <= i < |c.participants| ==> c.participants[i] == caller
    ensures v.unreadCount == 0
    ensures v.latestMessage.None? <==>
              forall i :: 0 <= i < |store.messages| ==> store.messages[i].conversationId != c.id
    ensures v.latestMessage.Some? ==>
              && v.latestMessage.value in store.messages
              && v.latestMessage.value.conversationId == c.id
              && forall i :: 0 <= i < |store.messages| && store.messages[i].conversationId == c.id ==>
                   store.messages[i].createdAt <= v.latestMessage.value.createdAt
  {
    NewestMessageOf(store, c.id);
    ConversationView(c, OtherParticipant(c.participants, caller), Newest(MessagesOf(store, c.id)), 0)
  }

  /** The conversation listing's `where` object as a row filter. */
  function ParticipantFilter(caller: UserId): Conversation -> bool {
    (c: Conversation) => IsParticipant(c, caller)
  }

  /** Conversations are listed by last update, most recent first. */
  function Recency(c: Conversation): real {
    c.updatedAt as real
  }

  /** `GET /api/conversations`: one page of the caller's conversations, most
      recently active first, each seen from the caller's side. */
  function ListConversations(store: Store, caller: Option<UserId>, page: int, limit: int)
    : (r: Result<Listing<ConversationView>>)
    requires ValidPaging(page, limit)
    ensures caller.None? <==> r == Err(Unauthorized)
    ensures caller.Some? ==> r.Ok?
    ensures r.Ok? ==>
              && r.value.items
                 == Views(store, PageOf(Selection(store.conversations, ParticipantFilter(caller.value), Recency),
                                        page, limit), caller.value)
              && r.value.info
                 == Paginate(page, limit, |Selection(store.conversations, ParticipantFilter(caller.value), Recency)|)
    ensures r.Ok? ==>
              && caller.Some?
              && |r.value.items| <= limit
              && r.value.info == Paginate(page, limit,
                   |Seqs.Filter(store.conversations, (c: Conversation) => IsParticipant(c, caller.value))|)
              && (forall k :: 0 <= k < |r.value.items| ==>
                    && r.value.items[k].conversation in store.conversations
                    && caller.value in r.value.items[k].conversation.participants
                    && r.value.items[k] == ViewOf(store, r.value.items[k].conversation, caller.value))
              && (forall i, j :: 0 <= i < j < |r.value.items| ==>
                    r.value.items[i].conversation.updatedAt >= r.value.items[j].conversation.updatedAt)
  {
    if caller.None? then Err(Unauthorized)
    else
      var l := Query(store.conversations, ParticipantFilter(caller.value), Recency, page, limit);
      var views := Views(store, l.items, caller.value);
      RecentFirst(l.items);
      Ok(Listing(views, l.info))
  }

  /** The page's conversations, each decorated for the caller. */
  function Views(store: Store, convs: seq<Conversation>, caller: UserId): (vs: seq<ConversationView>)
    ensures |vs| == |convs|
    ensures forall k :: 0 <= k < |vs| ==> vs[k].conversation == convs[k] && vs[k] == ViewOf(store, convs[k], caller)
  {
    seq(|convs|, k requires 0 <= k < |convs| => ViewOf(store, convs[k], caller))
  }

  lemma RecentFirst(convs: seq<Conversation>)
    requires Seqs.NonIncreasing(convs, Recency)
    ensures forall i, j :: 0 <= i < j < |convs| ==> convs[i].updatedAt >= convs[j].updatedAt
  {
    forall i, j | 0 <= i < j < |convs| ensures convs[i].updatedAt >= convs[j].updatedAt {
      assert Recency(convs[i]) >= Recency(convs[j]);
    }
  }
}

=== FILE: http.dfy ===
/** The outcome vocabulary shared by every route handler: the HTTP error
    statuses they answer with and the shape of a JSON request body field
    as the zod schemas see it. */
module Http {
  import opened Base

  /** Why a handler answered 400. The source distinguishes these only by
      the message text; the model keeps them apart so that the order of
      the checks can be stated. */
  datatype Reason =
    | InvalidInput
    | DepartureNotBeforeArrival
    | DepartureInPast
    | MissingConversationId
    | InvalidOrExpiredCode
    | AlreadyVerified

  datatype Failure =
    | Unauthorized
    | BadRequest(reason: Reason)
    | Forbidden
    | NotFound
    | Conflict
    | InternalError

  function StatusCode(f: Failure): (code: int)
    ensures 400 <= code < 600
  {
    match f
    case Unauthorized => 401
    case BadRequest(_) => 400
    case Forbidden => 403
    case NotFound => 404
    case Conflict => 409
    case InternalError => 500
  }

  datatype Result<+T> = Ok(value: T) | Err(failure: Failure)

  /** One field of a parsed JSON body: missing, present with a value of the
      expected JSON type, or present with a value of another type (null,
      NaN serialised as null, a string where a number is expected, a date
      string that does not parse). */
  datatype Field<+T> = Absent | Value(v: T) | Malformed

  /** `z.string().min(1)` */
  predicate RequiredText(f: Field<string>) {
    f.Value? && |f.v| >= 1
  }

  /** `z.string().optional()` */
  predicate OptionalText(f: Field<string>) {
    !f.Malformed?
  }

  /** `z.number().positive()` */
  predicate RequiredPositive(f: Field<real>) {
    f.Value? && f.v > 0.0
  }

  /** `z.number().positive().optional()` */
  predicate OptionalPositive(f: Field<real>) {
    f.Absent? || (f.Value? && f.v > 0.0)
  }

  /** The value an optional field carries into the database: `undefined`
      becomes a NULL column. */
  function ValueOf<T>(f: Field<T>): (o: Option<T>)
    ensures o.Some? <==> f.Value?
    ensures o.Some? ==> o.value == f.v
  {
    if f.Value? then Some(f.v) else None
  }
}

=== FILE: lookup_tables.dfy ===
/** The search endpoint (`src/app/api/cities/search/route.ts`) and the
    city library (`src/lib/api-cities.ts`) each carry their own country
    and airport tables. This module relates the two copies. */
module LookupTables {
  import CitySearch
  import ApiCities

  /** Every country the endpoint lists, the library lists too; so the two
      lookups can disagree only on a country the library lists, and every
      country neither lists falls back to the same two letters. */
  lemma CountryTablesAgree(country: string)
    ensures country in CitySearch.CountryCodes ==> country in ApiCities.CountryCodes
    ensures country !in ApiCities.CountryCodes ==>
              ApiCities.GetCountryCode(country) == CitySearch.GetCountryCode(country)
  {
    assert CitySearch.CountryCodes.Keys <= ApiCities.CountryCodes.Keys;
  }

  /** Where the library lists a city's airports, the endpoint's list for
      it is a prefix of the library's. */
  lemma AirportTablesAgree(city: string, country: string)
    ensures city in ApiCities.Airports ==>
              CitySearch.GetAirports(city) <= ApiCities.GetAirportsForCity(city, country)
  {
  }

  /** Where both tables list a city, both name the same main airport. */
  lemma MainAirportsAgree(city: string, country: string)
    ensures city in ApiCities.Airports && city in CitySearch.Airports ==>
              CitySearch.GetMainAirport(city) == ApiCities.GetMainAirport(city, country)
  {
    AirportTablesAgree(city, country);
  }
}

=== FILE: marketplace.dfy ===
/** The records of the marketplace and the in-memory stand-in for its
    relational store. Each table is a sequence of rows in insertion order;
    row ids are strings generated by the database and are passed to the
    operations that create rows. Times are milliseconds since the epoch. */
module Marketplace {
  import opened Base
  import opened Http

  type UserId = string
  type Id = string

  /** Posts are created ACTIVE; nothing in the modelled handlers makes one
      inactive, but request creation refuses any post that is not. */
  datatype PostStatus = Active | Inactive

  /** The itinerary and capacity of a traveller post, as validated. */
  datatype Trip = Trip(
    departureCountry: string,
    departureCity: Option<string>,
    departureAirport: Option<string>,
    departureDate: Time,
    departureTime: Option<string>,
    arrivalCountry: string,
    arrivalCity: Option<string>,
    arrivalAirport: Option<string>,
    arrivalDate: Time,
    arrivalTime: Option<string>,
    availableWeight: real,
    pricePerKg: real,
    specialNotes: Option<string>,
    pickupLocation: Option<string>,
    deliveryLocation: Option<string>)

  datatype TravellerPost = TravellerPost(
    id: Id,
    userId: UserId,
    status: PostStatus,
    createdAt: Time,
    trip: Trip)

  /** The route and item of a sender post, as validated. */
  datatype Shipment = Shipment(
    originCountry: string,
    originCity: string,
    originAddress: Option<string>,
    destinationCountry: string,
    destinationCity: string,
    destinationAddress: Option<string>,
    itemCategory: string,
    itemDescription: string,
    weight: real,
    specialNotes: Option<string>,
    pickupNotes: Option<string>,
    deliveryNotes: Option<string>,
    maxPrice: Option<real>)

  datatype SenderPost = SenderPost(
    id: Id,
    userId: UserId,
    status: PostStatus,
    createdAt: Time,
    photos: seq<string>,
    shipment: Shipment)

  datatype RequestStatus = Pending | Accepted | Rejected | Completed | Cancelled

  /** A negotiation between the owner of a sender post (`senderId`) and
      the owner of a traveller post (`receiverId`). */
  datatype Request = Request(
    id: Id,
    senderPostId: Id,
    travellerPostId: Id,
    senderId: UserId,
    receiverId: UserId,
    message: Option<string>,
    proposedPrice: Option<real>,
    status: RequestStatus,
    createdAt: Time)

  /** The chat thread of one request; `participants` lists the user ids of
      its participant rows in creation order. */
  datatype Conversation = Conversation(
    id: Id,
    requestId: Id,
    participants: seq<UserId>,
    createdAt: Time,
    updatedAt: Time)

  datatype MessageType = Text | System | StatusUpdate

  datatype Message = Message(
    id: Id,
    conversationId: Id,
    senderId: UserId,
    content: string,
    messageType: MessageType,
    createdAt: Time)

  datatype Store = Store(
    travellerPosts: seq<TravellerPost>,
    senderPosts: seq<SenderPost>,
    requests: seq<Request>,
    conversations: seq<Conversation>,
    messages: seq<Message>)

  /** What a mutating handler answers and the store it leaves behind. */
  datatype Response<+T> = Response(result: Result<T>, store: Store)

  /** A query-string parameter as `searchParams.get` returns it; the
      handlers test it for truthiness, so an empty value counts as absent. */
  predicate Given(p: Option<string>) {
    p.Some? && p.value != ""
  }

  /** A conversation is visible to `user` when one of its participant rows
      names them. */
  predicate IsParticipant(c: Conversation, user: UserId) {
    user in c.participants
  }
}

=== FILE: messages.dfy ===
/** `POST /api/messages` (append a message to a conversation the caller
    takes part in) and `GET /api/messages` (one page of a conversation's
    messages, oldest first). */
module Messages {
  import opened Base
  import opened Http
  import Seqs
  import opened Paging
  import opened Marketplace
  import Requests

  datatype MessageBody = MessageBody(
    conversationId: Field<string>,
    content: Field<string>,
    messageType: Field<string>)

  /** The message type field: one of the three type names, TEXT when it
      is omitted. */
  function ParseMessageType(f: Field<string>): (t: Option<MessageType>)
    ensures f.Absent? ==> t == Some(Text)
    ensures f.Malformed? ==> t.None?
    ensures f.Value? ==> (t.Some? <==> f.v in {"TEXT", "SYSTEM", "STATUS_UPDATE"})
  {
    match f
    case Absent => Some(Text)
    case Malformed => None
    case Value(s) =>
      if s == "TEXT" then Some(Text)
      else if s == "SYSTEM" then Some(System)
      else if s == "STATUS_UPDATE" then Some(StatusUpdate)
      else None
  }

  predicate MessageBodyValid(b: MessageBody) {
    RequiredText(b.conversationId) && RequiredText(b.content) && ParseMessageType(b.messageType).Some?
  }

  /** The conversation with id `id`, provided `user` takes part in it. */
  function VisibleConversation(store: Store, id: Id, user: UserId): Option<Conversation> {
    Seqs.FindFirst(store.conversations, (c: Conversation) => c.id == id && IsParticipant(c, user))
  }

  /** Sets the activity time of the conversation with id `id` to `now`. */
  function Touch(cs: seq<Conversation>, id: Id, now: Time): (r: seq<Conversation>)
    ensures |r| == |cs|
    ensures forall i :: 0 <= i < |cs| ==>
              && r[i].id == cs[i].id && r[i].requestId == cs[i].requestId
              && r[i].participants == cs[i].participants && r[i].createdAt == cs[i].createdAt
    ensures forall i :: 0 <= i < |cs| && cs[i].id == id ==> r[i].updatedAt == now
    ensures forall i :: 0 <= i < |cs| && cs[i].id != id ==> r[i] == cs[i]
  {
    seq(|cs|, i requires 0 <= i < |cs| => if cs[i].id == id then cs[i].(updatedAt := now) else cs[i])
  }

  /** `POST /api/messages` at time `now`; `messageId` is the id the
      database assigns to the new row. */
  function PostMessage(store: Store, caller: Option<UserId>, body: MessageBody, messageId: Id, now: Time)
    : (r: Response<Message>)
    ensures r.result.Err? ==> r.store == store
    ensures caller.None? ==> r.result == Err(Unauthorized)
    ensures caller.Some? && !MessageBodyValid(body) ==> r.result == Err(BadRequest(InvalidInput))
    ensures caller.Some? && MessageBodyValid(body) ==>
              (r.result == Err(NotFound) <==>
                 forall i :: 0 <= i < |store.conversations| ==>
                   !(store.conversations[i].id == body.conversationId.v
                     && caller.value in store.conversations[i].participants))
    ensures caller.Some? && MessageBodyValid(body) ==>
              (r.result.Ok? <==>
                 exists i :: 0 <= i < |store.conversations|
                   && store.conversations[i].id == body.conversationId.v
                   && caller.value in store.conversations[i].participants)
    ensures r.result.Ok? ==>
              && caller.Some? && MessageBodyValid(body)
              && r.result.value == Message(messageId, body.conversationId.v, caller.value, body.content.v,
                                           ParseMessageType(body.messageType).value, now)
              && r.store.messages == store.messages + [r.result.value]
              && r.store.travellerPosts == store.travellerPosts
              && r.store.senderPosts == store.senderPosts
              && r.store.requests == store.requests
              && |r.store.conversations| == |store.conversations|
              && forall i :: 0 <= i < |store.conversations| ==>
                   if store.conversations[i].id == body.conversationId.v
                   then r.store.conversations[i] == store.conversations[i].(updatedAt := now)
                   else r.store.conversations[i] == store.conversations[i]
  {
    if caller.None? then Response(Err(Unauthorized), store)
    else if !MessageBodyValid(body) then Response(Err(BadRequest(InvalidInput)), store)
    else if VisibleConversation(store, body.conversationId.v, caller.value).None? then
      Response(Err(NotFound), store)
    else
      var m := Message(messageId, body.conversationId.v, caller.value, body.content.v,
                       ParseMessageType(body.messageType).value, now);
      Response(Ok(m), store.(messages := store.messages + [m],
                             conversations := Touch(store.conversations, body.conversationId.v, now)))
  }

  /** The message type needs no authority beyond being a participant: any
      participant may post a SYSTEM or STATUS_UPDATE message. */
  lemma ParticipantMayPostAnyType(store: Store, user: UserId, conversationId: Id, content: string,
                                  kind: string, messageId: Id, now: Time)
    requires kind == "SYSTEM" || kind == "STATUS_UPDATE"
    requires conversationId != "" && content != ""
    requires exists i :: 0 <= i < |store.conversations|
               && store.conversations[i].id == conversationId && user in store.conversations[i].participants
    ensures var r := PostMessage(store, Some(user), MessageBody(Value(conversationId), Value(content), Value(kind)),
                                 messageId, now);
            r.result.Ok? && r.result.value.messageType != Text
  {
  }

  /** Every message was written by a participant of an existing
      conversation with the message's conversation id. */
  ghost predicate AuthorsAreParticipants(store: Store) {
    forall i :: 0 <= i < |store.messages| ==> AuthoredByParticipant(store, store.messages[i])
  }

  ghost predicate AuthoredByParticipant(store: Store, m: Message) {
    exists k :: 0 <= k < |store.conversations|
      && store.conversations[k].id == m.conversationId
      && m.senderId in store.conversations[k].participants
  }

  lemma PostMessageKeepsAuthorsParticipants(store: Store, caller: Option<UserId>, body: MessageBody,
                                            messageId: Id, now: Time)
    requires AuthorsAreParticipants(store)
    ensures AuthorsAreParticipants(PostMessage(store, caller, body, messageId, now).store)
  {
    var r := PostMessage(store, caller, body, messageId, now);
    if r.result.Ok? {
      var s' := r.store;
      var m := r.result.value;
      forall i | 0 <= i < |s'.messages| ensures AuthoredByParticipant(s', s'.messages[i]) {
        if i == |store.messages| {
          var c := VisibleConversation(store, m.conversationId, m.senderId).value;
          var k :| 0 <= k < |store.conversations| && store.conversations[k] == c
                   && c.id == m.conversationId && IsParticipant(c, m.senderId);
          assert s'.conversations[k].participants == c.participants;
          assert s'.messages[i] == m;
        } else {
          var msg := store.messages[i];
          assert s'.messages[i] == msg;
          assert AuthoredByParticipant(store, msg);
          var k :| 0 <= k < |store.conversations| && store.conversations[k].id == msg.conversationId
                   && msg.senderId in store.conversations[k].participants;
          assert s'.conversations[k].id == store.conversations[k].id;
          assert s'.conversations[k].participants == store.conversations[k].participants;
        }
      }
    }
  }

  /** Posting a message never detaches a request from its conversation. */
  lemma PostMessageKeepsConversationPerRequest(store: Store, caller: Option<UserId>, body: MessageBody,
                                               messageId: Id, now: Time)
    requires Requests.ConversationPerRequest(store)
    ensures Requests.ConversationPerRequest(PostMessage(store, caller, body, messageId, now).store)
  {
    var r := PostMessage(store, caller, body, messageId, now);
    if r.result.Ok? {
      var s' := r.store;
      forall i | 0 <= i < |s'.requests| ensures Requests.HasConversation(s', s'.requests[i]) {
        var req := store.requests[i];
        assert Requests.HasConversation(store, req);
        var k :| 0 <= k < |store.conversations| && store.conversations[k].requestId == req.id
                 && store.conversations[k].participants == [req.senderId, req.receiverId];
        assert s'.conversations[k].requestId == req.id;
        assert s'.conversations[k].participants == [req.senderId, req.receiverId];
      }
    }
  }

  /** The message listing's `where` object as a row filter. */
  function InConversation(id: Id): Message -> bool {
    (m: Message) => m.conversationId == id
  }

  /** The listing's ascending creation-time order, as a key the shared
      listing sorts highest first. */
  function OldestFirst(m: Message): real {
    -(m.createdAt as real)
  }

  /** `GET /api/messages`: the conversation's messages oldest first, one
      page of them, and their total count. */
  function ListMessages(store: Store, caller: Option<UserId>, conversationId: Option<string>,
                        page: int, limit: int): (r: Result<Listing<Message>>)
    requires ValidPaging(page, limit)
    ensures caller.None? <==> r == Err(Unauthorized)
    ensures caller.Some? && !Given(conversationId) ==> r == Err(BadRequest(MissingConversationId))
    ensures caller.Some? && Given(conversationId) ==>
              (r == Err(NotFound) <==>
                 forall i :: 0 <= i < |store.conversations| ==>
                   !(store.conversations[i].id == conversationId.value
                     && caller.value in store.conversations[i].participants))
    ensures caller.Some? && Given(conversationId) ==>
              (r.Ok? <==>
                 exists i :: 0 <= i < |store.conversations|
                   && store.conversations[i].id == conversationId.value
                   && caller.value in store.conversations[i].participants)
    ensures r.Ok? ==>
              && r.value.items
                 == PageOf(Selection(store.messages, InConversation(conversationId.value), OldestFirst), page, limit)
              && r.value.info
                 == Paginate(page, limit, |Selection(store.messages, InConversation(conversationId.value), OldestFirst)|)
    ensures r.Ok? ==>
              && caller.Some? && Given(conversationId)
              && |r.value.items| <= limit
              && Seqs.NonDecreasing(r.value.items, (m: Message) => m.createdAt as real)
              && (forall k :: 0 <= k < |r.value.items| ==>
                    r.value.items[k] in store.messages && r.value.items[k].conversationId == conversationId.value)
              && r.value.info == Paginate(page, limit, |Seqs.Filter(store.messages, InConversation(conversationId.value))|)
  {
    if caller.None? then Err(Unauthorized)
    else if !Given(conversationId) then Err(BadRequest(MissingConversationId))
    else if VisibleConversation(store, conversationId.value, caller.value).None? then Err(NotFound)
    else
      var l := Query(store.messages, InConversation(conversationId.value), OldestFirst, page, limit);
      OldestFirstOrder(l.items);
      Ok(l)
  }

  /** Highest `OldestFirst` first is lowest creation time first. */
  lemma OldestFirstOrder(ms: seq<Message>)
    requires Seqs.NonIncreasing(ms, OldestFirst)
    ensures Seqs.NonDecreasing(ms, (m: Message) => m.createdAt as real)
  {
    forall i, j | 0 <= i < j < |ms| ensures ms[i].createdAt as real <= ms[j].createdAt as real {
      assert OldestFirst(ms[i]) >= OldestFirst(ms[j]);
    }
  }
}

=== FILE: paging.dfy ===
/** The pagination arithmetic every list handler repeats:
    `skip = (page - 1) * limit`, `take = limit`,
    `totalPages = Math.ceil(totalCount / limit)`,
    `hasNextPage = page < totalPages`, `hasPrevPage = page > 1`. */
module Paging {
  import opened Base
  import Seqs

  datatype PageInfo = PageInfo(
    page: int,
    limit: int,
    totalCount: nat,
    totalPages: nat,
    hasNextPage: bool,
    hasPrevPage: bool)

  /** One page of a sorted result together with its metadata. */
  datatype Listing<T> = Listing(items: seq<T>, info: PageInfo)

  /** The values of `parseInt(page)` and `parseInt(limit)` the model covers. */
  predicate ValidPaging(page: int, limit: int) {
    page >= 1 && limit >= 1
  }

  /** `Math.ceil(n / d)` for non-negative integers. */
  function CeilDiv(n: nat, d: nat): (q: nat)
    requires d >= 1
    ensures q * d >= n
    ensures q == 0 || (q - 1) * d < n
  {
    var q := (n + d - 1) / d;
    assert q * d <= n + d - 1 < q * d + d;
    q
  }

  lemma CeilDivBelow(n: nat, d: nat, page: int)
    requires d >= 1
    ensures page < CeilDiv(n, d) <==> page * d < n
  {
    var q: int := CeilDiv(n, d);
    if page < q {
      MulMonotone(page, q - 1, d);
    } else {
      MulMonotone(q, page, d);
    }
  }

  /** Multiplying by a non-negative factor keeps the order. */
  lemma {:induction false} MulMonotone(a: int, b: int, d: nat)
    requires a <= b
    ensures a * d <= b * d
    decreases b - a
  {
    if a < b {
      MulMonotone(a, b - 1, d);
      assert (b - 1) * d + d == b * d;
    }
  }

  function Paginate(page: int, limit: int, total: nat): (info: PageInfo)
    requires ValidPaging(page, limit)
    ensures info.page == page && info.limit == limit && info.totalCount == total
    ensures info.totalPages * limit >= total
    ensures info.totalPages == 0 <==> total == 0
    ensures info.totalPages > 0 ==> (info.totalPages - 1) * limit < total
    ensures info.hasNextPage <==> page * limit < total
    ensures info.hasPrevPage <==> page > 1
  {
    var pages := CeilDiv(total, limit);
    CeilDivBelow(total, limit, page);
    PageInfo(page, limit, total, pages, page < pages, page > 1)
  }

  /** The number of rows the pages before `page` hold. */
  function Skip(page: int, limit: int): nat
    requires ValidPaging(page, limit)
  {
    (page - 1) * limit
  }

  /** Page `page` of an ordered result: the `limit` elements that follow
      the first `Skip(page, limit)`, fewer on the last page and none past
      it. */
  function PageOf<T>(s: seq<T>, page: int, limit: int): seq<T>
    requires ValidPaging(page, limit)
  {
    s[Min(Skip(page, limit), |s|)..Min(Skip(page, limit) + limit, |s|)]
  }

  /** The page `page` of an already filtered and ordered result, and the
      pagination block computed from the full result's size. */
  function Paginated<T>(sorted: seq<T>, page: int, limit: int): (l: Listing<T>)
    requires ValidPaging(page, limit)
    ensures l.items == PageOf(sorted, page, limit)
    ensures |l.items| <= limit
    ensures forall k :: 0 <= k < |l.items| ==>
              Skip(page, limit) + k < |sorted| && l.items[k] == sorted[Skip(page, limit) + k]
    ensures Skip(page, limit) < |sorted| ==> |l.items| == Min(limit, |sorted| - Skip(page, limit))
    ensures l.info == Paginate(page, limit, |sorted|)
    ensures l.info.hasNextPage <==> Skip(page, limit) + |l.items| < |sorted|
  {
    var items := Seqs.Window(sorted, Skip(page, limit), limit);
    assert items == PageOf(sorted, page, limit);
    Listing(items, Paginate(page, limit, |sorted|))
  }

  /** Reading pages 1, 2, ... in turn visits every element of the result
      once: page p + 1 starts where page p ends. */
  lemma {:induction false} PagesAreContiguous<T>(sorted: seq<T>, page: int, limit: int)
    requires ValidPaging(page, limit)
    requires Paginated(sorted, page, limit).info.hasNextPage
    ensures Skip(page + 1, limit) == Skip(page, limit) + |Paginated(sorted, page, limit).items|
  {
    var l := Paginated(sorted, page, limit);
    assert |l.items| == limit;
  }

  /** A window of an ordered sequence is ordered. */
  lemma WindowKeepsOrder<T>(xs: seq<T>, skip: nat, take: nat, key: T -> real)
    requires Seqs.NonIncreasing(xs, key)
    ensures Seqs.NonIncreasing(Seqs.Window(xs, skip, take), key)
  {
    var w := Seqs.Window(xs, skip, take);
    forall i, j | 0 <= i < j < |w| ensures key(w[i]) >= key(w[j]) {
      assert w[i] == xs[skip + i] && w[j] == xs[skip + j];
    }
  }

  /** The rows the `where` object selects, in the order `orderBy` gives
      them: highest `key` first. The database fixes no order among rows
      with equal keys; the model keeps their stored order. */
  function Selection<T(!new)>(rows: seq<T>, keep: T -> bool, key: T -> real): (s: seq<T>)
    ensures Seqs.NonIncreasing(s, key)
    ensures forall x :: multiset(s)[x] == if keep(x) then multiset(rows)[x] else 0
    ensures forall x :: x in s <==> x in rows && keep(x)
    ensures |s| == |Seqs.Filter(rows, keep)|
  {
    SelectionCounts(rows, keep, key);
    SelectedRows(rows, keep, key);
    Seqs.SortDesc(Seqs.Filter(rows, keep), key)
  }

  lemma SelectionCounts<T>(rows: seq<T>, keep: T -> bool, key: T -> real)
    ensures forall x :: multiset(Seqs.SortDesc(Seqs.Filter(rows, keep), key))[x]
                        == if keep(x) then multiset(rows)[x] else 0
  {
    forall x ensures multiset(Seqs.SortDesc(Seqs.Filter(rows, keep), key))[x]
                     == if keep(x) then multiset(rows)[x] else 0 {
      Seqs.FilterCounts(rows, keep, x);
    }
  }

  /** The shape of every list handler: keep the rows the `where` object
      selects, order them by `key` (highest first), cut out one page, and
      count the selected rows for the pagination block. */
  function Query<T(!new)>(rows: seq<T>, keep: T -> bool, key: T -> real, page: int, limit: int)
    : (l: Listing<T>)
    requires ValidPaging(page, limit)
    ensures l.items == PageOf(Selection(rows, keep, key), page, limit)
    ensures l.info == Paginate(page, limit, |Selection(rows, keep, key)|)
    ensures |l.items| <= limit
    ensures forall k :: 0 <= k < |l.items| ==> l.items[k] in rows && keep(l.items[k])
    ensures Seqs.NonIncreasing(l.items, key)
    ensures l.info.totalCount <= |rows|
    ensures page == 1 && l.info.totalCount <= limit ==>
              forall i :: 0 <= i < |rows| && keep(rows[i]) ==> rows[i] in l.items
  {
    var sorted := Selection(rows, keep, key);
    var l := Paginated(sorted, page, limit);
    WindowKeepsOrder(sorted, Skip(page, limit), limit, key);
    PageMembers(rows, keep, sorted, l.items);
    if page == 1 && |sorted| <= limit then
      FirstPageIsEverything(sorted, limit);
      FirstPageComplete(rows, keep, sorted, l.items);
      l
    else
      l
  }

  /** Entry `j` of page `page` is row `Skip(page, limit) + j` of the
      selection, for every row the selection has. */
  lemma EveryRowOnItsPage<T(!new)>(rows: seq<T>, keep: T -> bool, key: T -> real, page: int, limit: int, j: int)
    requires ValidPaging(page, limit) && 0 <= j < limit
    requires Skip(page, limit) + j < |Selection(rows, keep, key)|
    ensures var items := Query(rows, keep, key, page, limit).items;
            j < |items| && items[j] == Selection(rows, keep, key)[Skip(page, limit) + j]
  {
  }

  /** Every selected row has a page: row `i` of the selection is entry
      `i % limit` of page `i / limit + 1`. */
  lemma RowPosition<T(!new)>(rows: seq<T>, keep: T -> bool, key: T -> real, i: nat, limit: int)
    requires limit >= 1 && i < |Selection(rows, keep, key)|
    ensures ValidPaging(i / limit + 1, limit) && 0 <= i % limit < limit
    ensures Skip(i / limit + 1, limit) + i % limit == i
    ensures var items := Query(rows, keep, key, i / limit + 1, limit).items;
            i % limit < |items| && items[i % limit] == Selection(rows, keep, key)[i]
  {
    var page, j := i / limit + 1, i % limit;
    assert ValidPaging(page, limit) && 0 <= j < limit && Skip(page, limit) + j == i by {
      PageOfIndex(i, limit);
    }
    EveryRowOnItsPage(rows, keep, key, page, limit, j);
  }

  lemma PageOfIndex(i: nat, limit: int)
    requires limit >= 1
    ensures ValidPaging(i / limit + 1, limit) && 0 <= i % limit < limit
    ensures Skip(i / limit + 1, limit) + i % limit == i
  {
  }

  /** The ordered selection holds exactly the rows the filter keeps. */
  lemma SelectedRows<T>(rows: seq<T>, keep: T -> bool, key: T -> real)
    ensures forall x :: x in Seqs.SortDesc(Seqs.Filter(rows, keep), key) <==> x in rows && keep(x)
  {
    var matching := Seqs.Filter(rows, keep);
    Seqs.SortedSameElements(matching, key);
    forall x | x in rows && keep(x) ensures x in matching {
      var i :| 0 <= i < |rows| && rows[i] == x;
    }
    forall x | x in matching ensures x in rows && keep(x) {
      var i :| 0 <= i < |matching| && matching[i] == x;
    }
  }

  lemma PageMembers<T>(rows: seq<T>, keep: T -> bool, sorted: seq<T>, items: seq<T>)
    requires forall x :: x in sorted ==> x in rows && keep(x)
    requires forall k :: 0 <= k < |items| ==> items[k] in sorted
    ensures forall k :: 0 <= k < |items| ==> items[k] in rows && keep(items[k])
  {
  }

  lemma FirstPageComplete<T>(rows: seq<T>, keep: T -> bool, sorted: seq<T>, items: seq<T>)
    requires forall x :: x in rows && keep(x) ==> x in sorted
    requires items == sorted
    ensures forall i :: 0 <= i < |rows| && keep(rows[i]) ==> rows[i] in items
  {
  }

  lemma FirstPageIsEverything<T>(sorted: seq<T>, limit: int)
    requires limit >= 1 && |sorted| <= limit
    ensures Paginated(sorted, 1, limit).items == sorted
  {
    var items := Paginated(sorted, 1, limit).items;
    assert Skip(1, limit) == 0;
    assert |items| == |sorted|;
  }
}

=== FILE: posts.dfy ===
/** The two post kinds: creation with validation (`POST`) and the public
    listing filter with pagination (`GET`), for traveller posts
    (`src/app/api/posts/traveller/route.ts`) and sender posts
    (`src/app/api/posts/sender/route.ts`). */
module Posts {
  import opened Base
  import opened Http
  import opened Text
  import Seqs
  import opened Paging
  import opened Marketplace

  /** Case-insensitive substring match (`contains` with `mode: 'insensitive'`). */
  predicate MatchesInsensitive(column: string, pattern: string) {
    Contains(ToLower(column), ToLower(pattern))
  }

  // ---------------------------------------------------------------------
  // Traveller posts

  datatype TravellerPostBody = TravellerPostBody(
    departureCountry: Field<string>,
    departureCity: Field<string>,
    departureAirport: Field<string>,
    departureDate: Field<Time>,
    departureTime: Field<string>,
    arrivalCountry: Field<string>,
    arrivalCity: Field<string>,
    arrivalAirport: Field<string>,
    arrivalDate: Field<Time>,
    arrivalTime: Field<string>,
    availableWeight: Field<real>,
    pricePerKg: Field<real>,
    specialNotes: Field<string>,
    pickupLocation: Field<string>,
    deliveryLocation: Field<string>)

  /** The zod schema of the traveller post body. A date field is a string
      that must coerce to a valid date, modelled as `Value(ms)`. */
  predicate TravellerBodyValid(b: TravellerPostBody) {
    && RequiredText(b.departureCountry)
    && OptionalText(b.departureCity)
    && OptionalText(b.departureAirport)
    && b.departureDate.Value?
    && OptionalText(b.departureTime)
    && RequiredText(b.arrivalCountry)
    && OptionalText(b.arrivalCity)
    && OptionalText(b.arrivalAirport)
    && b.arrivalDate.Value?
    && OptionalText(b.arrivalTime)
    && RequiredPositive(b.availableWeight)
    && RequiredPositive(b.pricePerKg)
    && OptionalText(b.specialNotes)
    && OptionalText(b.pickupLocation)
    && OptionalText(b.deliveryLocation)
  }

  function TripOf(b: TravellerPostBody): Trip
    requires TravellerBodyValid(b)
  {
    Trip(b.departureCountry.v, ValueOf(b.departureCity), ValueOf(b.departureAirport),
         b.departureDate.v, ValueOf(b.departureTime),
         b.arrivalCountry.v, ValueOf(b.arrivalCity), ValueOf(b.arrivalAirport),
         b.arrivalDate.v, ValueOf(b.arrivalTime),
         b.availableWeight.v, b.pricePerKg.v,
         ValueOf(b.specialNotes), ValueOf(b.pickupLocation), ValueOf(b.deliveryLocation))
  }

  /** What every stored traveller post satisfies: the required fields are
      filled in, capacity and price are positive, and the trip departs
      before it arrives. */
  predicate WellFormedTravellerPost(p: TravellerPost) {
    && |p.trip.departureCountry| > 0
    && |p.trip.arrivalCountry| > 0
    && p.trip.availableWeight > 0.0
    && p.trip.pricePerKg > 0.0
    && p.trip.departureDate < p.trip.arrivalDate
  }

  /** `POST /api/posts/traveller`. `now` is the instant the handler reads
      the clock for the "in the future" check; `createdAt` is the time the
      database stamps on the new row when it inserts it, a separate
      reading. `id` is the id the database assigns to the new row. */
  function CreateTravellerPost(store: Store, caller: Option<UserId>, body: TravellerPostBody, id: Id,
                               now: Time, createdAt: Time)
    : (r: Response<TravellerPost>)
    ensures r.result.Err? ==> r.store == store
    ensures caller.None? ==> r.result == Err(Unauthorized)
    ensures caller.Some? && !TravellerBodyValid(body) ==> r.result == Err(BadRequest(InvalidInput))
    ensures caller.Some? && TravellerBodyValid(body) && body.departureDate.v >= body.arrivalDate.v ==>
              r.result == Err(BadRequest(DepartureNotBeforeArrival))
    ensures caller.Some? && TravellerBodyValid(body) && body.departureDate.v < body.arrivalDate.v
              && body.departureDate.v < now ==>
              r.result == Err(BadRequest(DepartureInPast))
    ensures caller.Some? && TravellerBodyValid(body) && body.departureDate.v < body.arrivalDate.v
              && now <= body.departureDate.v ==>
              r.result.Ok?
    ensures r.result.Ok? ==>
              && caller.Some? && TravellerBodyValid(body)
              && body.departureDate.v < body.arrivalDate.v && now <= body.departureDate.v
              && r.result.value == TravellerPost(id, caller.value, Active, createdAt, TripOf(body))
              && r.store == store.(travellerPosts := store.travellerPosts + [r.result.value])
              && WellFormedTravellerPost(r.result.value)
  {
    if caller.None? then Response(Err(Unauthorized), store)
    else if !TravellerBodyValid(body) then Response(Err(BadRequest(InvalidInput)), store)
    else if body.departureDate.v >= body.arrivalDate.v then
      Response(Err(BadRequest(DepartureNotBeforeArrival)), store)
    else if body.departureDate.v < now then Response(Err(BadRequest(DepartureInPast)), store)
    else
      var post := TravellerPost(id, caller.value, Active, createdAt, TripOf(body));
      Response(Ok(post), store.(travellerPosts := store.travellerPosts + [post]))
  }

  /** A departure exactly at the current instant is accepted: the "future"
      check is `departureDate < now`, not `<=`. */
  lemma DepartureAtNowAccepted(store: Store, user: UserId, body: TravellerPostBody, id: Id, now: Time, createdAt: Time)
    requires TravellerBodyValid(body)
    requires body.departureDate.v == now && now < body.arrivalDate.v
    ensures CreateTravellerPost(store, Some(user), body, id, now, createdAt).result.Ok?
  {
  }

  /** Creation keeps every stored traveller post well formed, whatever
      the clocks and the body. */
  lemma CreateTravellerPostKeepsWellFormed(store: Store, caller: Option<UserId>, body: TravellerPostBody, id: Id,
                                           now: Time, createdAt: Time)
    requires forall i :: 0 <= i < |store.travellerPosts| ==> WellFormedTravellerPost(store.travellerPosts[i])
    ensures var s := CreateTravellerPost(store, caller, body, id, now, createdAt).store;
            forall i :: 0 <= i < |s.travellerPosts| ==> WellFormedTravellerPost(s.travellerPosts[i])
  {
    var r := CreateTravellerPost(store, caller, body, id, now, createdAt);
    if r.result.Ok? {
      assert r.store.travellerPosts == store.travellerPosts + [r.result.value];
    }
  }

  /** The query string of `GET /api/posts/traveller`; dates are the
      parsed values of `dateFrom` and `dateTo` when those are non-empty. */
  datatype TravellerQuery = TravellerQuery(
    departureCountry: Option<string>,
    arrivalCountry: Option<string>,
    dateFrom: Option<Time>,
    dateTo: Option<Time>,
    userId: Option<string>,
    excludeUser: Option<string>)

  /** The `where` object the handler builds, as a predicate on one row:
      always ACTIVE; `excludeUser` overwrites the `userId` condition; the
      "departs from now on" bound applies only without `userId`, and a
      `dateFrom` replaces it; `dateTo` is an inclusive upper bound. */
  predicate TravellerListed(p: TravellerPost, q: TravellerQuery, now: Time)
    ensures TravellerListed(p, q, now) ==> p.status == Active
    ensures TravellerListed(p, q, now) && Given(q.excludeUser) ==> p.userId != q.excludeUser.value
    ensures q == TravellerQuery(None, None, None, None, None, None) ==>
              (TravellerListed(p, q, now) <==> p.status == Active && p.trip.departureDate >= now)
  {
    && p.status == Active
    && (if Given(q.excludeUser) then p.userId != q.excludeUser.value
        else Given(q.userId) ==> p.userId == q.userId.value)
    && (if q.dateFrom.Some? then p.trip.departureDate >= q.dateFrom.value
        else !Given(q.userId) ==> p.trip.departureDate >= now)
    && (q.dateTo.Some? ==> p.trip.departureDate <= q.dateTo.value)
    && (Given(q.departureCountry) ==> MatchesInsensitive(p.trip.departureCountry, q.departureCountry.value))
    && (Given(q.arrivalCountry) ==> MatchesInsensitive(p.trip.arrivalCountry, q.arrivalCountry.value))
  }

  /** The traveller listing's `where` object as a row filter. */
  function TravellerFilter(q: TravellerQuery, now: Time): TravellerPost -> bool {
    p => TravellerListed(p, q, now)
  }

  /** Traveller posts are listed by creation time, newest first. */
  function TravellerAge(p: TravellerPost): real {
    p.createdAt as real
  }

  /** `GET /api/posts/traveller`: matching rows, newest first, one page,
      and the count of all matching rows. */
  function ListTravellerPosts(store: Store, q: TravellerQuery, now: Time, page: int, limit: int)
    : (l: Listing<TravellerPost>)
    requires ValidPaging(page, limit)
    ensures l.items == PageOf(Selection(store.travellerPosts, TravellerFilter(q, now), TravellerAge), page, limit)
    ensures l.info == Paginate(page, limit, |Selection(store.travellerPosts, TravellerFilter(q, now), TravellerAge)|)
    ensures |l.items| <= limit
    ensures forall k :: 0 <= k < |l.items| ==>
              l.items[k] in store.travellerPosts && TravellerListed(l.items[k], q, now)
    ensures Seqs.NonIncreasing(l.items, TravellerAge)
    ensures l.info.totalCount <= |store.travellerPosts|
    ensures page == 1 && l.info.totalCount <= limit ==>
              forall i :: 0 <= i < |store.travellerPosts| && TravellerListed(store.travellerPosts[i], q, now) ==>
                store.travellerPosts[i] in l.items
  {
    Query(store.travellerPosts, TravellerFilter(q, now), TravellerAge, page, limit)
  }

  /** Without an owner filter and without `dateFrom`, only trips that have
      not yet departed are listed. */
  lemma PublicListingIsUpcoming(p: TravellerPost, q: TravellerQuery, now: Time)
    requires !Given(q.userId) && q.dateFrom.None?
    requires TravellerListed(p, q, now)
    ensures p.trip.departureDate >= now
  {
  }

  /** An owner listing (`userId`) also shows that owner's trips that have
      already departed, as long as they are ACTIVE. */
  lemma OwnerListingIncludesPastTrips(p: TravellerPost, owner: string, now: Time)
    requires owner != "" && p.userId == owner && p.status == Active
    ensures TravellerListed(p, TravellerQuery(None, None, None, None, Some(owner), None), now)
  {
  }

  /** `excludeUser` wins over `userId`: the owner filter is dropped, yet
      the presence of `userId` still switches the date bound off. */
  lemma ExcludeUserOverridesUserId(p: TravellerPost, owner: string, excluded: string, now: Time)
    requires owner != "" && excluded != ""
    requires p.status == Active && p.userId != excluded
    ensures TravellerListed(p, TravellerQuery(None, None, None, None, Some(owner), Some(excluded)), now)
  {
  }

  // ---------------------------------------------------------------------
  // Sender posts

  datatype SenderPostBody = SenderPostBody(
    originCountry: Field<string>,
    originCity: Field<string>,
    originAddress: Field<string>,
    destinationCountry: Field<string>,
    destinationCity: Field<string>,
    destinationAddress: Field<string>,
    itemCategory: Field<string>,
    itemDescription: Field<string>,
    weight: Field<real>,
    specialNotes: Field<string>,
    pickupNotes: Field<string>,
    deliveryNotes: Field<string>,
    maxPrice: Field<real>)

  /** The zod schema of the sender post body. */
  predicate SenderBodyValid(b: SenderPostBody) {
    && RequiredText(b.originCountry)
    && RequiredText(b.originCity)
    && OptionalText(b.originAddress)
    && RequiredText(b.destinationCountry)
    && RequiredText(b.destinationCity)
    && OptionalText(b.destinationAddress)
    && RequiredText(b.itemCategory)
    && RequiredText(b.itemDescription)
    && RequiredPositive(b.weight)
    && OptionalText(b.specialNotes)
    && OptionalText(b.pickupNotes)
    && OptionalText(b.deliveryNotes)
    && OptionalPositive(b.maxPrice)
  }

  function ShipmentOf(b: SenderPostBody): Shipment
    requires SenderBodyValid(b)
  {
    Shipment(b.originCountry.v, b.originCity.v, ValueOf(b.originAddress),
             b.destinationCountry.v, b.destinationCity.v, ValueOf(b.destinationAddress),
             b.itemCategory.v, b.itemDescription.v, b.weight.v,
             ValueOf(b.specialNotes), ValueOf(b.pickupNotes), ValueOf(b.deliveryNotes),
             ValueOf(b.maxPrice))
  }

  predicate WellFormedSenderPost(p: SenderPost) {
    && |p.shipment.originCountry| > 0 && |p.shipment.originCity| > 0
    && |p.shipment.destinationCountry| > 0 && |p.shipment.destinationCity| > 0
    && |p.shipment.itemCategory| > 0 && |p.shipment.itemDescription| > 0
    && p.shipment.weight > 0.0
    && (p.shipment.maxPrice.Some? ==> p.shipment.maxPrice.value > 0.0)
  }

  /** `POST /api/posts/sender` at time `now`. */
  function CreateSenderPost(store: Store, caller: Option<UserId>, body: SenderPostBody, id: Id, now: Time)
    : (r: Response<SenderPost>)
    ensures r.result.Err? ==> r.store == store
    ensures caller.None? ==> r.result == Err(Unauthorized)
    ensures caller.Some? && !SenderBodyValid(body) ==> r.result == Err(BadRequest(InvalidInput))
    ensures r.result.Ok? ==>
              && caller.Some? && SenderBodyValid(body)
              && r.result.value == SenderPost(id, caller.value, Active, now, [], ShipmentOf(body))
              && r.store == store.(senderPosts := store.senderPosts + [r.result.value])
              && WellFormedSenderPost(r.result.value)
    ensures caller.Some? && SenderBodyValid(body) ==> r.result.Ok?
  {
    if caller.None? then Response(Err(Unauthorized), store)
    else if !SenderBodyValid(body) then Response(Err(BadRequest(InvalidInput)), store)
    else
      var post := SenderPost(id, caller.value, Active, now, [], ShipmentOf(body));
      Response(Ok(post), store.(senderPosts := store.senderPosts + [post]))
  }

  /** The query string of `GET /api/posts/sender`; the numeric bounds are
      the `parseFloat` values of the non-empty parameters. */
  datatype SenderQuery = SenderQuery(
    originCountry: Option<string>,
    destinationCountry: Option<string>,
    itemCategory: Option<string>,
    minWeight: Option<real>,
    maxWeight: Option<real>,
    minPrice: Option<real>,
    maxPrice: Option<real>,
    userId: Option<string>)

  /** The `where` object of the sender listing as a predicate on one row.
      A price bound also excludes every post without a `maxPrice`, since a
      NULL column satisfies no comparison. */
  predicate SenderListed(p: SenderPost, q: SenderQuery)
    ensures SenderListed(p, q) ==> p.status == Active
    ensures SenderListed(p, q) && (q.minPrice.Some? || q.maxPrice.Some?) ==> p.shipment.maxPrice.Some?
    ensures q == SenderQuery(None, None, None, None, None, None, None, None) ==>
              (SenderListed(p, q) <==> p.status == Active)
  {
    && p.status == Active
    && (Given(q.userId) ==> p.userId == q.userId.value)
    && (Given(q.originCountry) ==> MatchesInsensitive(p.shipment.originCountry, q.originCountry.value))
    && (Given(q.destinationCountry) ==> MatchesInsensitive(p.shipment.destinationCountry, q.destinationCountry.value))
    && (Given(q.itemCategory) ==> MatchesInsensitive(p.shipment.itemCategory, q.itemCategory.value))
    && (q.minWeight.Some? ==> p.shipment.weight >= q.minWeight.value)
    && (q.maxWeight.Some? ==> p.shipment.weight <= q.maxWeight.value)
    && ((q.minPrice.Some? || q.maxPrice.Some?) ==> p.shipment.maxPrice.Some?)
    && (q.minPrice.Some? && p.shipment.maxPrice.Some? ==> p.shipment.maxPrice.value >= q.minPrice.value)
    && (q.maxPrice.Some? && p.shipment.maxPrice.Some? ==> p.shipment.maxPrice.value <= q.maxPrice.value)
  }

  /** The sender listing's `where` object as a row filter. */
  function SenderFilter(q: SenderQuery): SenderPost -> bool {
    p => SenderListed(p, q)
  }

  /** Sender posts are listed by creation time, newest first. */
  function SenderAge(p: SenderPost): real {
    p.createdAt as real
  }

  /** `GET /api/posts/sender`: matching rows, newest first, one page, and
      the count of all matching rows. */
  function ListSenderPosts(store: Store, q: SenderQuery, page: int, limit: int)
    : (l: Listing<SenderPost>)
    requires ValidPaging(page, limit)
    ensures l.items == PageOf(Selection(store.senderPosts, SenderFilter(q), SenderAge), page, limit)
    ensures l.info == Paginate(page, limit, |Selection(store.senderPosts, SenderFilter(q), SenderAge)|)
    ensures |l.items| <= limit
    ensures forall k :: 0 <= k < |l.items| ==>
              l.items[k] in store.senderPosts && SenderListed(l.items[k], q)
    ensures Seqs.NonIncreasing(l.items, SenderAge)
    ensures l.info.totalCount <= |store.senderPosts|
    ensures page == 1 && l.info.totalCount <= limit ==>
              forall i :: 0 <= i < |store.senderPosts| && SenderListed(store.senderPosts[i], q) ==>
                store.senderPosts[i] in l.items
  {
    Query(store.senderPosts, SenderFilter(q), SenderAge, page, limit)
  }

  /** The sender listing has no date condition: an ACTIVE post with no
      filters given is listed whatever its age. */
  lemma UnfilteredSenderListingShowsEveryActivePost(p: SenderPost)
    requires p.status == Active
    ensures SenderListed(p, SenderQuery(None, None, None, None, None, None, None, None))
  {
  }

  /** The weight and price bounds are inclusive: a post sitting exactly on
      both bounds is listed. */
  lemma SenderBoundsInclusive(p: SenderPost, w: real, price: real)
    requires p.status == Active && p.shipment.weight == w && p.shipment.maxPrice == Some(price)
    ensures SenderListed(p, SenderQuery(None, None, None, Some(w), Some(w), Some(price), Some(price), None))
  {
  }
}

=== FILE: request_modal.dfy ===
/** The "create request" dialog: the caller picks one of their own posts
    of the kind opposite to the post they are answering, and the dialog
    builds the body of `POST /api/requests` from that choice. */
module RequestModal {
  import opened Base
  import opened Http
  import Text
  import opened Marketplace
  import Requests

  datatype PostKind = TravellerKind | SenderKind

  /** The post the dialog answers. */
  datatype TargetPost = TargetPost(id: Id, kind: PostKind)

  /** The dialog's own state: the ids of the caller's posts on offer, the
      selected id (`""` for none) and the two text inputs. */
  datatype Dialog = Dialog(
    userPosts: seq<Id>,
    selected: string,
    message: string,
    proposedPrice: string)

  /** Which of the caller's listings the dialog fetches. */
  function OppositeKind(k: PostKind): (r: PostKind)
    ensures r != k
  {
    match k
    case TravellerKind => SenderKind
    case SenderKind => TravellerKind
  }

  /** The request body field that carries a post of the given kind. */
  function Slot(b: Requests.RequestBody, k: PostKind): Field<string> {
    match k
    case SenderKind => b.senderPostId
    case TravellerKind => b.travellerPostId
  }

  lemma OppositeIsInvolution(k: PostKind)
    ensures OppositeKind(OppositeKind(k)) == k
  {
  }

  /** The effect on opening: with a session and a target the inputs and
      the selection are cleared (the posts on offer are replaced only
      when the fetch answers); otherwise nothing happens. */
  function Open(d: Dialog, isOpen: bool, session: Option<UserId>, target: Option<TargetPost>): (r: Dialog)
    ensures isOpen && session.Some? && target.Some? ==>
              r == Dialog(d.userPosts, "", "", "")
    ensures !(isOpen && session.Some? && target.Some?) ==> r == d
  {
    if isOpen && session.Some? && target.Some? then d.(selected := "", message := "", proposedPrice := "")
    else d
  }

  /** A successful fetch of the caller's posts: they replace the offer,
      and a single post is selected on the caller's behalf. */
  function PostsFetched(d: Dialog, posts: seq<Id>): (r: Dialog)
    ensures r.userPosts == posts && r.message == d.message && r.proposedPrice == d.proposedPrice
    ensures |posts| == 1 ==> r.selected == posts[0]
    ensures |posts| != 1 ==> r.selected == d.selected
  {
    if |posts| == 1 then d.(userPosts := posts, selected := posts[0])
    else d.(userPosts := posts)
  }

  /** Clicking a post (or its radio button) selects it. */
  function Choose(d: Dialog, id: Id): (r: Dialog)
    ensures r.selected == id && r.(selected := d.selected) == d
  {
    d.(selected := id)
  }

  /** `message.trim() || undefined`. */
  function MessageField(message: string): (f: Field<string>)
    ensures f.Absent? <==> Text.Trim(message) == ""
    ensures f.Value? ==> f.v == Text.Trim(message)
    ensures !f.Malformed?
  {
    var t := Text.Trim(message);
    if t == "" then Absent else Value(t)
  }

  /** `proposedPrice ? parseFloat(proposedPrice) : undefined`, where
      `parsed` is what `parseFloat` returns for the input (None for NaN or
      an infinity, which serialise as `null` and fail the body schema). */
  function PriceField(input: string, parsed: Option<real>): (f: Field<real>)
    ensures f.Absent? <==> input == ""
    ensures input != "" ==> (f.Value? <==> parsed.Some?)
    ensures f.Value? ==> f.v == parsed.value
  {
    if input == "" then Absent
    else match parsed
      case Some(x) => Value(x)
      case None => Malformed
  }

  /** The request body: the target goes in the slot of its own kind and
      the selected post in the other. */
  function Payload(target: TargetPost, selected: Id, message: string, price: string, parsed: Option<real>)
    : (b: Requests.RequestBody)
    ensures target.kind == SenderKind ==>
              b.senderPostId == Value(target.id) && b.travellerPostId == Value(selected)
    ensures target.kind == TravellerKind ==>
              b.travellerPostId == Value(target.id) && b.senderPostId == Value(selected)
    ensures Slot(b, target.kind) == Value(target.id)
    ensures Slot(b, OppositeKind(target.kind)) == Value(selected)
    ensures b.message == MessageField(message) && b.proposedPrice == PriceField(price, parsed)
  {
    Requests.RequestBody(
      if target.kind == SenderKind then Value(target.id) else Value(selected),
      if target.kind == TravellerKind then Value(target.id) else Value(selected),
      MessageField(message),
      PriceField(price, parsed))
  }

  /** `handleSubmit`: the body sent, or None when there is no selection,
      no target or no session. */
  function Submit(d: Dialog, session: Option<UserId>, target: Option<TargetPost>, parsed: Option<real>)
    : (r: Option<Requests.RequestBody>)
    ensures r.Some? <==> d.selected != "" && target.Some? && session.Some?
    ensures r.Some? ==> r.value == Payload(target.value, d.selected, d.message, d.proposedPrice, parsed)
  {
    if d.selected == "" || target.None? || session.None? then None
    else Some(Payload(target.value, d.selected, d.message, d.proposedPrice, parsed))
  }

  /** Right after opening nothing is selected, so submitting does
      nothing until a post is chosen or the fetch auto-selects one. */
  lemma FreshDialogCannotSubmit(d: Dialog, session: UserId, target: TargetPost, parsed: Option<real>)
    ensures Submit(Open(d, true, Some(session), Some(target)), Some(session), Some(target), parsed).None?
  {
  }

  /** A caller with exactly one post of the opposite kind can submit at
      once, and the request pairs that post with the target. */
  lemma SinglePostIsSubmittable(d: Dialog, session: UserId, target: TargetPost, post: Id, parsed: Option<real>)
    requires post != ""
    ensures var d1 := PostsFetched(Open(d, true, Some(session), Some(target)), [post]);
            var r := Submit(d1, Some(session), Some(target), parsed);
            && r.Some?
            && {r.value.senderPostId, r.value.travellerPostId} == {Value(post), Value(target.id)}
            && r.value.message.Absent? && r.value.proposedPrice.Absent?
  {
    var d1 := PostsFetched(Open(d, true, Some(session), Some(target)), [post]);
    assert d1.selected == post;
  }

  /** The body the dialog sends, once valid, reaches the server with the
      roles the two posts imply: answering a traveller post with one's own
      sender post makes the caller the sender, answering a sender post
      with one's own traveller post makes the caller the receiver. */
  lemma DialogRequestRoles(store: Store, d: Dialog, caller: UserId, target: TargetPost, parsed: Option<real>,
                           requestId: Id, conversationId: Id, now: Time)
    requires Submit(d, Some(caller), Some(target), parsed).Some?
    requires Requests.RequestBodyValid(Submit(d, Some(caller), Some(target), parsed).value)
    requires target.kind == TravellerKind ==>
               && Requests.ActiveTravellerPost(store, target.id).Some?
               && Requests.ActiveSenderPost(store, d.selected).Some?
               && Requests.ActiveSenderPost(store, d.selected).value.userId == caller
    requires target.kind == SenderKind ==>
               && Requests.ActiveSenderPost(store, target.id).Some?
               && Requests.ActiveTravellerPost(store, d.selected).Some?
               && Requests.ActiveTravellerPost(store, d.selected).value.userId == caller
               && Requests.ActiveSenderPost(store, target.id).value.userId != caller
    ensures var r := Requests.CreateRequest(store, Some(caller), Submit(d, Some(caller), Some(target), parsed).value,
                                            requestId, conversationId, now);
            r.result != Err(Forbidden) && r.result != Err(NotFound)
            && (r.result.Ok? ==>
                  && (target.kind == TravellerKind ==>
                        r.result.value.senderId == caller && r.result.value.travellerPostId == target.id
                        && r.result.value.senderPostId == d.selected)
                  && (target.kind == SenderKind ==>
                        r.result.value.receiverId == caller && r.result.value.senderPostId == target.id
                        && r.result.value.travellerPostId == d.selected))
  {
    var body := Submit(d, Some(caller), Some(target), parsed).value;
    assert body == Payload(target, d.selected, d.message, d.proposedPrice, parsed);
    if target.kind == TravellerKind {
      assert body.senderPostId.v == d.selected && body.travellerPostId.v == target.id;
    } else {
      assert body.senderPostId.v == target.id && body.travellerPostId.v == d.selected;
    }
    OwnerGetsRole(store, caller, body, requestId, conversationId, now);
  }

  /** Once both posts are active, a caller who owns one of them is let
      through, and owning the sender post makes the caller the sender. */
  lemma OwnerGetsRole(store: Store, caller: UserId, body: Requests.RequestBody,
                      requestId: Id, conversationId: Id, now: Time)
    requires Requests.RequestBodyValid(body)
    requires Requests.ActiveSenderPost(store, body.senderPostId.v).Some?
    requires Requests.ActiveTravellerPost(store, body.travellerPostId.v).Some?
    requires Requests.ActiveSenderPost(store, body.senderPostId.v).value.userId == caller
             || Requests.ActiveTravellerPost(store, body.travellerPostId.v).value.userId == caller
    ensures var r := Requests.CreateRequest(store, Some(caller), body, requestId, conversationId, now);
            && r.result != Err(Forbidden) && r.result != Err(NotFound)
            && (r.result.Ok? ==>
                  && r.result.value.senderPostId == body.senderPostId.v
                  && r.result.value.travellerPostId == body.travellerPostId.v
                  && (Requests.ActiveSenderPost(store, body.senderPostId.v).value.userId == caller ==>
                        r.result.value.senderId == caller)
                  && (Requests.ActiveSenderPost(store, body.senderPostId.v).value.userId != caller ==>
                        r.result.value.receiverId == caller))
  {
  }
}

=== FILE: requests.dfy ===
/** `POST /api/requests` (create a request between a sender post and a
    traveller post, with its conversation) and `GET /api/requests` (the
    caller's requests, filtered and paginated). */
module Requests {
  import opened Base
  import opened Http
  import Seqs
  import opened Paging
  import opened Marketplace

  datatype RequestBody = RequestBody(
    senderPostId: Field<string>,
    travellerPostId: Field<string>,
    message: Field<string>,
    proposedPrice: Field<real>)

  /** The zod schema of the request body. */
  predicate RequestBodyValid(b: RequestBody) {
    && RequiredText(b.senderPostId)
    && RequiredText(b.travellerPostId)
    && OptionalText(b.message)
    && OptionalPositive(b.proposedPrice)
  }

  /** The first post of the given table with this id that is still ACTIVE. */
  function ActiveSenderPost(store: Store, id: Id): Option<SenderPost> {
    Seqs.FindFirst(store.senderPosts, (p: SenderPost) => p.id == id && p.status == Active)
  }

  function ActiveTravellerPost(store: Store, id: Id): Option<TravellerPost> {
    Seqs.FindFirst(store.travellerPosts, (p: TravellerPost) => p.id == id && p.status == Active)
  }

  /** The four columns the duplicate check compares. */
  predicate SameParties(r: Request, senderPostId: Id, travellerPostId: Id, senderId: UserId, receiverId: UserId) {
    r.senderPostId == senderPostId && r.travellerPostId == travellerPostId
    && r.senderId == senderId && r.receiverId == receiverId
  }

  predicate RequestExists(store: Store, senderPostId: Id, travellerPostId: Id, senderId: UserId, receiverId: UserId) {
    exists i :: 0 <= i < |store.requests| && SameParties(store.requests[i], senderPostId, travellerPostId, senderId, receiverId)
  }

  /** Role assignment: whoever owns the sender post is the sender and the
      traveller post's owner the receiver, whichever of them asks. The
      sender post is looked at first, so a caller owning both posts is
      both. A caller owning neither gets nothing. */
  function AssignRoles(caller: UserId, sp: SenderPost, tp: TravellerPost): (roles: Option<(UserId, UserId)>)
    ensures roles.Some? <==> sp.userId == caller || tp.userId == caller
    ensures roles.Some? ==> roles.value == (sp.userId, tp.userId)
  {
    if sp.userId == caller then Some((caller, tp.userId))
    else if tp.userId == caller then Some((sp.userId, caller))
    else None
  }

  /** `POST /api/requests` at time `now`; `requestId` and `conversationId`
      are the ids the database assigns to the two new rows. */
  function CreateRequest(store: Store, caller: Option<UserId>, body: RequestBody,
                         requestId: Id, conversationId: Id, now: Time): (r: Response<Request>)
    ensures r.result.Err? ==> r.store == store
    ensures caller.None? ==> r.result == Err(Unauthorized)
    ensures caller.Some? && !RequestBodyValid(body) ==> r.result == Err(BadRequest(InvalidInput))
    ensures caller.Some? && RequestBodyValid(body)
            && (ActiveSenderPost(store, body.senderPostId.v).None?
                || ActiveTravellerPost(store, body.travellerPostId.v).None?) ==>
              r.result == Err(NotFound)
    ensures r.result == Err(Forbidden) <==>
              && caller.Some? && RequestBodyValid(body)
              && ActiveSenderPost(store, body.senderPostId.v).Some?
              && ActiveTravellerPost(store, body.travellerPostId.v).Some?
              && ActiveSenderPost(store, body.senderPostId.v).value.userId != caller.value
              && ActiveTravellerPost(store, body.travellerPostId.v).value.userId != caller.value
    ensures caller.Some? && RequestBodyValid(body) ==>
              var sp := ActiveSenderPost(store, body.senderPostId.v);
              var tp := ActiveTravellerPost(store, body.travellerPostId.v);
              sp.Some? && tp.Some? && (sp.value.userId == caller.value || tp.value.userId == caller.value) ==>
                && (r.result == Err(Conflict) <==>
                      RequestExists(store, body.senderPostId.v, body.travellerPostId.v, sp.value.userId, tp.value.userId))
                && (r.result.Ok? <==>
                      !RequestExists(store, body.senderPostId.v, body.travellerPostId.v, sp.value.userId, tp.value.userId))
    ensures r.result == Err(Conflict) ==>
              && caller.Some? && RequestBodyValid(body)
              && ActiveSenderPost(store, body.senderPostId.v).Some?
              && ActiveTravellerPost(store, body.travellerPostId.v).Some?
              && RequestExists(store, body.senderPostId.v, body.travellerPostId.v,
                               ActiveSenderPost(store, body.senderPostId.v).value.userId,
                               ActiveTravellerPost(store, body.travellerPostId.v).value.userId)
    ensures r.result.Ok? ==>
              var req := r.result.value;
              && caller.Some? && RequestBodyValid(body)
              && req == Request(requestId, body.senderPostId.v, body.travellerPostId.v,
                                req.senderId, req.receiverId,
                                ValueOf(body.message), ValueOf(body.proposedPrice), Pending, now)
              && ActiveSenderPost(store, req.senderPostId).Some?
              && ActiveTravellerPost(store, req.travellerPostId).Some?
              && req.senderId == ActiveSenderPost(store, req.senderPostId).value.userId
              && req.receiverId == ActiveTravellerPost(store, req.travellerPostId).value.userId
              && (caller.value == req.senderId || caller.value == req.receiverId)
              && (caller.value != req.senderId ==> caller.value == req.receiverId)
              && !RequestExists(store, req.senderPostId, req.travellerPostId, req.senderId, req.receiverId)
              && r.store == store.(requests := store.requests + [req],
                                   conversations := store.conversations
                                     + [Conversation(conversationId, requestId, [req.senderId, req.receiverId], now, now)])
  {
    if caller.None? then Response(Err(Unauthorized), store)
    else if !RequestBodyValid(body) then Response(Err(BadRequest(InvalidInput)), store)
    else
      var sp := ActiveSenderPost(store, body.senderPostId.v);
      var tp := ActiveTravellerPost(store, body.travellerPostId.v);
      if sp.None? || tp.None? then Response(Err(NotFound), store)
      else
        match AssignRoles(caller.value, sp.value, tp.value)
        case None => Response(Err(Forbidden), store)
        case Some((senderId, receiverId)) =>
          if RequestExists(store, body.senderPostId.v, body.travellerPostId.v, senderId, receiverId) then
            Response(Err(Conflict), store)
          else
            var req := Request(requestId, body.senderPostId.v, body.travellerPostId.v, senderId, receiverId,
                               ValueOf(body.message), ValueOf(body.proposedPrice), Pending, now);
            var conv := Conversation(conversationId, requestId, [senderId, receiverId], now, now);
            Response(Ok(req), store.(requests := store.requests + [req],
                                     conversations := store.conversations + [conv]))
  }

  /** A caller who owns both posts is accepted and is both sender and
      receiver of the new request. */
  lemma SelfRequest(store: Store, caller: UserId, body: RequestBody, requestId: Id, conversationId: Id, now: Time)
    requires RequestBodyValid(body)
    requires ActiveSenderPost(store, body.senderPostId.v).Some?
    requires ActiveTravellerPost(store, body.travellerPostId.v).Some?
    requires ActiveSenderPost(store, body.senderPostId.v).value.userId == caller
    requires ActiveTravellerPost(store, body.travellerPostId.v).value.userId == caller
    requires !RequestExists(store, body.senderPostId.v, body.travellerPostId.v, caller, caller)
    ensures var r := CreateRequest(store, Some(caller), body, requestId, conversationId, now);
            r.result.Ok? && r.result.value.senderId == caller && r.result.value.receiverId == caller
  {
  }

  // ---------------------------------------------------------------------
  // Store invariants that request creation maintains

  /** The sender of every request owns a sender post with the request's
      sender post id, and its receiver owns a traveller post with the
      request's traveller post id. */
  ghost predicate RolesMatchOwners(store: Store) {
    forall i :: 0 <= i < |store.requests| ==>
      && (exists j :: 0 <= j < |store.senderPosts|
            && store.senderPosts[j].id == store.requests[i].senderPostId
            && store.senderPosts[j].userId == store.requests[i].senderId)
      && (exists j :: 0 <= j < |store.travellerPosts|
            && store.travellerPosts[j].id == store.requests[i].travellerPostId
            && store.travellerPosts[j].userId == store.requests[i].receiverId)
  }

  /** No two requests share the four columns the duplicate check compares. */
  ghost predicate NoDuplicateRequests(store: Store) {
    forall i, j :: 0 <= i < j < |store.requests| ==>
      !SameParties(store.requests[i], store.requests[j].senderPostId, store.requests[j].travellerPostId,
                   store.requests[j].senderId, store.requests[j].receiverId)
  }

  /** Every request has a conversation whose participants are its sender
      and its receiver, in that order. */
  ghost predicate ConversationPerRequest(store: Store) {
    forall i :: 0 <= i < |store.requests| ==> HasConversation(store, store.requests[i])
  }

  ghost predicate HasConversation(store: Store, req: Request) {
    exists k :: 0 <= k < |store.conversations|
      && store.conversations[k].requestId == req.id
      && store.conversations[k].participants == [req.senderId, req.receiverId]
  }

  lemma CreateRequestKeepsRolesMatchingOwners(store: Store, caller: Option<UserId>, body: RequestBody,
                                              requestId: Id, conversationId: Id, now: Time)
    requires RolesMatchOwners(store)
    ensures RolesMatchOwners(CreateRequest(store, caller, body, requestId, conversationId, now).store)
  {
    var r := CreateRequest(store, caller, body, requestId, conversationId, now);
    if r.result.Ok? {
      var req := r.result.value;
      var sp := ActiveSenderPost(store, req.senderPostId).value;
      var tp := ActiveTravellerPost(store, req.travellerPostId).value;
      var s' := r.store;
      forall i | 0 <= i < |s'.requests|
        ensures exists j :: 0 <= j < |s'.senderPosts|
                  && s'.senderPosts[j].id == s'.requests[i].senderPostId
                  && s'.senderPosts[j].userId == s'.requests[i].senderId
        ensures exists j :: 0 <= j < |s'.travellerPosts|
                  && s'.travellerPosts[j].id == s'.requests[i].travellerPostId
                  && s'.travellerPosts[j].userId == s'.requests[i].receiverId
      {
        if i == |store.requests| {
          assert s'.requests[i] == req;
        } else {
          assert s'.requests[i] == store.requests[i];
        }
      }
    }
  }

  lemma CreateRequestKeepsRequestsUnique(store: Store, caller: Option<UserId>, body: RequestBody,
                                         requestId: Id, conversationId: Id, now: Time)
    requires NoDuplicateRequests(store)
    ensures NoDuplicateRequests(CreateRequest(store, caller, body, requestId, conversationId, now).store)
  {
    var r := CreateRequest(store, caller, body, requestId, conversationId, now);
    if r.result.Ok? {
      var req := r.result.value;
      var s' := r.store;
      forall i, j | 0 <= i < j < |s'.requests|
        ensures !SameParties(s'.requests[i], s'.requests[j].senderPostId, s'.requests[j].travellerPostId,
                             s'.requests[j].senderId, s'.requests[j].receiverId)
      {
        if j == |store.requests| {
          assert s'.requests[j] == req && s'.requests[i] == store.requests[i];
        } else {
          assert s'.requests[j] == store.requests[j] && s'.requests[i] == store.requests[i];
        }
      }
    }
  }

  lemma CreateRequestKeepsConversationPerRequest(store: Store, caller: Option<UserId>, body: RequestBody,
                                                 requestId: Id, conversationId: Id, now: Time)
    requires ConversationPerRequest(store)
    ensures ConversationPerRequest(CreateRequest(store, caller, body, requestId, conversationId, now).store)
  {
    var r := CreateRequest(store, caller, body, requestId, conversationId, now);
    if r.result.Ok? {
      var req := r.result.value;
      var s' := r.store;
      forall i | 0 <= i < |s'.requests|
        ensures HasConversation(s', s'.requests[i])
      {
        if i == |store.requests| {
          var k := |store.conversations|;
          assert s'.requests[i] == req;
          assert s'.conversations[k] == Conversation(conversationId, requestId, [req.senderId, req.receiverId], now, now);
        } else {
          assert s'.requests[i] == store.requests[i];
          assert HasConversation(store, store.requests[i]);
          var k :| 0 <= k < |store.conversations|
                   && store.conversations[k].requestId == store.requests[i].id
                   && store.conversations[k].participants == [store.requests[i].senderId, store.requests[i].receiverId];
          assert s'.conversations[k] == store.conversations[k];
        }
      }
    }
  }

  // ---------------------------------------------------------------------
  // Listing

  function StatusName(s: RequestStatus): string {
    match s
    case Pending => "PENDING"
    case Accepted => "ACCEPTED"
    case Rejected => "REJECTED"
    case Completed => "COMPLETED"
    case Cancelled => "CANCELLED"
  }

  /** The enum value a `status` query parameter names, if any. */
  function ParseStatus(s: string): (r: Option<RequestStatus>)
    ensures r.Some? ==> StatusName(r.value) == s
  {
    if s == "PENDING" then Some(Pending)
    else if s == "ACCEPTED" then Some(Accepted)
    else if s == "REJECTED" then Some(Rejected)
    else if s == "COMPLETED" then Some(Completed)
    else if s == "CANCELLED" then Some(Cancelled)
    else None
  }

  lemma ParseStatusName(s: RequestStatus)
    ensures ParseStatus(StatusName(s)) == Some(s)
  {
  }

  /** The relationship half of the `where` object: `type=sent` keeps the
      caller's sent requests, `type=received` the received ones, and any
      other value (or none) both. */
  predicate Involves(r: Request, user: UserId, kind: Option<string>)
    ensures Involves(r, user, kind) <==>
              && (r.senderId == user || r.receiverId == user)
              && (kind == Some("sent") ==> r.senderId == user)
              && (kind == Some("received") ==> r.receiverId == user)
  {
    if kind == Some("sent") then r.senderId == user
    else if kind == Some("received") then r.receiverId == user
    else r.senderId == user || r.receiverId == user
  }

  /** The status a `status` parameter asks for: none when it is absent or
      empty. */
  function Wanted(status: Option<string>): Option<RequestStatus> {
    if Given(status) then ParseStatus(status.value) else None
  }

  /** The request listing's `where` object as a row filter. */
  function RequestFilter(user: UserId, kind: Option<string>, wanted: Option<RequestStatus>): Request -> bool {
    q => Involves(q, user, kind) && (wanted.Some? ==> q.status == wanted.value)
  }

  /** Requests are listed by creation time, newest first. */
  function RequestAge(q: Request): real {
    q.createdAt as real
  }

  /** `GET /api/requests`. A `status` that names no enum value makes the
      database query fail, which the handler answers with 500. */
  function ListRequests(store: Store, caller: Option<UserId>, kind: Option<string>, status: Option<string>,
                        page: int, limit: int): (r: Result<Listing<Request>>)
    requires ValidPaging(page, limit)
    ensures caller.None? <==> r == Err(Unauthorized)
    ensures caller.Some? && Given(status) && ParseStatus(status.value).None? ==> r == Err(InternalError)
    ensures caller.Some? && !(Given(status) && ParseStatus(status.value).None?) ==> r.Ok?
    ensures r.Ok? ==>
              && r.value.items
                 == PageOf(Selection(store.requests, RequestFilter(caller.value, kind, Wanted(status)), RequestAge),
                           page, limit)
              && r.value.info
                 == Paginate(page, limit,
                             |Selection(store.requests, RequestFilter(caller.value, kind, Wanted(status)), RequestAge)|)
    ensures r.Ok? ==>
              && caller.Some?
              && |r.value.items| <= limit
              && Seqs.NonIncreasing(r.value.items, RequestAge)
              && forall k :: 0 <= k < |r.value.items| ==>
                   && r.value.items[k] in store.requests
                   && (kind == Some("sent") ==> r.value.items[k].senderId == caller.value)
                   && (kind == Some("received") ==> r.value.items[k].receiverId == caller.value)
                   && (r.value.items[k].senderId == caller.value || r.value.items[k].receiverId == caller.value)
                   && (Given(status) ==> StatusName(r.value.items[k].status) == status.value)
  {
    if caller.None? then Err(Unauthorized)
    else if Given(status) && ParseStatus(status.value).None? then Err(InternalError)
    else
      Ok(Query(store.requests, RequestFilter(caller.value, kind, Wanted(status)), RequestAge, page, limit))
  }
}

=== FILE: seqs.dfy ===
/** List operations the handlers rely on: `Array.prototype.filter`,
    `slice(0, n)`, a stable sort by a numeric score (`Array.prototype.sort`
    with a `(a, b) => score(b) - score(a)` comparator, and the ORM's
    `orderBy`), and the ORM's `skip`/`take` window. */
module Seqs {
  import opened Base

  function Filter<T>(xs: seq<T>, p: T -> bool): (r: seq<T>)
    ensures |r| <= |xs|
    ensures forall i :: 0 <= i < |r| ==> p(r[i])
    ensures forall i :: 0 <= i < |r| ==> r[i] in xs
    ensures forall i :: 0 <= i < |xs| && p(xs[i]) ==> xs[i] in r
    ensures multiset(r) <= multiset(xs)
    ensures (forall i :: 0 <= i < |xs| ==> p(xs[i])) ==> r == xs
  {
    if |xs| == 0 then []
    else
      var rest := Filter(xs[1..], p);
      var r := if p(xs[0]) then [xs[0]] + rest else rest;
      FilterStep(xs, p, rest, r);
      r
  }

  /** One step of `Filter`: what the recursive call promises about the tail
      carries over to the whole sequence. */
  lemma FilterStep<T>(xs: seq<T>, p: T -> bool, rest: seq<T>, r: seq<T>)
    requires |xs| > 0 && r == if p(xs[0]) then [xs[0]] + rest else rest
    requires |rest| <= |xs| - 1
    requires forall i :: 0 <= i < |rest| ==> p(rest[i])
    requires forall i :: 0 <= i < |rest| ==> rest[i] in xs[1..]
    requires forall i :: 0 <= i < |xs| - 1 && p(xs[1..][i]) ==> xs[1..][i] in rest
    requires multiset(rest) <= multiset(xs[1..])
    requires (forall i :: 0 <= i < |xs| - 1 ==> p(xs[1..][i])) ==> rest == xs[1..]
    ensures |r| <= |xs|
    ensures forall i :: 0 <= i < |r| ==> p(r[i])
    ensures forall i :: 0 <= i < |r| ==> r[i] in xs
    ensures forall i :: 0 <= i < |xs| && p(xs[i]) ==> xs[i] in r
    ensures multiset(r) <= multiset(xs)
    ensures (forall i :: 0 <= i < |xs| ==> p(xs[i])) ==> r == xs
  {
    var tail := xs[1..];
    assert xs == [xs[0]] + tail;
    forall i | 0 <= i < |r| ensures p(r[i]) && r[i] in xs {
      if p(xs[0]) && i == 0 {
      } else if p(xs[0]) {
        assert r[i] == rest[i - 1];
      }
    }
    forall i | 0 <= i < |xs| && p(xs[i]) ensures xs[i] in r {
      if i > 0 {
        assert xs[i] == tail[i - 1];
      }
    }
    if forall i :: 0 <= i < |xs| ==> p(xs[i]) {
      forall i | 0 <= i < |tail| ensures p(tail[i]) {
        assert tail[i] == xs[i + 1];
      }
      assert p(xs[0]);
    }
  }

  /** `Filter` keeps every copy of an element `p` accepts and no copy of
      one it rejects. */
  lemma {:induction false} FilterCounts<T>(xs: seq<T>, p: T -> bool, x: T)
    ensures multiset(Filter(xs, p))[x] == if p(x) then multiset(xs)[x] else 0
  {
    if |xs| > 0 {
      var tail := xs[1..];
      var rest := Filter(tail, p);
      FilterCounts(tail, p, x);
      assert xs == [xs[0]] + tail;
      assert multiset(xs) == multiset{xs[0]} + multiset(tail);
      if p(xs[0]) {
        assert Filter(xs, p) == [xs[0]] + rest;
        assert multiset(Filter(xs, p)) == multiset{xs[0]} + multiset(rest);
      } else {
        assert Filter(xs, p) == rest;
      }
    }
  }

  /** Filtering distributes over concatenation. */
  lemma {:induction false} FilterAppend<T>(xs: seq<T>, ys: seq<T>, p: T -> bool)
    ensures Filter(xs + ys, p) == Filter(xs, p) + Filter(ys, p)
  {
    if |xs| > 0 {
      assert (xs + ys)[1..] == xs[1..] + ys;
      FilterAppend(xs[1..], ys, p);
    } else {
      assert xs + ys == ys;
    }
  }

  /** `xs.slice(0, end)`: a negative `end` counts from the back. */
  function SliceTo<T>(xs: seq<T>, end: int): (r: seq<T>)
    ensures r <= xs
    ensures end >= 0 ==> |r| == Min(end, |xs|)
    ensures end < 0 ==> |r| == Max(0, |xs| + end)
  {
    if end >= 0 then xs[..Min(end, |xs|)] else xs[..Max(0, |xs| + end)]
  }

  /** The ORM's `skip`/`take`: at most `take` elements from position `skip`. */
  function Window<T>(xs: seq<T>, skip: nat, take: nat): (r: seq<T>)
    ensures |r| == if skip >= |xs| then 0 else Min(take, |xs| - skip)
    ensures |r| <= take && (|r| == 0 || skip + |r| <= |xs|)
    ensures forall k :: 0 <= k < |r| ==> r[k] == xs[skip + k]
  {
    if skip >= |xs| then [] else xs[skip..skip + Min(take, |xs| - skip)]
  }

  ghost predicate NonIncreasing<T>(xs: seq<T>, key: T -> real) {
    forall i, j :: 0 <= i < j < |xs| ==> key(xs[i]) >= key(xs[j])
  }

  ghost predicate NonDecreasing<T>(xs: seq<T>, key: T -> real) {
    forall i, j :: 0 <= i < j < |xs| ==> key(xs[i]) <= key(xs[j])
  }

  /** Inserts `x` before the first element it does not rank below. */
  function Insert<T>(x: T, ys: seq<T>, key: T -> real): (r: seq<T>)
    requires NonIncreasing(ys, key)
    ensures NonIncreasing(r, key)
    ensures multiset(r) == multiset(ys) + multiset{x}
    ensures |r| == |ys| + 1
    ensures key(r[0]) == key(x) || (|ys| > 0 && key(r[0]) == key(ys[0]))
  {
    if |ys| == 0 || key(x) >= key(ys[0]) then [x] + ys
    else
      var rest := Insert(x, ys[1..], key);
      assert ys == [ys[0]] + ys[1..];
      [ys[0]] + rest
  }

  /** Stable sort, highest key first. */
  function SortDesc<T>(xs: seq<T>, key: T -> real): (r: seq<T>)
    ensures NonIncreasing(r, key)
    ensures multiset(r) == multiset(xs)
    ensures |r| == |xs|
  {
    if |xs| == 0 then []
    else
      assert xs == [xs[0]] + xs[1..];
      Insert(xs[0], SortDesc(xs[1..], key), key)
  }

  /** Stable sort, lowest key first. */
  function SortAsc<T>(xs: seq<T>, key: T -> real): (r: seq<T>)
    ensures NonDecreasing(r, key)
    ensures multiset(r) == multiset(xs)
    ensures |r| == |xs|
  {
    SortDesc(xs, x => -key(x))
  }

  /** Sorting changes the order and nothing else. */
  lemma SortedSameElements<T>(xs: seq<T>, key: T -> real)
    ensures forall x :: x in SortDesc(xs, key) <==> x in xs
    ensures forall x :: x in SortAsc(xs, key) <==> x in xs
  {
    var d := SortDesc(xs, key);
    var a := SortAsc(xs, key);
    forall x ensures x in d <==> x in xs {
      assert x in d <==> x in multiset(d);
    }
    forall x ensures x in a <==> x in xs {
      assert x in a <==> x in multiset(a);
    }
  }

  /** `Array.prototype.find`, and the ORM's `findFirst` over rows in
      insertion order: the first element satisfying `p`, if any. */
  function FindFirst<T>(xs: seq<T>, p: T -> bool): (r: Option<T>)
    ensures r.None? <==> forall i :: 0 <= i < |xs| ==> !p(xs[i])
    ensures r.Some? ==> exists i :: 0 <= i < |xs| && xs[i] == r.value && p(xs[i])
                                   && forall j :: 0 <= j < i ==> !p(xs[j])
  {
    if |xs| == 0 then None
    else if p(xs[0]) then Some(xs[0])
    else
      var r := FindFirst(xs[1..], p);
      assert r.Some? ==> exists i :: 0 <= i < |xs[1..]| && xs[1..][i] == r.value && p(xs[1..][i])
                                     && forall j :: 0 <= j < i ==> !p(xs[1..][j]);
      assert forall i :: 1 <= i < |xs| ==> xs[i] == xs[1..][i - 1];
      r
  }

  /** Highest-first by a negated key is lowest-first by the key. */
  lemma NegatedKeyOrder<T>(xs: seq<T>, key: T -> real)
    requires NonIncreasing(xs, x => -key(x))
    ensures NonDecreasing(xs, key)
  {
    forall i, j | 0 <= i < j < |xs| ensures key(xs[i]) <= key(xs[j]) {
      assert (x => -key(x))(xs[i]) >= (x => -key(x))(xs[j]);
    }
  }

  /** No two elements share a key. */
  ghost predicate DistinctBy<T, K>(xs: seq<T>, key: T -> K) {
    forall i, j :: 0 <= i < j < |xs| ==> key(xs[i]) != key(xs[j])
  }

  /** Dropping elements cannot create a clash of keys. */
  lemma {:induction false} FilterKeepsDistinct<T, K>(xs: seq<T>, p: T -> bool, key: T -> K)
    requires DistinctBy(xs, key)
    ensures DistinctBy(Filter(xs, p), key)
  {
    if |xs| > 0 {
      var rest := Filter(xs[1..], p);
      TailDistinct(xs, key);
      FilterKeepsDistinct(xs[1..], p, key);
      if p(xs[0]) {
        HeadKeyIsFresh(xs, rest, key);
        ConsDistinct(xs[0], rest, key);
      }
    }
  }

  lemma TailDistinct<T, K>(xs: seq<T>, key: T -> K)
    requires |xs| > 0 && DistinctBy(xs, key)
    ensures DistinctBy(xs[1..], key)
  {
    forall i, j | 0 <= i < j < |xs| - 1 ensures key(xs[1..][i]) != key(xs[1..][j]) {
      assert xs[1..][i] == xs[i + 1] && xs[1..][j] == xs[j + 1];
    }
  }

  lemma ConsDistinct<T, K>(x: T, rest: seq<T>, key: T -> K)
    requires DistinctBy(rest, key)
    requires forall j :: 0 <= j < |rest| ==> key(x) != key(rest[j])
    ensures DistinctBy([x] + rest, key)
  {
    var r := [x] + rest;
    forall i, j | 0 <= i < j < |r| ensures key(r[i]) != key(r[j]) {
      assert r[j] == rest[j - 1];
      if i > 0 {
        assert r[i] == rest[i - 1];
      }
    }
  }

  lemma HeadKeyIsFresh<T, K>(xs: seq<T>, rest: seq<T>, key: T -> K)
    requires |xs| > 0 && DistinctBy(xs, key)
    requires forall j :: 0 <= j < |rest| ==> rest[j] in xs[1..]
    ensures forall j :: 0 <= j < |rest| ==> key(xs[0]) != key(rest[j])
  {
    forall j | 0 <= j < |rest| ensures key(xs[0]) != key(rest[j]) {
      var k :| 0 <= k < |xs| - 1 && xs[1..][k] == rest[j];
      assert xs[k + 1] == rest[j];
    }
  }

  /** Keep the first element of each key, in order, skipping the keys in
      `seen`: the `filter` with a `Set` of seen keys that the city
      searches use. */
  function DedupeFrom<T, K(==)>(xs: seq<T>, key: T -> K, seen: set<K>): (r: seq<T>)
    ensures |r| <= |xs|
    ensures forall k :: 0 <= k < |r| ==> r[k] in xs && key(r[k]) !in seen
  {
    if |xs| == 0 then []
    else if key(xs[0]) in seen then DedupeFrom(xs[1..], key, seen)
    else [xs[0]] + DedupeFrom(xs[1..], key, seen + {key(xs[0])})
  }

  lemma {:induction false} DedupeFromDistinct<T, K>(xs: seq<T>, key: T -> K, seen: set<K>)
    ensures DistinctBy(DedupeFrom(xs, key, seen), key)
  {
    if |xs| > 0 {
      if key(xs[0]) in seen {
        DedupeFromDistinct(xs[1..], key, seen);
      } else {
        var rest := DedupeFrom(xs[1..], key, seen + {key(xs[0])});
        DedupeFromDistinct(xs[1..], key, seen + {key(xs[0])});
        ConsDistinct(xs[0], rest, key);
      }
    }
  }

  /** Some element of `r` has key `k`. */
  ghost predicate HasKey<T, K>(r: seq<T>, key: T -> K, k: K) {
    exists j :: 0 <= j < |r| && key(r[j]) == k
  }

  lemma {:induction false} DedupeFromCovers<T, K>(xs: seq<T>, key: T -> K, seen: set<K>)
    ensures forall i :: 0 <= i < |xs| ==> key(xs[i]) in seen || HasKey(DedupeFrom(xs, key, seen), key, key(xs[i]))
  {
    if |xs| > 0 {
      var r := DedupeFrom(xs, key, seen);
      if key(xs[0]) in seen {
        DedupeFromCovers(xs[1..], key, seen);
        assert r == DedupeFrom(xs[1..], key, seen);
        forall i | 1 <= i < |xs| ensures key(xs[i]) in seen || HasKey(r, key, key(xs[i])) {
          assert xs[i] == xs[1..][i - 1];
        }
      } else {
        var seen' := seen + {key(xs[0])};
        var rest := DedupeFrom(xs[1..], key, seen');
        DedupeFromCovers(xs[1..], key, seen');
        assert r == [xs[0]] + rest;
        assert HasKey(r, key, key(xs[0])) by {
          assert key(r[0]) == key(xs[0]);
        }
        forall i | 1 <= i < |xs| && key(xs[i]) !in seen && key(xs[i]) != key(xs[0])
          ensures HasKey(r, key, key(xs[i]))
        {
          assert xs[i] == xs[1..][i - 1];
          assert HasKey(rest, key, key(xs[i]));
          var j :| 0 <= j < |rest| && key(rest[j]) == key(xs[i]);
          assert key(r[j + 1]) == key(xs[i]);
        }
      }
    }
  }

  /** `x` occurs in `xs`, and no element before that occurrence has its key. */
  ghost predicate FirstOfKey<T, K>(xs: seq<T>, key: T -> K, x: T) {
    exists i :: 0 <= i < |xs| && xs[i] == x && forall j :: 0 <= j < i ==> key(xs[j]) != key(x)
  }

  lemma {:induction false} DedupeFromFirst<T, K>(xs: seq<T>, key: T -> K, seen: set<K>)
    ensures forall k :: 0 <= k < |DedupeFrom(xs, key, seen)| ==> FirstOfKey(xs, key, DedupeFrom(xs, key, seen)[k])
  {
    if |xs| > 0 {
      var r := DedupeFrom(xs, key, seen);
      if key(xs[0]) in seen {
        var rest := DedupeFrom(xs[1..], key, seen);
        DedupeFromFirst(xs[1..], key, seen);
        assert forall k :: 0 <= k < |rest| ==> key(rest[k]) != key(xs[0]);
        TailFacts(xs, key, rest);
        assert r == rest;
      } else {
        var seen' := seen + {key(xs[0])};
        var rest := DedupeFrom(xs[1..], key, seen');
        DedupeFromFirst(xs[1..], key, seen');
        assert forall k :: 0 <= k < |rest| ==> key(rest[k]) != key(xs[0]);
        TailFacts(xs, key, rest);
        HeadIsFirst(xs, key);
        ConsFirst(xs, key, rest);
        assert r == [xs[0]] + rest;
      }
    }
  }

  lemma HeadIsFirst<T, K>(xs: seq<T>, key: T -> K)
    requires |xs| > 0
    ensures FirstOfKey(xs, key, xs[0])
  {
    assert 0 <= 0 < |xs| && xs[0] == xs[0];
  }

  lemma ConsFirst<T, K>(xs: seq<T>, key: T -> K, rest: seq<T>)
    requires |xs| > 0 && FirstOfKey(xs, key, xs[0])
    requires forall k :: 0 <= k < |rest| ==> FirstOfKey(xs, key, rest[k])
    ensures forall k :: 0 <= k < |rest| + 1 ==> FirstOfKey(xs, key, ([xs[0]] + rest)[k])
  {
    forall k | 0 <= k < |rest| + 1 ensures FirstOfKey(xs, key, ([xs[0]] + rest)[k]) {
      if k > 0 {
        assert ([xs[0]] + rest)[k] == rest[k - 1];
      }
    }
  }

  /** What the recursive call promises about `xs[1..]` carries over to `xs`
      for the elements whose key differs from the head's. */
  lemma TailFacts<T, K>(xs: seq<T>, key: T -> K, r: seq<T>)
    requires |xs| > 0
    requires forall k :: 0 <= k < |r| ==> FirstOfKey(xs[1..], key, r[k]) && key(r[k]) != key(xs[0])
    ensures forall k :: 0 <= k < |r| ==> FirstOfKey(xs, key, r[k])
  {
    forall k | 0 <= k < |r| ensures FirstOfKey(xs, key, r[k]) {
      var i :| 0 <= i < |xs| - 1 && xs[1..][i] == r[k] && forall j :: 0 <= j < i ==> key(xs[1..][j]) != key(r[k]);
      assert xs[i + 1] == r[k];
      forall j | 0 <= j < i + 1 ensures key(xs[j]) != key(r[k]) {
        if j > 0 {
          assert xs[j] == xs[1..][j - 1];
        }
      }
    }
  }

  /** Where key `k` first occurs in `xs`; `|xs|` when it does not occur. */
  ghost function FirstIndex<T, K>(xs: seq<T>, key: T -> K, k: K): (i: nat)
    ensures i <= |xs|
    ensures i < |xs| ==> key(xs[i]) == k
    ensures forall j :: 0 <= j < i ==> key(xs[j]) != k
  {
    if |xs| == 0 then 0
    else if key(xs[0]) == k then 0
    else
      var i := FirstIndex(xs[1..], key, k);
      assert forall j :: 1 <= j < |xs| ==> xs[j] == xs[1..][j - 1];
      1 + i
  }

  lemma FirstIndexTail<T, K>(xs: seq<T>, key: T -> K, k: K)
    requires |xs| > 0 && key(xs[0]) != k
    ensures FirstIndex(xs, key, k) == 1 + FirstIndex(xs[1..], key, k)
  {
  }

  /** The keys of `r` come in the order of their first occurrences in `xs`. */
  ghost predicate InFirstOrder<T, K>(xs: seq<T>, key: T -> K, r: seq<T>) {
    forall i, j :: 0 <= i < j < |r| ==> FirstIndex(xs, key, key(r[i])) < FirstIndex(xs, key, key(r[j]))
  }

  /** What `DedupeFrom` keeps comes in the order in which the kept keys
      first occur in `xs`. */
  lemma {:induction false} DedupeFromOrder<T, K>(xs: seq<T>, key: T -> K, seen: set<K>)
    ensures InFirstOrder(xs, key, DedupeFrom(xs, key, seen))
  {
    if |xs| > 0 {
      var seen' := if key(xs[0]) in seen then seen else seen + {key(xs[0])};
      var rest := DedupeFrom(xs[1..], key, seen');
      DedupeFromOrder(xs[1..], key, seen');
      TailOrder(xs, key, rest);
      if key(xs[0]) !in seen {
        ConsOrder(xs, key, rest);
        assert DedupeFrom(xs, key, seen) == [xs[0]] + rest;
      }
    }
  }

  /** An order of first occurrences in the tail is one in `xs` for keys
      other than the head's. */
  lemma TailOrder<T, K>(xs: seq<T>, key: T -> K, rest: seq<T>)
    requires |xs| > 0 && InFirstOrder(xs[1..], key, rest)
    requires forall k :: 0 <= k < |rest| ==> key(rest[k]) != key(xs[0])
    ensures InFirstOrder(xs, key, rest)
  {
    forall i, j | 0 <= i < j < |rest|
      ensures FirstIndex(xs, key, key(rest[i])) < FirstIndex(xs, key, key(rest[j]))
    {
      FirstIndexTail(xs, key, key(rest[i]));
      FirstIndexTail(xs, key, key(rest[j]));
    }
  }

  /** The head's key occurs first of all. */
  lemma ConsOrder<T, K>(xs: seq<T>, key: T -> K, rest: seq<T>)
    requires |xs| > 0 && InFirstOrder(xs, key, rest)
    requires forall k :: 0 <= k < |rest| ==> key(rest[k]) != key(xs[0])
    ensures InFirstOrder(xs, key, [xs[0]] + rest)
  {
    var r := [xs[0]] + rest;
    forall i, j | 0 <= i < j < |r| ensures FirstIndex(xs, key, key(r[i])) < FirstIndex(xs, key, key(r[j])) {
      assert r[j] == rest[j - 1];
      if i > 0 {
        assert r[i] == rest[i - 1];
      } else {
        FirstIndexTail(xs, key, key(rest[j - 1]));
      }
    }
  }

  /** First occurrence of each key, in input order. */
  function DedupeBy<T, K(==)>(xs: seq<T>, key: T -> K): (r: seq<T>)
    ensures |r| <= |xs|
    ensures forall k :: 0 <= k < |r| ==> r[k] in xs && FirstOfKey(xs, key, r[k])
    ensures DistinctBy(r, key)
    ensures forall i :: 0 <= i < |xs| ==> HasKey(r, key, key(xs[i]))
    ensures InFirstOrder(xs, key, r)
  {
    DedupeFromDistinct(xs, key, {});
    DedupeFromCovers(xs, key, {});
    DedupeFromFirst(xs, key, {});
    DedupeFromOrder(xs, key, {});
    DedupeFrom(xs, key, {})
  }

  /** Two keys that tell the elements of `xs` apart alike, and two seen
      sets that hold the same elements' keys, de-duplicate alike. */
  lemma {:induction false} DedupeFromAgree<T, K1, K2>(xs: seq<T>, k1: T -> K1, k2: T -> K2,
                                                      s1: set<K1>, s2: set<K2>)
    requires forall i, j :: 0 <= i < |xs| && 0 <= j < |xs| ==> (k1(xs[i]) == k1(xs[j]) <==> k2(xs[i]) == k2(xs[j]))
    requires forall i :: 0 <= i < |xs| ==> (k1(xs[i]) in s1 <==> k2(xs[i]) in s2)
    ensures DedupeFrom(xs, k1, s1) == DedupeFrom(xs, k2, s2)
  {
    if |xs| > 0 {
      var t := xs[1..];
      assert forall i :: 0 <= i < |t| ==> t[i] == xs[i + 1];
      if k1(xs[0]) in s1 {
        DedupeFromAgree(t, k1, k2, s1, s2);
      } else {
        forall i | 0 <= i < |t| ensures k1(t[i]) in s1 + {k1(xs[0])} <==> k2(t[i]) in s2 + {k2(xs[0])} {
          assert t[i] == xs[i + 1];
        }
        DedupeFromAgree(t, k1, k2, s1 + {k1(xs[0])}, s2 + {k2(xs[0])});
      }
    }
  }

  /** De-duplication depends only on which elements share a key. */
  lemma DedupeAgree<T, K1, K2>(xs: seq<T>, k1: T -> K1, k2: T -> K2)
    requires forall i, j :: 0 <= i < |xs| && 0 <= j < |xs| ==> (k1(xs[i]) == k1(xs[j]) <==> k2(xs[i]) == k2(xs[j]))
    ensures DedupeBy(xs, k1) == DedupeBy(xs, k2)
  {
    DedupeFromAgree(xs, k1, k2, {}, {});
  }

  /** With distinct keys, no value occurs twice. */
  lemma {:induction false} DistinctOccursOnce<T, K>(xs: seq<T>, key: T -> K, x: T)
    requires DistinctBy(xs, key)
    ensures multiset(xs)[x] <= 1
  {
    if |xs| > 0 {
      var rest := xs[1..];
      assert xs == [xs[0]] + rest;
      TailDistinct(xs, key);
      DistinctOccursOnce(rest, key, x);
      if x == xs[0] {
        forall k | 0 <= k < |rest| ensures rest[k] != x {
          assert rest[k] == xs[k + 1];
        }
        assert x !in rest;
      }
    }
  }

  /** Two positions holding one value count twice. */
  lemma OccursTwice<T>(ys: seq<T>, i: nat, j: nat)
    requires i < j < |ys| && ys[i] == ys[j]
    ensures multiset(ys)[ys[i]] >= 2
  {
    assert ys == ys[..j] + ys[j..];
    assert ys[i] == ys[..j][i];
    assert ys[j] == ys[j..][0];
  }

  /** Reordering keeps keys distinct. */
  lemma PermutationKeepsDistinct<T, K>(xs: seq<T>, ys: seq<T>, key: T -> K)
    requires DistinctBy(xs, key) && multiset(xs) == multiset(ys)
    ensures DistinctBy(ys, key)
  {
    forall i, j | 0 <= i < j < |ys| ensures key(ys[i]) != key(ys[j]) {
      assert ys[i] in multiset(xs) && ys[j] in multiset(xs);
      var a :| 0 <= a < |xs| && xs[a] == ys[i];
      var b :| 0 <= b < |xs| && xs[b] == ys[j];
      if ys[i] == ys[j] {
        OccursTwice(ys, i, j);
        DistinctOccursOnce(xs, key, ys[i]);
        assert false;
      } else {
        assert a != b;
      }
    }
  }

  /** Filter, sort by `key` highest first, and keep the first `limit`: the
      `limit` best matches (all of them when there are fewer), best first, and no
      match left out ranks above one kept. */
  function TopBy<T>(xs: seq<T>, p: T -> bool, key: T -> real, limit: int): (r: seq<T>)
    ensures limit >= 0 ==> |r| == Min(limit, |Filter(xs, p)|)
    ensures forall k :: 0 <= k < |r| ==> r[k] in xs && p(r[k])
    ensures NonIncreasing(r, key)
    ensures forall x, k :: x in xs && p(x) && x !in r && 0 <= k < |r| ==> key(x) <= key(r[k])
    ensures limit >= |Filter(xs, p)| ==> forall i :: 0 <= i < |xs| && p(xs[i]) ==> xs[i] in r
    ensures multiset(r) <= multiset(Filter(xs, p))
  {
    var matching := Filter(xs, p);
    var sorted := SortDesc(matching, key);
    var r := SliceTo(sorted, limit);
    CutFacts(matching, sorted, key, limit, r);
    FilterKeepsMatches(xs, p);
    r
  }

  lemma FilterKeepsMatches<T>(xs: seq<T>, p: T -> bool)
    ensures forall x :: x in xs && p(x) ==> x in Filter(xs, p)
  {
    forall x | x in xs && p(x) ensures x in Filter(xs, p) {
      var i :| 0 <= i < |xs| && xs[i] == x;
    }
  }

  /** A cut of a highest-first permutation `sorted` of `unique` to `limit`
      draws only on `unique`, is ordered, is as long as the limit allows,
      leaves out nothing that ranks above what it keeps, and is complete
      when the limit covers `unique`. */
  lemma CutFacts<T>(unique: seq<T>, sorted: seq<T>, rank: T -> real, limit: int, r: seq<T>)
    requires NonIncreasing(sorted, rank) && multiset(sorted) == multiset(unique)
    requires r == SliceTo(sorted, limit)
    ensures forall k :: 0 <= k < |r| ==> r[k] in unique
    ensures NonIncreasing(r, rank)
    ensures limit >= 0 ==> |r| == Min(limit, |unique|)
    ensures forall x, k :: x in unique && x !in r && 0 <= k < |r| ==> rank(x) <= rank(r[k])
    ensures limit >= |unique| ==> forall x :: x in unique ==> x in r
    ensures multiset(r) <= multiset(unique)
  {
    assert |sorted| == |multiset(sorted)| == |unique|;
    assert sorted == r + sorted[|r|..];
    forall x ensures x in sorted <==> x in unique {
      assert x in sorted <==> x in multiset(sorted);
    }
    PrefixOfSorted(sorted, r, rank);
    if limit >= |unique| {
      assert r == sorted;
    }
  }

  /** The same cut keeps keys distinct, and keeps every key of `unique`
      when the limit covers it. */
  lemma CutKeepsKeys<T, K>(unique: seq<T>, sorted: seq<T>, key: T -> K, limit: int, r: seq<T>)
    requires multiset(sorted) == multiset(unique)
    requires r == SliceTo(sorted, limit)
    ensures DistinctBy(unique, key) ==> DistinctBy(r, key)
    ensures limit >= |unique| ==> forall k' :: HasKey(unique, key, k') ==> HasKey(r, key, k')
  {
    assert |sorted| == |multiset(sorted)| == |unique|;
    if DistinctBy(unique, key) {
      PermutationKeepsDistinct(unique, sorted, key);
      PrefixKeepsDistinct(sorted, r, key);
    }
    if limit >= |unique| {
      assert r == sorted;
      forall k' | HasKey(unique, key, k') ensures HasKey(r, key, k') {
        PermutationKeepsKeys(unique, r, key, k');
      }
    }
  }

  /** A cut of a re-ordered de-duplication of `xs` keeps only first
      occurrences, with distinct keys, and every key of `xs` when the
      limit covers the de-duplication. */
  lemma CutOfDedupe<T, K>(xs: seq<T>, unique: seq<T>, sorted: seq<T>, key: T -> K, limit: int, r: seq<T>)
    requires forall k :: 0 <= k < |unique| ==> unique[k] in xs && FirstOfKey(xs, key, unique[k])
    requires DistinctBy(unique, key)
    requires forall i :: 0 <= i < |xs| ==> HasKey(unique, key, key(xs[i]))
    requires multiset(sorted) == multiset(unique)
    requires r == SliceTo(sorted, limit)
    ensures forall k :: 0 <= k < |r| ==> r[k] in xs && FirstOfKey(xs, key, r[k])
    ensures DistinctBy(r, key)
    ensures limit >= |unique| ==> forall i :: 0 <= i < |xs| ==> HasKey(r, key, key(xs[i]))
  {
    CutKeepsKeys(unique, sorted, key, limit, r);
    assert |sorted| == |multiset(sorted)| == |unique|;
    forall k | 0 <= k < |r| ensures r[k] in xs && FirstOfKey(xs, key, r[k]) {
      assert r[k] == sorted[k];
      assert r[k] in multiset(unique);
      var j :| 0 <= j < |unique| && unique[j] == r[k];
    }
    if limit >= |unique| {
      forall i | 0 <= i < |xs| ensures HasKey(r, key, key(xs[i])) {
        assert HasKey(unique, key, key(xs[i]));
      }
    }
  }

  /** A prefix of a highest-first list draws on the list, is itself
      highest-first, and nothing the prefix leaves out ranks above what it
      keeps. */
  lemma PrefixOfSorted<T>(sorted: seq<T>, r: seq<T>, rank: T -> real)
    requires NonIncreasing(sorted, rank) && r <= sorted
    ensures forall k :: 0 <= k < |r| ==> r[k] in sorted
    ensures NonIncreasing(r, rank)
    ensures forall x, k :: x in sorted && x !in r && 0 <= k < |r| ==> rank(x) <= rank(r[k])
  {
    forall k | 0 <= k < |r| ensures r[k] in sorted {
      assert r[k] == sorted[k];
    }
    forall i, j | 0 <= i < j < |r| ensures rank(r[i]) >= rank(r[j]) {
      assert r[i] == sorted[i] && r[j] == sorted[j];
    }
    forall x, k | x in sorted && x !in r && 0 <= k < |r| ensures rank(x) <= rank(r[k]) {
      var j :| 0 <= j < |sorted| && sorted[j] == x;
      assert r == sorted[..|r|];
      assert j >= |r|;
      assert r[k] == sorted[k];
    }
  }

  lemma PrefixKeepsDistinct<T, K>(sorted: seq<T>, r: seq<T>, key: T -> K)
    requires DistinctBy(sorted, key) && r <= sorted
    ensures DistinctBy(r, key)
  {
    forall i, j | 0 <= i < j < |r| ensures key(r[i]) != key(r[j]) {
      assert r[i] == sorted[i] && r[j] == sorted[j];
    }
  }

  /** Reordering keeps every key that was present. */
  lemma PermutationKeepsKeys<T, K>(xs: seq<T>, ys: seq<T>, key: T -> K, k: K)
    requires multiset(xs) == multiset(ys) && HasKey(xs, key, k)
    ensures HasKey(ys, key, k)
  {
    var j :| 0 <= j < |xs| && key(xs[j]) == k;
    assert xs[j] in multiset(ys);
    var i :| 0 <= i < |ys| && ys[i] == xs[j];
  }
}

=== FILE: text.dfy ===
/** String helpers with the JavaScript semantics the source relies on:
    `toLowerCase`, `toUpperCase`, `includes`, `startsWith`, `trim`,
    `Number.prototype.toString` and the `/^\d*$/` test. */
module Text {

  /** ASCII case folding; other characters are left as they are. */
  function LowerChar(c: char): char {
    if 'A' <= c <= 'Z' then (c as int + 32) as char else c
  }

  function UpperChar(c: char): char {
    if 'a' <= c <= 'z' then (c as int - 32) as char else c
  }

  function ToLower(s: string): (r: string)
    ensures |r| == |s|
    ensures forall i :: 0 <= i < |s| ==> r[i] == LowerChar(s[i])
  {
    seq(|s|, i requires 0 <= i < |s| => LowerChar(s[i]))
  }

  function ToUpper(s: string): (r: string)
    ensures |r| == |s|
    ensures forall i :: 0 <= i < |s| ==> r[i] == UpperChar(s[i])
  {
    seq(|s|, i requires 0 <= i < |s| => UpperChar(s[i]))
  }

  /** Folding twice is folding once, so a folded string compares equal
      to the folding of any string that differs from it only in case. */
  lemma ToLowerIdempotent(s: string)
    ensures ToLower(ToLower(s)) == ToLower(s)
  {
  }

  /** Folding to upper case loses nothing lower-case folding keeps. */
  lemma LowerUpper(s: string)
    ensures ToLower(ToUpper(s)) == ToLower(s)
  {
  }

  /** `hay.includes(needle)` */
  predicate Contains(hay: string, needle: string) {
    exists i :: 0 <= i <= |hay| && needle <= hay[i..]
  }

  /** `s.startsWith(prefix)` */
  predicate StartsWith(s: string, prefix: string) {
    prefix <= s
  }

  /** Every string includes the empty string. */
  lemma ContainsEmpty(hay: string)
    ensures Contains(hay, "")
  {
    assert "" <= hay[0..];
  }

  /** A string includes itself and each of its prefixes. */
  lemma ContainsPrefix(hay: string, needle: string)
    requires StartsWith(hay, needle)
    ensures Contains(hay, needle)
  {
    assert needle <= hay[0..];
  }

  /** The characters `String.prototype.trim` removes: the WhiteSpace
      (TAB, VT, FF, ZWNBSP and every space separator) and LineTerminator
      (LF, CR, LS, PS) code points of section 12.2 and 12.3 of ECMA-262. */
  predicate IsSpace(c: char) {
    || c == '\t' || c == '\n' || c == '\r' || c == ' '
    || c == '\U{000B}' || c == '\U{000C}' || c == '\U{00A0}' || c == '\U{1680}'
    || ('\U{2000}' <= c <= '\U{200A}')
    || c == '\U{2028}' || c == '\U{2029}' || c == '\U{202F}' || c == '\U{205F}'
    || c == '\U{3000}' || c == '\U{FEFF}'
  }

  predicate AllSpace(s: string) {
    forall i :: 0 <= i < |s| ==> IsSpace(s[i])
  }

  function TrimStart(s: string): (r: string)
    ensures exists a :: 0 <= a <= |s| && r == s[a..] && AllSpace(s[..a])
    ensures r == [] || !IsSpace(r[0])
    decreases |s|
  {
    if |s| > 0 && IsSpace(s[0]) then
      var r := TrimStart(s[1..]);
      ghost var a :| 0 <= a <= |s[1..]| && r == s[1..][a..] && AllSpace(s[1..][..a]);
      assert s[1..][a..] == s[a + 1..];
      forall i | 0 <= i < a + 1 ensures IsSpace(s[i]) {
        if i > 0 {
          assert s[i] == s[1..][..a][i - 1];
        }
      }
      assert AllSpace(s[..a + 1]);
      r
    else
      assert s == s[0..] && s[..0] == [];
      s
  }

  function TrimEnd(s: string): (r: string)
    ensures exists b :: 0 <= b <= |s| && r == s[..b] && AllSpace(s[b..])
    ensures r == [] || !IsSpace(r[|r| - 1])
    decreases |s|
  {
    if |s| > 0 && IsSpace(s[|s| - 1]) then
      var r := TrimEnd(s[..|s| - 1]);
      ghost var b :| 0 <= b <= |s| - 1 && r == s[..|s| - 1][..b] && AllSpace(s[..|s| - 1][b..]);
      ghost var body := s[..|s| - 1];
      assert body[..b] == s[..b];
      forall i | b <= i < |s| ensures IsSpace(s[i]) {
        if i < |s| - 1 {
          assert s[i] == body[b..][i - b];
        }
      }
      assert AllSpace(s[b..]);
      r
    else
      assert s == s[..|s|] && s[|s|..] == [];
      s
  }

  /** `s.trim()`: the longest infix of `s` that neither starts nor ends
      with white space, obtained by dropping only white space. */
  function Trim(s: string): (r: string)
    ensures exists a, b :: 0 <= a <= b <= |s| && r == s[a..b] && AllSpace(s[..a]) && AllSpace(s[b..])
    ensures r == [] || (!IsSpace(r[0]) && !IsSpace(r[|r| - 1]))
  {
    var t := TrimStart(s);
    var r := TrimEnd(t);
    TrimComposes(s, t, r);
    r
  }

  lemma TrimComposes(s: string, t: string, r: string)
    requires exists a :: 0 <= a <= |s| && t == s[a..] && AllSpace(s[..a])
    requires t == [] || !IsSpace(t[0])
    requires exists b :: 0 <= b <= |t| && r == t[..b] && AllSpace(t[b..])
    ensures exists a, b :: 0 <= a <= b <= |s| && r == s[a..b] && AllSpace(s[..a]) && AllSpace(s[b..])
    ensures r == [] || !IsSpace(r[0])
  {
    var a :| 0 <= a <= |s| && t == s[a..] && AllSpace(s[..a]);
    var b :| 0 <= b <= |t| && r == t[..b] && AllSpace(t[b..]);
    assert r == s[a..a + b];
    assert s[a + b..] == t[b..];
    assert r == [] || r[0] == t[0];
  }

  /** Trimming a string made of white space only yields the empty string. */
  lemma TrimAllSpace(s: string)
    requires AllSpace(s)
    ensures Trim(s) == []
  {
    TrimStartAllSpace(s);
  }

  lemma {:induction false} TrimStartAllSpace(s: string)
    requires AllSpace(s)
    ensures TrimStart(s) == []
  {
    if |s| > 0 {
      TrimStartAllSpace(s[1..]);
    }
  }

  predicate IsDigit(c: char) {
    '0' <= c <= '9'
  }

  /** `/^\d*$/.test(s)` */
  predicate AllDigits(s: string) {
    forall i :: 0 <= i < |s| ==> IsDigit(s[i])
  }

  function DigitChar(d: nat): (c: char)
    requires d < 10
    ensures IsDigit(c)
  {
    ('0' as int + d) as char
  }

  function DigitValue(c: char): nat
    requires IsDigit(c)
  {
    c as int - '0' as int
  }

  /** `n.toString()` for a non-negative integer: its decimal digits,
      most significant first, without leading zeros. */
  function DecimalString(n: nat): (s: string)
    ensures |s| >= 1 && AllDigits(s)
    ensures |s| > 1 ==> s[0] != '0'
  {
    if n < 10 then [DigitChar(n)] else DecimalString(n / 10) + [DigitChar(n % 10)]
  }

  /** The value a string of decimal digits denotes. */
  function DecimalValue(s: string): nat
    requires AllDigits(s)
  {
    if |s| == 0 then 0 else 10 * DecimalValue(s[..|s| - 1]) + DigitValue(s[|s| - 1])
  }

  /** Reading back a decimal rendering gives the number rendered. */
  lemma {:induction false} DecimalRoundTrip(n: nat)
    ensures DecimalValue(DecimalString(n)) == n
  {
    var s := DecimalString(n);
    if n >= 10 {
      DecimalRoundTrip(n / 10);
      assert s[..|s| - 1] == DecimalString(n / 10);
    }
  }

  function Pow10(k: nat): (p: nat)
    ensures p >= 1
  {
    if k == 0 then 1 else 10 * Pow10(k - 1)
  }

  /** A number with k digits renders as exactly k characters. */
  lemma {:induction false} DecimalLength(n: nat, k: nat)
    requires k >= 1 && Pow10(k - 1) <= n < Pow10(k)
    ensures |DecimalString(n)| == k
  {
    if k > 1 {
      assert Pow10(k - 1) == 10 * Pow10(k - 2);
      DecimalLength(n / 10, k - 1);
    } else {
      assert Pow10(1) == 10;
    }
  }

  /** `String(n)` for any integer. */
  function IntString(n: int): (s: string)
    ensures |s| >= 1
  {
    if n >= 0 then DecimalString(n) else "-" + DecimalString(-n)
  }

  /** Different integers print differently. */
  lemma IntStringInjective(a: int, b: int)
    requires a != b
    ensures IntString(a) != IntString(b)
  {
    if a >= 0 && b >= 0 {
      DecimalRoundTrip(a);
      DecimalRoundTrip(b);
    } else if a < 0 && b < 0 {
      DecimalRoundTrip(-a);
      DecimalRoundTrip(-b);
      assert IntString(a)[1..] == DecimalString(-a) && IntString(b)[1..] == DecimalString(-b);
    } else {
      assert !IsDigit('-');
      assert IntString(a)[0] != IntString(b)[0];
    }
  }
}

=== FILE: verification.dfy ===
/** The e-mail verification flow: `POST /api/auth/resend-verification`
    replaces every token of an address with one fresh six-digit code that
    lives ten minutes, and `POST /api/auth/verify-email` consumes a
    matching, unexpired code and marks the user verified. The token table
    is the `VerificationToken` model of the authentication adapter, whose
    `token` column is unique. */
module Verification {
  import opened Base
  import opened Http
  import Seqs
  import Text


  datatype User = User(email: string, emailVerified: Option<Time>)
  datatype Token = Token(identifier: string, token: string, expires: Time)
  datatype AuthStore = AuthStore(users: seq<User>, tokens: seq<Token>)
  datatype Outcome = Outcome(result: Result<()>, store: AuthStore)

  /** `z.string().length(6)` */
  const CodeLength := 6
  /** `10 * 60 * 1000` milliseconds */
  const TokenLifetime := 600_000

  /** A simplified `z.string().email()`: one `@` with text on both sides
      and no white space. */
  predicate IsEmail(s: string) {
    exists i :: 0 < i < |s| - 1 && s[i] == '@' && '@' !in s[..i] && '@' !in s[i + 1..]
                && forall j :: 0 <= j < |s| ==> !Text.IsSpace(s[j])
  }

  predicate ValidEmail(f: Field<string>) {
    f.Value? && IsEmail(f.v)
  }

  // ---------------------------------------------------------------------
  // Verify
  // ---------------------------------------------------------------------

  datatype VerifyBody = VerifyBody(email: Field<string>, code: Field<string>)

  predicate VerifyBodyValid(b: VerifyBody) {
    ValidEmail(b.email) && b.code.Value? && |b.code.v| == CodeLength
  }

  /** A stored token matches when it is for the same address and code and
      has not expired (`expires >= now`). */
  predicate Usable(t: Token, email: string, code: string, now: Time) {
    t.identifier == email && t.token == code && t.expires >= now
  }

  predicate HasUser(users: seq<User>, email: string) {
    exists i :: 0 <= i < |users| && users[i].email == email
  }

  /** The account with address `email` (the first, should the table hold
      several). */
  function UserOf(users: seq<User>, email: string): (u: Option<User>)
    ensures u.None? <==> !HasUser(users, email)
    ensures u.Some? ==> exists i :: 0 <= i < |users| && users[i] == u.value && users[i].email == email
                                   && forall j :: 0 <= j < i ==> users[j].email != email
  {
    Seqs.FindFirst(users, (x: User) => x.email == email)
  }

  /** Records that the account with address `email` was verified at `now`;
      every other account stays as it was. */
  function MarkVerified(users: seq<User>, email: string, now: Time): (r: seq<User>)
    ensures |r| == |users|
    ensures forall i :: 0 <= i < |users| ==> r[i].email == users[i].email
    ensures forall i :: 0 <= i < |users| && users[i].email == email ==> r[i].emailVerified == Some(now)
    ensures forall i :: 0 <= i < |users| && users[i].email != email ==> r[i] == users[i]
  {
    seq(|users|, i requires 0 <= i < |users| =>
      if users[i].email == email then users[i].(emailVerified := Some(now)) else users[i])
  }

  function VerifyEmail(store: AuthStore, body: VerifyBody, now: Time): (r: Outcome)
    ensures r.result.Err? ==> r.store == store
    ensures !VerifyBodyValid(body) ==> r.result == Err(BadRequest(InvalidInput))
    ensures VerifyBodyValid(body) ==>
              (r.result == Err(BadRequest(InvalidOrExpiredCode)) <==>
                 forall i :: 0 <= i < |store.tokens| ==> !Usable(store.tokens[i], body.email.v, body.code.v, now))
    ensures r.result.Ok? <==>
              && VerifyBodyValid(body)
              && (exists i :: 0 <= i < |store.tokens| && Usable(store.tokens[i], body.email.v, body.code.v, now))
              && HasUser(store.users, body.email.v)
    ensures r.result.Ok? ==>
              && r.store.users == MarkVerified(store.users, body.email.v, now)
              && (forall i :: 0 <= i < |r.store.tokens| ==>
                    r.store.tokens[i] in store.tokens && r.store.tokens[i].token != body.code.v)
              && (forall i :: 0 <= i < |store.tokens| && store.tokens[i].token != body.code.v ==>
                    store.tokens[i] in r.store.tokens)
  {
    if !VerifyBodyValid(body) then Outcome(Err(BadRequest(InvalidInput)), store)
    else
      var email, code := body.email.v, body.code.v;
      var found := Seqs.FindFirst(store.tokens, (t: Token) => Usable(t, email, code, now));
      if found.None? then Outcome(Err(BadRequest(InvalidOrExpiredCode)), store)
      // `update` on a missing row throws, which the handler turns into 500
      else if !HasUser(store.users, email) then Outcome(Err(InternalError), store)
      else
        Outcome(Ok(()), AuthStore(MarkVerified(store.users, email, now),
                                  Seqs.Filter(store.tokens, (t: Token) => t.token != found.value.token)))
  }

  /** The expiry bound is inclusive. */
  lemma TokenExpiringNowIsAccepted(user: User, code: string, now: Time)
    requires IsEmail(user.email) && |code| == CodeLength
    ensures VerifyEmail(AuthStore([user], [Token(user.email, code, now)]),
                        VerifyBody(Value(user.email), Value(code)), now).result.Ok?
  {
    assert Usable(Token(user.email, code, now), user.email, code, now);
    assert [user][0].email == user.email;
  }

  /** A code works once: verifying again with it finds no token. */
  lemma CodeIsSingleUse(store: AuthStore, body: VerifyBody, now: Time, later: Time)
    requires VerifyEmail(store, body, now).result.Ok?
    ensures VerifyEmail(VerifyEmail(store, body, now).store, body, later).result
            == Err(BadRequest(InvalidOrExpiredCode))
  {
  }

  // ---------------------------------------------------------------------
  // Resend
  // ---------------------------------------------------------------------

  /** `Math.floor(100000 + Math.random() * 900000)`, for `0 <= random < 1`. */
  function CodeNumber(random: real): (n: int)
    requires 0.0 <= random < 1.0
    ensures 100_000 <= n <= 999_999
  {
    assert random * 900_000.0 < 900_000.0;
    (100_000.0 + random * 900_000.0).Floor
  }

  /** The new code's decimal string: always six digits. */
  function NewCode(random: real): (code: string)
    requires 0.0 <= random < 1.0
    ensures |code| == CodeLength && Text.AllDigits(code)
    ensures Text.DecimalValue(code) == CodeNumber(random)
  {
    var n := CodeNumber(random);
    assert Text.Pow10(5) == 100_000 && Text.Pow10(6) == 1_000_000 by {
      assert Text.Pow10(1) == 10 && Text.Pow10(2) == 100 && Text.Pow10(3) == 1000 && Text.Pow10(4) == 10_000;
    }
    Text.DecimalLength(n, 6);
    Text.DecimalRoundTrip(n);
    Text.DecimalString(n)
  }

  predicate TokenValueTaken(tokens: seq<Token>, code: string) {
    exists i :: 0 <= i < |tokens| && tokens[i].token == code
  }

  /** `random` is `Math.random()` and `now` is `Date.now()`. */
  function ResendVerification(store: AuthStore, email: Field<string>, random: real, now: Time): (r: Outcome)
    requires 0.0 <= random < 1.0
    ensures !ValidEmail(email) ==> r == Outcome(Err(BadRequest(InvalidInput)), store)
    ensures ValidEmail(email) && !HasUser(store.users, email.v) ==> r == Outcome(Err(NotFound), store)
    ensures r.result == Err(BadRequest(AlreadyVerified)) ==> r.store == store
    ensures ValidEmail(email) && UserOf(store.users, email.v).Some?
            && UserOf(store.users, email.v).value.emailVerified.Some? ==>
              r == Outcome(Err(BadRequest(AlreadyVerified)), store)
    ensures ValidEmail(email) && UserOf(store.users, email.v).Some?
            && UserOf(store.users, email.v).value.emailVerified.None? ==>
              && (r.result.Ok? <==>
                    !TokenValueTaken(Seqs.Filter(store.tokens, (t: Token) => t.identifier != email.v), NewCode(random)))
              && (r.result.Err? ==> r.result == Err(InternalError))
    ensures r.result.Ok? ==>
              && ValidEmail(email)
              && r.store.users == store.users
              && (exists i :: 0 <= i < |store.users| && store.users[i].email == email.v
                              && store.users[i].emailVerified.None?)
              && r.store.tokens == Seqs.Filter(store.tokens, (t: Token) => t.identifier != email.v)
                                   + [Token(email.v, NewCode(random), now + TokenLifetime)]
    ensures r.result.Ok? ==> forall i :: 0 <= i < |r.store.tokens| ==>
              (r.store.tokens[i].identifier == email.v <==> i == |r.store.tokens| - 1)
    ensures r.result == Err(InternalError) ==>
              r.store == store.(tokens := Seqs.Filter(store.tokens, (t: Token) => t.identifier != email.v))
  {
    if !ValidEmail(email) then Outcome(Err(BadRequest(InvalidInput)), store)
    else
      var user := UserOf(store.users, email.v);
      if user.None? then Outcome(Err(NotFound), store)
      else if user.value.emailVerified.Some? then Outcome(Err(BadRequest(AlreadyVerified)), store)
      else
        var kept := Seqs.Filter(store.tokens, (t: Token) => t.identifier != email.v);
        var code := NewCode(random);
        // `create` violates the unique `token` column: the handler answers
        // 500, but the `deleteMany` before it has already happened
        if TokenValueTaken(kept, code) then Outcome(Err(InternalError), store.(tokens := kept))
        else
          var tokens := kept + [Token(email.v, code, now + TokenLifetime)];
          assert forall i :: 0 <= i < |kept| ==> tokens[i] == kept[i];
          Outcome(Ok(()), AuthStore(store.users, tokens))
  }

  /** Token values are unique, as the adapter's schema demands. */
  ghost predicate TokensUnique(store: AuthStore) {
    Seqs.DistinctBy(store.tokens, (t: Token) => t.token)
  }

  lemma VerifyKeepsTokensUnique(store: AuthStore, body: VerifyBody, now: Time)
    requires TokensUnique(store)
    ensures TokensUnique(VerifyEmail(store, body, now).store)
  {
    var r := VerifyEmail(store, body, now);
    if r.result.Ok? {
      var found := Seqs.FindFirst(store.tokens, (t: Token) => Usable(t, body.email.v, body.code.v, now));
      Seqs.FilterKeepsDistinct(store.tokens, (t: Token) => t.token != found.value.token, (t: Token) => t.token);
    }
  }

  lemma ResendKeepsTokensUnique(store: AuthStore, email: Field<string>, random: real, now: Time)
    requires 0.0 <= random < 1.0
    requires TokensUnique(store)
    ensures TokensUnique(ResendVerification(store, email, random, now).store)
  {
    var r := ResendVerification(store, email, random, now);
    if r.result.Ok? || r.result == Err(InternalError) {
      var kept := Seqs.Filter(store.tokens, (t: Token) => t.identifier != email.v);
      Seqs.FilterKeepsDistinct(store.tokens, (t: Token) => t.identifier != email.v, (t: Token) => t.token);
      if r.result.Ok? {
        var code := NewCode(random);
        assert !TokenValueTaken(kept, code);
        var tokens := r.store.tokens;
        forall i, j | 0 <= i < j < |tokens| ensures tokens[i].token != tokens[j].token {
          assert tokens[i] == kept[i];
          if j == |kept| {
            assert tokens[j].token == code;
          } else {
            assert tokens[j] == kept[j];
          }
        }
      }
    }
  }

  /** The code a successful resend issues verifies the address for the
      whole ten minutes it lives, and not after. */
  lemma ResendThenVerify(store: AuthStore, email: Field<string>, random: real, now: Time, later: Time)
    requires 0.0 <= random < 1.0
    requires ResendVerification(store, email, random, now).result.Ok?
    ensures var s := ResendVerification(store, email, random, now).store;
            var r := VerifyEmail(s, VerifyBody(email, Value(NewCode(random))), later);
            && (r.result.Ok? <==> later <= now + TokenLifetime)
            && (r.result.Ok? ==> forall i :: 0 <= i < |r.store.users| && r.store.users[i].email == email.v ==>
                                   r.store.users[i].emailVerified == Some(later))
  {
    var s := ResendVerification(store, email, random, now).store;
    var code := NewCode(random);
    var last := |s.tokens| - 1;
    assert s.tokens[last] == Token(email.v, code, now + TokenLifetime);
    var u :| 0 <= u < |store.users| && store.users[u].email == email.v && store.users[u].emailVerified.None?;
    assert s.users[u].email == email.v;
    if later > now + TokenLifetime {
      forall i | 0 <= i < |s.tokens| ensures !Usable(s.tokens[i], email.v, code, later) {
        if i != last {
          assert s.tokens[i].identifier != email.v;
        }
      }
    } else {
      assert Usable(s.tokens[last], email.v, code, later);
    }
  }

  /** Once verified, an address cannot ask for another code. */
  lemma VerifiedUserCannotResend(store: AuthStore, body: VerifyBody, now: Time, random: real, later: Time)
    requires 0.0 <= random < 1.0
    requires VerifyEmail(store, body, now).result.Ok?
    ensures ResendVerification(VerifyEmail(store, body, now).store, body.email, random, later).result
            == Err(BadRequest(AlreadyVerified))
  {
    var s := VerifyEmail(store, body, now).store;
    var user := UserOf(s.users, body.email.v);
    assert user.Some?;
    var k :| 0 <= k < |s.users| && s.users[k] == user.value && s.users[k].email == body.email.v;
    assert s.users[k].emailVerified == Some(now);
  }
}
